=== FILE: README.md ===
# VibeProxy in Dafny

VibeProxy Manager drives a VibeProxy server on a Mac from a Windows or Linux
machine. It runs an SSH port forward to the Mac, keeps a small JSON
configuration, and lists the served models in a terminal UI. It also writes
preset files for Agent Zero and for Droid (Factory), and it ships a Python
and a Node client for the chat API. This project models the deterministic
decision logic of these parts as pure Dafny functions over immutable data:

- **Tunnel** (`tunnel.dfy`, `headless.dfy`): the launch branch; the mapping of
  process and port outcomes to `(success, message)`; the forward and target
  strings; `stop`; the headless launcher's tick-based wait loop and exit code;
  and the subnet scan with its per-host labels and sorted result.
- **Configuration** (`config.dfy`): key mapping on load, with PascalCase
  winning over snake_case; the load cache; save and its round trip;
  favourites; the token clamp; preset file names and contents; the preset
  listing; and the Factory default-model upsert.
- **Catalogue** (`catalogue.dfy`, `browse.dfy`): provider classification,
  display names, and the model browser's filter, group, order and label
  pipeline.
- **Sync scripts** (`droid_sync.dfy`, `a0_sync.dfy`): the Droid merge, which
  deduplicates by model id and gives consecutive indices, and the Agent Zero
  preset generation with its safe-name normalisation.
- **API clients** (`api.dfy`, `node_client.dfy`): URL normalisation, message
  conversion, the temperature rules, and reply extraction with its error
  fallback. On the Node side, also constructor defaults, stream chunk mapping,
  per-session conversation histories and the abort-controller registry.

Shared helpers live in `wrappers.dfy` (`Option`), `strings.dfy` (ASCII case,
trimming, `str.title`, integer rendering, split and join), `seqs.dfy`
(filter and counting), `ordering.dfy` (string order and a stable insertion
sort) and `json.dfy` (JSON values).

Sockets, processes, HTTP, the clock and the file system are parameters.
These include:

- whether a port listens;
- what a launched process did;
- what a probe answered;
- the parsed reply body;
- the parsed contents of a file.

Time in the headless wait loop is counted in one-second ticks. Temperatures
are exact `real`s. JavaScript's `||`, `??` and `?.` and Python's truthiness
are written out.

`ssh-tunnel-intelligent.py` calls `force_reset` and `connect_with_retry`,
which `tunnel.py` does not define; that script is not modelled.

## Model

| member | source | states |
|---|---|---|
| Catalogue.NewModel | vibeproxy_manager/models.py:8-14 | a model built from an id alone has object "model", created 0 and owner "vibeproxy" |
| Catalogue.ProviderIsFirstMatch | vibeproxy_manager/models.py:17-31 | the classification equals a first-match walk over the keyword table on the lower-cased id |
| Catalogue.ProviderListed | vibeproxy_manager/models.py:17-31 | every provider is one of the six in `PROVIDER_ORDER`, whose names line up with the provider values |
| Catalogue.ProviderPrecedence | vibeproxy_manager/models.py:19-31 | "claude" wins over every other keyword, OpenAI means "gpt" without "claude", and so on; "Other" means no keyword occurs |
| Catalogue.ProviderIgnoresCase | vibeproxy_manager/models.py:19 | ids equal up to ASCII case have the same provider |
| Catalogue.ProviderOfLowered | vibeproxy_manager/models.py:19 | lower-casing an id first does not change its provider |
| Catalogue.DisplayName | vibeproxy_manager/models.py:33-36 | the table's name for a known id, the id unchanged otherwise |
| Catalogue.UsableId | scripts/sync-models-to-droid.py:161-163 | an id is acted on exactly when it is present and non-empty |
| Config.Pick | vibeproxy_manager/config.py:50-58 | the PascalCase value if present, else the snake_case value, else the default |
| Config.Picked | vibeproxy_manager/config.py:50-59 | each of the eight fields is picked with its own key pair and default |
| Config.ReadConfig | vibeproxy_manager/config.py:44-62 | a missing, unreadable, non-object or invalid file gives all defaults |
| Config.EmptyObjectGivesDefaults | vibeproxy_manager/config.py:12-22 | an empty JSON object loads as exactly the declared field defaults |
| Config.KeyPairsDistinct | vibeproxy_manager/config.py:50-58 | no snake_case key equals any PascalCase key, and the keys of each kind are distinct |
| Config.PascalShadowsSnake | vibeproxy_manager/config.py:50-59 | with the PascalCase key present, changing the snake_case value changes nothing |
| Config.SnakeStandsInForPascal | vibeproxy_manager/config.py:50-59 | without the PascalCase key, the snake_case value is read as if it were stored under the PascalCase key |
| Config.Load | vibeproxy_manager/config.py:39-65 | a cached config is returned unchanged; otherwise the file's config is returned and becomes the cache |
| Config.LoadIsCached | vibeproxy_manager/config.py:41-42 | after one load, later loads return the first config whatever the file now holds |
| Config.SaveData | vibeproxy_manager/config.py:72-82 | the saved object has exactly the eight PascalCase keys |
| Config.Save | vibeproxy_manager/config.py:67-88 | the given config, else the cached one, else the one read from the file, is written and becomes the cache; a cached manager is left as it was |
| Config.SaveLoadRoundTrip | vibeproxy_manager/config.py:39-88 | a fresh load of a saved file returns the saved config |
| Config.RemoveFirst | vibeproxy_manager/config.py:212 | `list.remove` drops the first occurrence and keeps the rest in order, one fewer as a multiset; a list without the value is unchanged |
| Config.RemovedBehind | vibeproxy_manager/config.py:212 | removing behind a different head element keeps that head and removes at the shifted position |
| Config.AddFavorite | vibeproxy_manager/config.py:201-206 | the id is a favourite afterwards; the list grows by the id only if it was absent, and only then is it saved |
| Config.AddFavoriteIdempotent | vibeproxy_manager/config.py:201-206 | adding twice is adding once; a duplicate-free list stays duplicate-free |
| Config.RemoveFavorite | vibeproxy_manager/config.py:208-213 | a non-member changes nothing; otherwise its first occurrence goes, the rest keep their order, and the config is saved |
| Config.ToggleFavorite | vibeproxy_manager/config.py:215-225 | the reported state is the flipped membership, and it matches the list when the id was listed at most once |
| Config.ToggleTwiceRestores | vibeproxy_manager/config.py:215-225 | toggling twice restores membership and the multiset of favourites |
| Config.ToggleWithDuplicateKeepsMember | vibeproxy_manager/config.py:218-221 | with the id listed twice, toggling reports "not a favourite" while the id is still listed |
| Config.SetMaxTokens | vibeproxy_manager/config.py:236-240 | the stored limit is the request clamped to 1..128000, other fields unchanged |
| Config.Sanitize | vibeproxy_manager/config.py:189 | same length; characters in `[a-z0-9-]` are kept and every other character becomes "-" |
| Config.CreateConfigForModel | vibeproxy_manager/config.py:175-198 | the file name is "a0-", then each lower-cased id character kept when in `[a-z0-9-]` and "-" otherwise, then ".json"; the temperature is "1" exactly for the GPT-5 family |
| Config.PresetNameIgnoresCase | vibeproxy_manager/config.py:184-190 | ids equal up to case share a file name and temperature |
| Config.ExtractModel | vibeproxy_manager/config.py:98-105 | an unreadable file yields no preset |
| Config.ModelOf | vibeproxy_manager/config.py:101-105 | `chat.model` when present; without a `chat` section, or with one for which `"model" in chat` is false, the top-level `chat_model` or ""; a non-object `chat` for which that test is true or raises makes the lookup raise |
| Config.ToA0Config | vibeproxy_manager/config.py:107-115 | path and model are taken over; the description is empty exactly when the model is |
| Config.Listed | vibeproxy_manager/config.py:97-117 | sorted by name; as a multiset, exactly the globbed files whose model can be read |
| Config.GlobbedSorted | vibeproxy_manager/config.py:97 | sorted by name; as a multiset, exactly the files matching `a0-*.json` |
| Config.ListedCounts | vibeproxy_manager/config.py:97-117 | keeping the readable files of the sorted glob counts each presettable file as often as it occurs |
| Config.GetA0Configs | vibeproxy_manager/config.py:90-119 | none without a directory; otherwise one preset per listed file with its path and model |
| Config.A0ConfigsSortedByPath | vibeproxy_manager/config.py:97 | the presets come out ordered by path |
| Config.SetFactoryDefaultModel | vibeproxy_manager/config.py:260-301 | success exactly when the file has the updatable shape and the write succeeds, with the message of each outcome, "Cannot write to Factory config: {error}" on a failed write |
| Config.FactoryDefaultFirst | vibeproxy_manager/config.py:273-290 | the new entry is first and is the only entry for the model; the others keep their order; a non-list is treated as empty; other keys are untouched |
| Tunnel.ForwardParts | vibeproxy_manager/tunnel.py:96 | the forward splits back into local port, "localhost" and remote port |
| Tunnel.ManualCommandParts | vibeproxy_manager/tunnel.py:224-229 | the manual command splits into ssh, -N, -L, the forward and the target |
| Tunnel.ChooseLaunch | vibeproxy_manager/tunnel.py:103-155 | sshpass exactly when a password is set off Windows; the background process exactly on Windows |
| Tunnel.LaunchArgv | vibeproxy_manager/tunnel.py:105-163 | every command ends with -L, the forward and the target; sshpass passes the password before ssh; the others start with ssh and use BatchMode; only the Windows branch runs without -f |
| Tunnel.NotFound | vibeproxy_manager/tunnel.py:189-192 | the sshpass hint exactly when the error names sshpass |
| Tunnel.PosixError | vibeproxy_manager/tunnel.py:182 | the first non-empty of stripped stderr, stripped stdout and "Unknown error", stripping the characters `str.isspace` accepts; never empty |
| Tunnel.WindowsError | vibeproxy_manager/tunnel.py:149 | "Unknown error" only for empty stderr, else stderr stripped of `str.isspace` characters |
| Tunnel.BlankStderrGivesEmptyReason | vibeproxy_manager/tunnel.py:147-150 | a Windows process that wrote only blanks is reported with an empty reason |
| Tunnel.PosixOutcome | vibeproxy_manager/tunnel.py:165-194 | exit 0 succeeds exactly when the port then listens; another exit fails with the process output; timeout, missing executable and other errors each get their outcome |
| Tunnel.WindowsOutcome | vibeproxy_manager/tunnel.py:134-194 | a live process succeeds exactly when the port listens; a dead one fails with its stderr; spawn errors get their outcome |
| Tunnel.PosixReplies | vibeproxy_manager/tunnel.py:173-180 | the exact `(success, message)` after a zero exit, with and without the port listening |
| Tunnel.PosixExceptionReplies | vibeproxy_manager/tunnel.py:187-194 | the exact `(success, message)` of the timeout, the missing sshpass and any other error |
| Tunnel.WindowsReplies | vibeproxy_manager/tunnel.py:152-154 | the exact `(success, message)` while the process runs, with and without the port listening |
| Tunnel.WindowsFailureReplies | vibeproxy_manager/tunnel.py:146-194 | a silent death reads "SSH failed: Unknown error"; any other error is reported as its own text |
| Tunnel.ArgvIgnoresPassword | vibeproxy_manager/tunnel.py:103-163 | outside the sshpass branch the command is the same whatever the password |
| Tunnel.Start | vibeproxy_manager/tunnel.py:81-194 | the early exits launch nothing; the argv is the chosen branch's; a Unix launch ends as `PosixOutcome` and a Windows launch as `WindowsOutcome` of its process result; "Unexpected code path" is unreachable |
| Tunnel.PasswordOnlyToSshpass | vibeproxy_manager/tunnel.py:103-163 | on Windows or without a password the command starts with ssh itself |
| Tunnel.PkillPatternMatchesForward | vibeproxy_manager/tunnel.py:212 | the pkill pattern after `ssh.*` is a prefix of this tunnel's forward |
| Tunnel.Stop | vibeproxy_manager/tunnel.py:196-222 | succeeds exactly when not running, or on Unix when pkill ran and the port closed; always fails on Windows while running |
| Tunnel.EnsurePasswordSaved | vibeproxy_manager/tunnel.py:272-282 | true exactly when the password holds a character `str.isspace` rejects |
| Tunnel.UnicodeBlankPasswordNotSaved | vibeproxy_manager/tunnel.py:277 | no-break, separator and ideographic spaces alone are blank; with a letter between them the password is saved |
| Tunnel.Subnet | vibeproxy_manager/tunnel.py:299 | the first three dot-separated parts of the address, a prefix of it |
| Tunnel.Hosts | vibeproxy_manager/tunnel.py:323 | 254 addresses, subnet.1 to subnet.254 in order |
| Tunnel.HostsDistinct | vibeproxy_manager/tunnel.py:323 | no address is probed twice |
| Tunnel.HostsAreTheSubnet | vibeproxy_manager/tunnel.py:323 | subnet.n is probed exactly for n in 1..254 |
| Tunnel.CheckHost | vibeproxy_manager/tunnel.py:303-320 | an 8317 hit is labelled as a VibeProxy host; an SSH host needs 8317 refused and 22 open; an error leaves the host out |
| Tunnel.ProbesMade | vibeproxy_manager/tunnel.py:305-318 | 8317 is tried first, and 22 only when 8317 refused |
| Tunnel.Found | vibeproxy_manager/tunnel.py:322-326 | exactly the hosts `check_host` labels, each once for distinct addresses |
| Tunnel.ScanNetwork | vibeproxy_manager/tunnel.py:284-328 | the result is sorted by address and holds at most 254 hosts |
| Tunnel.ScanMembership | vibeproxy_manager/tunnel.py:299-328 | a device is reported exactly when it is on the subnet and `check_host` labelled it so |
| Tunnel.ScanStrictlySorted | vibeproxy_manager/tunnel.py:328 | each address appears at most once, in strictly increasing order |
| Tunnel.ScanIgnoresArrivalOrder | vibeproxy_manager/tunnel.py:309-328 | whatever order the threads append in, the sorted result is the same |
| Tunnel.TenSortsBeforeTwo | vibeproxy_manager/tunnel.py:328 | the order is textual: x.10 precedes x.2 |
| Headless.ReadSettings | scripts/start-tunnel-headless.py:64-68 | present `LocalPort`, `RemotePort` and `MacIP` are taken as stored; ports default to 8317, user, address and password to falsy values |
| Headless.PlinkArgv | scripts/start-tunnel-headless.py:96-111 | the plink command with its forward, password and target in place |
| Headless.DefaultForward | scripts/start-tunnel-headless.py:64-97 | with default ports the forward is 8317:localhost:8317 |
| Headless.WaitForTunnel | scripts/start-tunnel-headless.py:136-154 | death is checked before the port at each tick; ready exactly when the port opens in time with the process alive; timed out exactly when every tick was quiet |
| Headless.QuietNotReady | scripts/start-tunnel-headless.py:136-150 | after a death or a quiet run to the timeout, the port cannot be found open in time |
| Headless.StartTunnel | scripts/start-tunnel-headless.py:59-154 | missing host or password fails before any probe; an open port succeeds without a launch; off Windows the run fails before `Popen`; a non-string password is a `Popen` error; success needs the port open in time; termination exactly on timeout |
| Headless.NotAStringError | scripts/start-tunnel-headless.py:120-130 | the message of the `TypeError` names the expected types |
| Headless.MainExit | scripts/start-tunnel-headless.py:157-181 | exit 1 without a config object; check-only exits 0 exactly when the first probe finds the port open; otherwise 0 exactly when `start_tunnel` succeeds, with that probe and the loop's probes kept apart |
| Api.NormalizeBaseUrl | vibeproxy_manager/api.py:13-15 | the URL without its trailing slashes |
| Api.NormalizeIdempotent | vibeproxy_manager/api.py:15 | normalising twice changes nothing |
| Api.NormalizeIgnoresTrailingSlashes | vibeproxy_manager/api.py:15 | URLs that differ only in trailing slashes normalise alike |
| Api.NormalizeExamples | tests/test_api.py:31-34 | the default URL is kept and one trailing slash is dropped |
| Api.ConvertMessages | vibeproxy_manager/api.py:73-79 | same length and order; typed messages become role/content dicts and dicts pass through |
| Api.ConvertAppend | vibeproxy_manager/api.py:74-79 | converting a concatenation converts each part |
| Api.ResolveTemperature | vibeproxy_manager/api.py:81-83 | an explicit temperature is kept; otherwise 1.0 exactly for the GPT-5 family and 0.0 otherwise |
| Api.TemperatureIgnoresCase | vibeproxy_manager/api.py:83 | the default temperature ignores the case of the model id |
| Api.Extract | vibeproxy_manager/api.py:98-110 | the reply is read exactly when it is an object whose choices, if present, have a length and a readable first choice, and whose usage total is an integer; missing or empty choices give "error" and empty content; with a non-empty choices list, the content and finish reason are the first choice's, defaulting to "" (no message, or a message without content) and "stop"; the token total is `usage`'s, 0 when absent |
| Api.ExtractWellFormed | vibeproxy_manager/api.py:98-110 | a well-formed reply yields its content (default "" when the message has none), its finish reason (default "stop") and its token total (default 0) |
| Api.ExtractWithoutMessage | vibeproxy_manager/api.py:101-104 | a first choice without a message yields empty content |
| Api.ExtractIgnoresOtherKeys | vibeproxy_manager/api.py:98-110 | keys other than `choices` and `usage` do not change what is read |
| Api.Prefix200 | vibeproxy_manager/api.py:123 | the first 200 characters |
| Api.ErrorResponse | vibeproxy_manager/api.py:124-139 | "Error: " + text, 0 tokens, finish reason "error" |
| Api.Chat | vibeproxy_manager/api.py:63-139 | the payload carries the converted messages and resolved temperature; every failure becomes an "error" response; HTTP errors carry the status and at most 200 body characters |
| Api.NoChoicesIsError | vibeproxy_manager/api.py:100-106 | a body without choices is an error with empty content |
| Api.Preflight | vibeproxy_manager/api.py:141-151 | success exactly when the response is not an error |
| Browse.SearchFilter | vibeproxy_manager/screens/browse_models.py:135-138 | exactly the models whose lower-cased id contains the lower-cased text; an empty text keeps all |
| Browse.FavoritesFilter | vibeproxy_manager/screens/browse_models.py:140-143 | when on, exactly the models whose id is a favourite |
| Browse.Filtered | vibeproxy_manager/screens/browse_models.py:132-143 | every listed model passes the search and the favourites switch, and every model that passes both is listed; with neither, the list is unchanged |
| Browse.FilteredMembers | vibeproxy_manager/screens/browse_models.py:132-143 | a model is listed exactly when it passes both filters |
| Browse.FavoriteKeyOrder | vibeproxy_manager/screens/browse_models.py:170 | the sort key orders favourites first and then by id |
| Browse.ItemRow | vibeproxy_manager/screens/browse_models.py:173-177 | the value is the id; the label is the star or three blanks followed by the id |
| Browse.GroupRows | vibeproxy_manager/screens/browse_models.py:159-177 | an empty group emits nothing; otherwise a header counting the group, then its ids in key order |
| Browse.GroupItemValues | vibeproxy_manager/screens/browse_models.py:169-177 | a group's item values are its ids sorted by the key |
| Browse.RowsForItems | vibeproxy_manager/screens/browse_models.py:145-177 | the items of the groups are, as a multiset, the ids of those providers |
| Browse.RefreshList | vibeproxy_manager/screens/browse_models.py:127-177 | as a multiset, the item values are exactly the filtered models' ids; every item is starred exactly when its id is a favourite; the headers are the providers with models, in `PROVIDER_ORDER`; the rows are grouped: the list opens with a header and each header is followed by exactly as many items of its provider as it counts, favourites first and then by id |
| Browse.EachIdOnce | vibeproxy_manager/screens/browse_models.py:145-177 | grouping by `PROVIDER_ORDER` lists every id exactly once, as an item whose value is that id |
| Browse.StarMarksFavorites | vibeproxy_manager/screens/browse_models.py:173-177 | an item carries the star exactly when its id is a favourite |
| Browse.HeadersInOrder | vibeproxy_manager/screens/browse_models.py:153-167 | one header per provider with models, in `PROVIDER_ORDER` |
| Browse.GroupShape | vibeproxy_manager/screens/browse_models.py:160-177 | each header counts exactly the items that follow it |
| Browse.GroupGrouped | vibeproxy_manager/screens/browse_models.py:159-177 | a group of one provider's ids is a header followed by exactly that many items of the provider, in key order |
| Browse.GroupItemsOf | vibeproxy_manager/screens/browse_models.py:169-177 | the items after a header are the group's ids in key order, each of the header's provider |
| Browse.GroupedAppend | vibeproxy_manager/screens/browse_models.py:153-177 | groups emitted one after the other stay grouped |
| Browse.RowsForGrouped | vibeproxy_manager/screens/browse_models.py:153-177 | the groups of the providers, in turn, form a grouped list |
| DroidSync.ProviderShort | scripts/sync-models-to-droid.py:95-104 | "copilot" for "github-copilot", the identity on every other string |
| DroidSync.DisplayName | scripts/sync-models-to-droid.py:107-132 | the table's name for a known id; otherwise the generated name: dashes and underscores become blanks, a letter after a letter is lower-cased and every other character upper-cased |
| DroidSync.GeneratedNameShape | scripts/sync-models-to-droid.py:131-132 | `id.replace("-", " ").replace("_", " ").title()` character by character: blanks for dashes and underscores, lower case after a letter, upper case elsewhere |
| Strings.TitleAfterRule | scripts/sync-models-to-droid.py:132 | `str.title` from any starting state: each character is lower-cased exactly when the character before it is a letter, and upper-cased otherwise |
| Strings.TitleRule | scripts/sync-models-to-droid.py:132 | `str.title` keeps the length, upper-cases the first character and every character after a non-letter, and lower-cases every character after a letter |
| DroidSync.NewEntry | scripts/sync-models-to-droid.py:166-181 | the entry's keys, index, base URL, provider and id "custom:{display with blanks as dashes}-{index}" |
| DroidSync.ExistingIds | scripts/sync-models-to-droid.py:153 | exactly the string model ids of the existing entries |
| DroidSync.Merge | scripts/sync-models-to-droid.py:160-185 | existing entries are kept as a prefix; each added entry is an object with a model id and its position as index (its full content is stated by `MergeFromServed`) |
| DroidSync.MergeHead | scripts/sync-models-to-droid.py:165-182 | a new first model is added at the next index, as the entry `NewEntry` builds for it |
| DroidSync.MergeFresh | scripts/sync-models-to-droid.py:153-183 | no added id was seen before, and none is added twice |
| DroidSync.MergeCovers | scripts/sync-models-to-droid.py:160-185 | every usable served id was seen before or is added |
| DroidSync.MergeFromServed | scripts/sync-models-to-droid.py:160-185 | every added entry is exactly the entry built at its position from the FIRST served model with its id: that model's id, display name with provider, id "custom:{display with blanks as dashes}-{index}", index and base URL |
| DroidSync.FirstServed | scripts/sync-models-to-droid.py:160-165 | the position of the first served model with the id, or the length when there is none |
| DroidSync.MergeInServedOrder | scripts/sync-models-to-droid.py:160-185 | the added entries follow the served order of the models they come from |
| DroidSync.NoIdsNoEntries | scripts/sync-models-to-droid.py:161-163 | served models without ids add nothing |
| DroidSync.SyncModels | scripts/sync-models-to-droid.py:135-192 | total = existing + added; existing entries first, new ones at consecutive indices; other settings kept; with `clear_first`, a `customModels` without a length raises (the content of each new entry is stated by `AddedAreServed`) |
| DroidSync.StartingEntries | scripts/sync-models-to-droid.py:146-153 | with `clear_first` the start is empty exactly when the settings are an object whose `customModels` has a length |
| DroidSync.ClearModels | scripts/sync-models-to-droid.py:215-221 | the list is emptied and its old length reported |
| DroidSync.ClearThenSync | scripts/sync-models-to-droid.py:148-150 | clearing and then syncing writes what one sync with `clear_first` writes |
| DroidSync.ClearFirstStartsOver | scripts/sync-models-to-droid.py:148-150 | with `clear_first` on a file the clear-only mode accepts, every entry is new and indices start at 0 |
| DroidSync.ClearFirstNeedsLength | scripts/sync-models-to-droid.py:146-150 | a `clear_first` sync succeeds exactly when the clear-only mode does; a null `customModels` raises |
| DroidSync.MergeAvoidsStart | scripts/sync-models-to-droid.py:153-165 | no added id is one already in the list |
| DroidSync.NoDuplicateIds | scripts/sync-models-to-droid.py:153-183 | a run adds no id already listed and none twice |
| DroidSync.EveryServedIdListed | scripts/sync-models-to-droid.py:160-189 | every usable served id is in the written list |
| DroidSync.AddedAreServed | scripts/sync-models-to-droid.py:156-189 | every added entry is exactly the entry built at its position from the first served model with its id, with base URL `http://localhost:{port}/v1` |
| DroidSync.AddedInServedOrder | scripts/sync-models-to-droid.py:156-189 | the added entries of a run follow the served order |
| A0Sync.CollapseDashes | scripts/sync-models-to-a0.py:122 | no double dash remains; never longer; the first character is kept; safe text stays safe |
| A0Sync.CollapseIsReference | scripts/sync-models-to-a0.py:122 | collapsing drops exactly the dashes that follow a dash and keeps every other character in order |
| A0Sync.CollapseKeepsNonDashes | scripts/sync-models-to-a0.py:122 | collapsing removes dashes only |
| A0Sync.CollapseFixesSingleDashes | scripts/sync-models-to-a0.py:122 | a string without double dashes is its own collapse |
| A0Sync.StripDashes | scripts/sync-models-to-a0.py:122 | no dash at either end; a string without end dashes is unchanged; safe text stays safe |
| A0Sync.StripCutsEnds | scripts/sync-models-to-a0.py:122 | the stripped string is a slice of the input with only dashes around it, and every non-dash character is kept |
| A0Sync.StripKeepsNonDashes | scripts/sync-models-to-a0.py:122 | cutting only dashes from both ends keeps every other character |
| A0Sync.SafeName | scripts/sync-models-to-a0.py:121-122 | only `[a-z0-9-]`, no "--", no dash at either end; its non-dash characters are those of the lower-cased id that are in `[a-z0-9]`, in order |
| A0Sync.SafeNameIgnoresCase | scripts/sync-models-to-a0.py:121 | ids equal up to case share a safe name |
| A0Sync.SafeNameIdempotent | scripts/sync-models-to-a0.py:121-122 | a safe name is its own safe name |
| A0Sync.SafeTextIsFixed | scripts/sync-models-to-a0.py:121-122 | safe text without end dashes is its own safe name |
| A0Sync.PresetName | scripts/sync-models-to-a0.py:123 | "a0-" followed by the safe name |
| A0Sync.PresetContents | scripts/sync-models-to-a0.py:72-86 | the preset names the model and the port; temperature "1" exactly for the GPT-5 family |
| A0Sync.WriteNames | scripts/sync-models-to-a0.py:114-130 | a preset name is written exactly when a served model with an id has it |
| A0Sync.WriteAsWritten | scripts/sync-models-to-a0.py:111-137 | as written: every write outside the fixed skip set lands and is counted, and each such name holds the contents of its LAST write; files not written keep their contents |
| A0Sync.FirstNamed | scripts/sync-models-to-a0.py:114-137 | the position of the first write with the name, or the length when there is none |
| A0Sync.LastNamed | scripts/sync-models-to-a0.py:114-137 | the position of the last write with the name, or -1 when there is none |
| A0Sync.FirstServedNamed | scripts/sync-models-to-a0.py:114-123 | the position of the first served model with an id whose preset name is the given one, or the length |
| A0Sync.LastServedNamed | scripts/sync-models-to-a0.py:114-123 | the position of the last served model with an id whose preset name is the given one, or -1 |
| A0Sync.FirstWriteIsFirstServed | scripts/sync-models-to-a0.py:114-130 | the first write of a name exists exactly when a served model has it, and holds `create_a0_config(id, owned_by or "unknown", port)` of the first such model |
| A0Sync.LastWriteIsLastServed | scripts/sync-models-to-a0.py:114-130 | the last write of a name exists exactly when a served model has it, and holds the preset of the last such model |
| A0Sync.SyncAsWritten | scripts/sync-models-to-a0.py:89-140 | as written: files = start + written names; presets present before are untouched; created counts writes outside the start; each new preset is `create_a0_config(id, owned_by or "unknown", port)` of the LAST served model with that preset name |
| A0Sync.AsWrittenCountsCollisions | scripts/sync-models-to-a0.py:111-137 | as written, two ids with one safe name are both written and counted: 2 created, 1 in total |
| A0Sync.AsWrittenCountsOverwrites | scripts/sync-models-to-a0.py:111-137 | "claude-sonnet-4.5" and "claude-sonnet-4-5" give 2 created, 1 in total |
| A0Sync.WriteDedup | scripts/sync-models-to-a0.py:125-137 | corrected loop: files = start + names, nothing present is overwritten, the count is the number of new files, and each new name holds the contents of its FIRST write |
| A0Sync.SyncDedup | scripts/sync-models-to-a0.py:104-140 | corrected run: total = files present before + created; each new preset is `create_a0_config(id, owned_by or "unknown", port)` of the FIRST served model with that preset name |
| A0Sync.SyncFiles | scripts/sync-models-to-a0.py:104-139 | afterwards the directory holds exactly the starting presets and one per served id's preset name |
| A0Sync.SameFilesEitherWay | scripts/sync-models-to-a0.py:111-139 | the corrected and the written loop leave the same files and total |
| NodeClient.NewClient | clients/node/src/index.js:36-41 | each setting is the truthy option, else the environment value for URL and model, else the default; all settings end up truthy |
| NodeClient.NewClientFixpoint | clients/node/src/index.js:36-41 | a client built from a constructed client's settings is the same client, whatever the environment |
| NodeClient.DefaultClient | clients/node/src/index.js:36-41 | no options give the defaults; a maxTokens or timeout of 0 falls back to them |
| NodeClient.GetTemperature | clients/node/src/index.js:64-69 | 1.0 for the GPT-5 family whatever was requested, else the request (0 kept) or 0 |
| NodeClient.TemperatureVersusPython | clients/node/src/index.js:64-69 | Node and Python agree exactly when no temperature was requested, the model is not GPT-5, or 1.0 was requested |
| NodeClient.MakeRequest | clients/node/src/index.js:125-128 | the call's truthy model and token limit, else the client's; the temperature of the chosen model |
| NodeClient.RequestsAreSettled | clients/node/src/index.js:125-128 | a constructed client never sends an empty model or a zero token limit |
| NodeClient.ReadReply | clients/node/src/index.js:139-145 | content or "", finish reason or "stop", usage or {}; the reply's model; finish reason and usage always truthy |
| NodeClient.ReadWellFormedReply | clients/node/src/index.js:139-145 | a well-formed reply is read back field for field |
| NodeClient.EmptyReplyIsStop | clients/node/src/index.js:139-145 | a reply without choices reads as "" with "stop", where the Python client says "error" |
| NodeClient.ChunkEvents | clients/node/src/index.js:174-191 | a text item exactly for truthy delta content, a done item exactly for a truthy finish reason, text first |
| NodeClient.StreamEvents | clients/node/src/index.js:173-191 | every yielded item carries a truthy value; at most two per chunk |
| NodeClient.StreamEventsAppend | clients/node/src/index.js:173-191 | streaming two batches yields the items of each in turn |
| NodeClient.CollectsDeltas | clients/node/src/index.js:266-271 | the collected text of plain text deltas is their concatenation |
| NodeClient.GetHistory | clients/node/src/index.js:296-298 | the stored history, or an empty one |
| NodeClient.ClearHistory | clients/node/src/index.js:305-307 | the session is removed and every other session kept |
| NodeClient.ClearThenGet | clients/node/src/index.js:296-307 | after clearing, the history is empty and other sessions are unchanged |
| NodeClient.Opening | clients/node/src/index.js:208-223 | the history plus the user message, with the system prompt first exactly on an empty history with a truthy prompt |
| NodeClient.AfterTurn | clients/node/src/index.js:218-235 | a completed turn stores the history with the reply; a failed one leaves an existing session's in-place pushes |
| NodeClient.Conversation | clients/node/src/index.js:206-241 | the request carries the opened history; the stored history is it plus the reply; messageCount is its length; other sessions are untouched |
| NodeClient.ConversationStream | clients/node/src/index.js:251-288 | the yielded items are the chunks' items; a completed stream stores the collected text as the reply |
| NodeClient.TurnKeepsShape | clients/node/src/index.js:206-241 | a completed turn keeps a well-formed history well formed and adds two messages (three on a fresh session with a prompt) |
| NodeClient.FailedTurnLeavesUserMessage | clients/node/src/index.js:210-229 | a failed turn on an existing session leaves an unanswered user message, and the history is no longer well formed |
| NodeClient.ClearStartsOver | clients/node/src/index.js:206-241 | after clearing, the next turn sends the system prompt again and stores three messages |
| NodeClient.CreateAbortController | clients/node/src/index.js:316-320 | a new controller is registered under the id, replacing any earlier one |
| NodeClient.Abort | clients/node/src/index.js:328-336 | true exactly when a controller is registered; it is then aborted and removed |
| NodeClient.RegistryStaysValid | clients/node/src/index.js:316-336 | both operations keep every registered controller live and registered once |
| NodeClient.AbortOnce | clients/node/src/index.js:328-336 | a second abort of the same id returns false |
| NodeClient.CreateThenAbort | clients/node/src/index.js:316-336 | aborting after creating aborts the new controller; a replaced controller is never aborted |

## Left out

- Sockets, subprocesses, threads, sleeps and the clock: port probes, process
  outcomes and probe answers are parameters, and the wait loop counts ticks.
  The thread pool and lock of `scan_network` are modelled only by their
  result, which is the same for any arrival order.
- HTTP (`httpx`, `urllib`, the OpenAI SDK), JSON parsing and encoding, and
  file reads and writes: replies and file contents are given as parsed values.
- Floating point: `elapsed` timings are not modelled (the preflight's elapsed
  text is a parameter). Temperatures are exact reals.
- `str.lower` and `str.title` are modelled for ASCII only; case mapping of
  other Unicode letters is not modelled.
- Pydantic's lax coercions (a string "8317" accepted as an int, for instance)
  are not modelled: a value of the wrong JSON type fails validation.
- `find_ssh`, `find_plink`, `is_running`, `is_port_open` and `get_status`:
  file-system and socket lookups whose results are parameters.
- `start_in_window`, `get_current_a0_config`, `backup_a0_config`,
  `apply_a0_config` and `save_factory_config`: file copies and process
  launches with no decision logic beyond an exists check.
- `health_check`, `list_models`, `test_connection` and `close` in the Python
  client, and `healthCheck`, `listModels` and `testModel` in the Node client:
  network calls.
- The `list` modes of both sync scripts (`list_models`, `list_presets`), the
  Agent Zero script's `clear-only` mode (`clear_presets`, the same emptying as
  `StartingPresets` with `clear_first`), and `main`'s reading of the port:
  printing and file I/O. The Droid script's `clear-only` mode is modelled by
  `DroidSync.ClearModels`.
- The Agent Zero script's `get_display_name`: it is only printed.
- Headless.PlinkArgv: renders every setting with `str()`. A non-string
  password never reaches a running plink: `StartTunnel` reports it as the
  `TypeError` that `Popen` raises.
- Headless.StartTunnel: off Windows, the `AttributeError` of
  `subprocess.STARTUPINFO` is modelled as the outcome `NoStartupInfo`; the
  traceback itself is not modelled.
- Headless.PyStr: a list or object value in the config is rendered as a bare
  bracket pair rather than its Python `repr`.
- Config.Listed: `MatchesPresetGlob` and the name order follow POSIX rules: the
  glob is case-sensitive and names are ordered by code point. On Windows,
  `pathlib` matches the glob and compares paths ignoring case; that behaviour
  is not modelled.
- DroidSync.Merge: its own contract states the kept prefix, each added
  entry's index and its model id. Which served model builds each entry, and
  in what order, is stated by `DroidSync.MergeFromServed` and
  `DroidSync.MergeInServedOrder`.
- Browse.RefreshList: a header row carries its provider and count; the label
  text `── {name} ({count}) ──` built from them is not modelled.
- DroidSync.SyncModels: a file whose `customModels` is not a list, or holds a
  non-object entry, is modelled as the script raising (`None`). Model ids
  that are not strings are ignored when deduplicating.
- NodeClient.ConversationStream: the abort signal is not modelled, and the
  same holds for `chat` and `chatStream`. A stream that breaks off is
  modelled by `completed` being false.
- NodeClient.First: `NaN` and JavaScript number formatting are not modelled.
  Numbers are integers.
- NodeClient.JsText: `'' + value` renders an object as "[object Object]" and
  an array by joining its elements. Custom `toString` methods do not exist in
  parsed JSON.

## Findings

| source | as written | input that shows it | evidently intended | confidence | as-written member | corrected member |
|---|---|---|---|---|---|---|
| scripts/sync-models-to-a0.py:111-137 | the skip set `existing_presets` is read once before the loop and never updated after a write. Two served ids with one safe name are both written: the second overwrites the first, and both are counted as created | served ids ["claude-sonnet-4.5", "claude-sonnet-4-5"] into an empty directory: created 2, total 1 | skip a preset name already written in this run, as the Droid script does with `existing_ids.add` (scripts/sync-models-to-droid.py:183), so that created + files before = total | not executed | A0Sync.AsWrittenCountsOverwrites | A0Sync.SyncDedup |

=== FILE: a0_sync.dfy ===
/** `scripts/sync-models-to-a0.py`: one Agent Zero preset file
    `a0-<safe name>.json` per served model. The safe name is the lowercased
    id with every character outside `[a-z0-9-]` turned into a dash, runs of
    dashes collapsed and dashes stripped from both ends. The presets
    directory is a map from file stem to contents; fetching the model list
    and the file system are parameters. */
module A0Sync {
  import opened Wrappers
  import opened Strings
  import opened Json
  import opened Catalogue
  import opened Config
  import Seqs

  predicate IsDash(c: char) { c == '-' }

  /** No two dashes in a row. */
  predicate NoDoubleDash(s: string) {
    forall i | 0 <= i < |s| - 1 :: !(s[i] == '-' && s[i + 1] == '-')
  }

  /** The characters other than dashes, in order. */
  function NonDashes(s: string): string {
    Seqs.Filter(s, (c: char) => c != '-')
  }

  /** `re.sub(r"-+", "-", s)`: every run of dashes becomes one dash. */
  function CollapseDashes(s: string): (r: string)
    ensures |r| <= |s|
    ensures |s| > 0 ==> |r| > 0 && r[0] == s[0]
    ensures NoDoubleDash(r)
    ensures (forall i | 0 <= i < |s| :: IsSafeNameChar(s[i])) ==> SafeText(r)
    decreases |s|
  {
    if |s| <= 1 then s
    else if s[0] == '-' && s[1] == '-' then CollapseDashes(s[1..])
    else
      var rest := CollapseDashes(s[1..]);
      assert forall i | 1 <= i < |[s[0]] + rest| :: ([s[0]] + rest)[i] == rest[i - 1];
      [s[0]] + rest
  }

  /** Whether `re.sub(r"-+", "-", s)` keeps the character at `i`: it drops
      exactly the dashes that follow a dash. */
  predicate KeptByCollapse(s: string, i: int)
    requires 0 <= i < |s|
  {
    !(i > 0 && s[i] == '-' && s[i - 1] == '-')
  }

  /** The characters of `s` from position `i` on that collapsing keeps, in order. */
  function CollapsedFrom(s: string, i: nat): string
    requires i <= |s|
    decreases |s| - i
  {
    if i == |s| then "" else (if KeptByCollapse(s, i) then [s[i]] else "") + CollapsedFrom(s, i + 1)
  }

  /** Past the first two positions, dropping the head of `s` shifts the positions by one. */
  lemma {:induction false} CollapsedFromShift(s: string, i: nat)
    requires 1 <= i < |s|
    ensures CollapsedFrom(s, i + 1) == CollapsedFrom(s[1..], i)
    decreases |s| - i
  {
    if i + 1 < |s| {
      CollapsedFromShift(s, i + 1);
      assert KeptByCollapse(s, i + 1) == KeptByCollapse(s[1..], i);
    }
  }

  /** Collapsing drops exactly the dashes that follow a dash and keeps
      everything else in order. */
  lemma {:induction false} CollapseIsReference(s: string)
    ensures CollapseDashes(s) == CollapsedFrom(s, 0)
    decreases |s|
  {
    if |s| == 1 {
      assert CollapsedFrom(s, 1) == "";
    } else if |s| > 1 {
      CollapseIsReference(s[1..]);
      var t := s[1..];
      assert CollapsedFrom(t, 0) == [t[0]] + CollapsedFrom(t, 1);
      if |s| > 2 {
        CollapsedFromShift(s, 1);
      } else {
        assert CollapsedFrom(t, 1) == "" && CollapsedFrom(s, 2) == "";
      }
      assert CollapsedFrom(s, 1) == (if KeptByCollapse(s, 1) then [s[1]] else "") + CollapsedFrom(s, 2);
    }
  }

  /** Collapsing keeps every other character, in order: only dashes go. */
  lemma {:induction false} CollapseKeepsNonDashes(s: string)
    ensures NonDashes(CollapseDashes(s)) == NonDashes(s)
    decreases |s|
  {
    if |s| > 1 {
      assert s == [s[0]] + s[1..];
      CollapseKeepsNonDashes(s[1..]);
      if !(s[0] == '-' && s[1] == '-') {
        var rest := CollapseDashes(s[1..]);
        assert ([s[0]] + rest)[1..] == rest;
      }
    }
  }

  /** A string without double dashes is its own collapse. */
  lemma {:induction false} CollapseFixesSingleDashes(s: string)
    requires NoDoubleDash(s)
    ensures CollapseDashes(s) == s
    decreases |s|
  {
    if |s| > 1 {
      assert NoDoubleDash(s[1..]) by {
        forall i | 0 <= i < |s[1..]| - 1 ensures !(s[1..][i] == '-' && s[1..][i + 1] == '-') {
          assert s[1..][i] == s[i + 1] && s[1..][i + 1] == s[i + 2];
        }
      }
      CollapseFixesSingleDashes(s[1..]);
      assert s == [s[0]] + s[1..];
    }
  }

  /** A string made only of `[a-z0-9-]` without double dashes. */
  predicate SafeText(s: string) {
    (forall i | 0 <= i < |s| :: IsSafeNameChar(s[i])) && NoDoubleDash(s)
  }

  /** A slice of safe text is safe text. */
  lemma SliceKeepsSafety(c: string, a: nat, b: nat)
    requires a <= b <= |c| && SafeText(c)
    ensures SafeText(c[a..b])
  {
    var t := c[a..b];
    forall i | 0 <= i < |t| - 1 ensures !(t[i] == '-' && t[i + 1] == '-') {
      assert t[i] == c[a + i] && t[i + 1] == c[a + i + 1];
    }
  }

  /** `r` is the slice `s[a..b]` and everything outside it is a dash. */
  predicate DashesAround(s: string, a: int, b: int, r: string) {
    0 <= a <= b <= |s| && r == s[a..b]
    && (forall i | 0 <= i < a :: s[i] == '-') && (forall i | b <= i < |s| :: s[i] == '-')
  }

  /** `.strip("-")`: the longest slice without a dash at either end. */
  function StripDashes(s: string): (r: string)
    ensures |r| > 0 ==> r[0] != '-' && r[|r| - 1] != '-'
    ensures (|s| == 0 || (s[0] != '-' && s[|s| - 1] != '-')) ==> r == s
    ensures SafeText(s) ==> SafeText(r)
  {
    TrimsKeepSafety(s);
    TrimStart(TrimEnd(s, IsDash), IsDash)
  }

  /** Stripping cuts only the dashes at the ends: the result is a slice with
      nothing but dashes around it, and the middle is kept. */
  lemma StripCutsEnds(s: string)
    ensures exists a, b :: DashesAround(s, a, b, StripDashes(s))
    ensures NonDashes(StripDashes(s)) == NonDashes(s)
  {
    assert exists a, b :: DashesAround(s, a, b, StripDashes(s)) by {
      var e := TrimEnd(s, IsDash);
      var r := TrimStart(e, IsDash);
      assert StripDashes(s) == r;
      TrimsAreSlice(s);
      assert DashesAround(s, |e| - |r|, |e|, StripDashes(s));
    }
    assert NonDashes(StripDashes(s)) == NonDashes(s) by {
      TrimsKeepSafety(s);
    }
  }

  lemma TrimsKeepSafety(s: string)
    ensures var e := TrimEnd(s, IsDash); var r := TrimStart(e, IsDash);
      NonDashes(r) == NonDashes(s) && (SafeText(s) ==> SafeText(r))
  {
    var e := TrimEnd(s, IsDash);
    var r := TrimStart(e, IsDash);
    TrimsAreSlice(s);
    StripKeepsNonDashes(s, |e| - |r|, |e|, r);
    if SafeText(s) {
      SliceKeepsSafety(s, |e| - |r|, |e|);
    }
  }

  /** Trimming both ends cuts a slice out of `s` with only dashes around it. */
  lemma TrimsAreSlice(s: string)
    ensures var e := TrimEnd(s, IsDash); var r := TrimStart(e, IsDash);
      DashesAround(s, |e| - |r|, |e|, r)
  {
    var e := TrimEnd(s, IsDash);
    var r := TrimStart(e, IsDash);
    var a := |e| - |r|;
    assert e == s[..|e|];
    assert r == s[a..|e|] by {
      assert r == e[a..];
    }
    forall i | 0 <= i < a
      ensures s[i] == '-'
    {
      assert IsDash(e[i]) && e[i] == s[i];
    }
    forall i | |e| <= i < |s|
      ensures s[i] == '-'
    {
      assert IsDash(s[i]);
    }
  }

  /** Cutting off dashes only leaves the other characters as they were. */
  lemma StripKeepsNonDashes(s: string, a: int, b: int, r: string)
    requires DashesAround(s, a, b, r)
    ensures NonDashes(r) == NonDashes(s)
  {
    var pre, post := s[..a], s[b..];
    SliceSplit(s, a, b);
    forall i | 0 <= i < |pre|
      ensures pre[i] == '-'
    {
      assert pre[i] == s[i];
    }
    forall i | 0 <= i < |post|
      ensures post[i] == '-'
    {
      assert post[i] == s[b + i];
    }
    OnlyDashes(pre);
    OnlyDashes(post);
    NonDashesAppend(pre + r, post);
    NonDashesAppend(pre, r);
  }

  lemma SliceSplit(s: string, a: int, b: int)
    requires 0 <= a <= b <= |s|
    ensures s == s[..a] + s[a..b] + s[b..]
  {
  }

  lemma NonDashesAppend(x: string, y: string)
    ensures NonDashes(x + y) == NonDashes(x) + NonDashes(y)
  {
    Seqs.FilterAppend(x, y, (c: char) => c != '-');
  }

  lemma {:induction false} OnlyDashes(s: string)
    requires forall i | 0 <= i < |s| :: s[i] == '-'
    ensures NonDashes(s) == ""
    decreases |s|
  {
    if |s| > 0 {
      OnlyDashes(s[1..]);
    }
  }

  /** The safe name of `sync_models`. */
  function SafeName(id: string): (r: string)
    ensures SafeText(r)
    ensures |r| > 0 ==> r[0] != '-' && r[|r| - 1] != '-'
    ensures NonDashes(r) == NonDashes(Sanitize(Lower(id)))
  {
    CollapseKeepsNonDashes(Sanitize(Lower(id)));
    StripCutsEnds(CollapseDashes(Sanitize(Lower(id))));
    StripDashes(CollapseDashes(Sanitize(Lower(id))))
  }

  /** Ids equal up to case have the same safe name. */
  lemma SafeNameIgnoresCase(a: string, b: string)
    requires Lower(a) == Lower(b)
    ensures SafeName(a) == SafeName(b)
  {
  }

  /** A safe name is its own safe name: normalising twice changes nothing. */
  lemma SafeNameIdempotent(id: string)
    ensures SafeName(SafeName(id)) == SafeName(id)
  {
    var r := SafeName(id);
    assert SafeText(r) && (|r| > 0 ==> r[0] != '-' && r[|r| - 1] != '-');
    SafeTextIsFixed(r);
  }

  /** Safe text without a dash at either end passes through every step unchanged. */
  lemma SafeTextIsFixed(r: string)
    requires SafeText(r)
    requires |r| > 0 ==> r[0] != '-' && r[|r| - 1] != '-'
    ensures SafeName(r) == r
  {
    SafeTextIsSanitized(r);
    CollapseFixesSingleDashes(r);
    assert CollapseDashes(Sanitize(Lower(r))) == r;
  }

  lemma SafeTextIsSanitized(r: string)
    requires SafeText(r)
    ensures Sanitize(Lower(r)) == r
  {
    assert Lower(r) == r by {
      forall i | 0 <= i < |r| ensures Lower(r)[i] == r[i] {
        assert IsSafeNameChar(r[i]);
      }
    }
  }

  /** The name a model's preset file gets (without `.json`). */
  function PresetName(id: string): (p: string)
    ensures "a0-" <= p && p[3..] == SafeName(id)
  {
    "a0-" + SafeName(id)
  }

  /** `create_a0_config`: the preset for a model served by `provider` on `port`. */
  function CreateA0Config(id: string, provider: string, port: int): Value {
    Obj(map[
      "_comment" := Str("Auto-generated for " + id + " via " + provider),
      "chat" := Obj(map["model" := Str(id), "api_base" := Str("http://host.docker.internal:" + IntToString(port) + "/v1")]),
      "chat_model_kwargs" := Obj(map["temperature" := Str(if Contains(Lower(id), "gpt-5") then "1" else "0")])])
  }

  /** A preset names the model, points at `port` on the Docker host, and sets
      the temperature to "1" exactly for the GPT-5 family, whatever the case
      of the id. */
  lemma PresetContents(id: string, provider: string, port: int)
    ensures var v := CreateA0Config(id, provider, port);
      v.Obj? && v.fields.Keys == {"_comment", "chat", "chat_model_kwargs"}
      && v.fields["chat"] == Obj(map["model" := Str(id), "api_base" := Str("http://host.docker.internal:" + IntToString(port) + "/v1")])
      && v.fields["chat_model_kwargs"] == Obj(map["temperature" := Str(if NeedsUnitTemperature(id) then "1" else "0")])
      && v.fields["_comment"] == Str("Auto-generated for " + id + " via " + provider)
    ensures var t := CreateA0Config(id, provider, port).fields["chat_model_kwargs"].fields["temperature"];
      (t == Str("1") <==> Contains(Lower(id), "gpt-5")) && (t == Str("0") <==> !Contains(Lower(id), "gpt-5"))
  {
  }

  /** The preset written for a served model with an id; `owned_by` defaults
      to "unknown". */
  function PresetFor(m: ServedModel, port: int): Value
    requires UsableId(m).Some?
  {
    CreateA0Config(UsableId(m).value, m.ownedBy.GetOr("unknown"), port)
  }

  /** Served model `m` has an id whose preset name is `n`. */
  predicate NamesPreset(m: ServedModel, n: string) {
    PresetNameOf(m) == Some(n)
  }

  /** The preset name of a served model with an id. */
  function PresetNameOf(m: ServedModel): Option<string> {
    match UsableId(m)
    case None => None
    case Some(id) => Some(PresetName(id))
  }

  /** The preset name each served model would be written under, in order. */
  function PresetNames(served: seq<ServedModel>): (r: seq<Option<string>>)
    ensures |r| == |served|
    ensures forall i | 0 <= i < |served| :: r[i] == PresetNameOf(served[i])
  {
    seq(|served|, i requires 0 <= i < |served| => PresetNameOf(served[i]))
  }

  /** The first position holding `Some(n)`, or `|names|` when there is none. */
  function FirstSome(names: seq<Option<string>>, n: string): (k: nat)
    ensures k <= |names|
    ensures k < |names| ==> names[k] == Some(n)
    ensures forall j | 0 <= j < k :: names[j] != Some(n)
    decreases |names|
  {
    if |names| == 0 then 0
    else if names[0] == Some(n) then 0
    else
      var k := FirstSome(names[1..], n);
      assert forall j | 1 <= j < k + 1 :: names[j] == names[1..][j - 1];
      k + 1
  }

  /** The last position holding `Some(n)`, or -1 when there is none. */
  function LastSome(names: seq<Option<string>>, n: string): (k: int)
    ensures -1 <= k < |names|
    ensures k >= 0 ==> names[k] == Some(n)
    ensures forall j | k < j < |names| :: names[j] != Some(n)
    decreases |names|
  {
    if |names| == 0 then -1
    else
      var k := LastSome(names[1..], n);
      assert forall j | k + 1 < j < |names| :: names[j] == names[1..][j - 1];
      if k >= 0 then k + 1
      else if names[0] == Some(n) then 0
      else -1
  }

  /** The position of the first served model naming preset `n`, or
      `|served|` when there is none. */
  function FirstServedNamed(served: seq<ServedModel>, n: string): (k: nat)
    ensures k <= |served|
    ensures k < |served| ==> NamesPreset(served[k], n)
    ensures forall j | 0 <= j < k :: !NamesPreset(served[j], n)
  {
    FirstSome(PresetNames(served), n)
  }

  /** The position of the last served model naming preset `n`, or -1 when
      there is none. */
  function LastServedNamed(served: seq<ServedModel>, n: string): (k: int)
    ensures -1 <= k < |served|
    ensures k >= 0 ==> NamesPreset(served[k], n)
    ensures forall j | k < j < |served| :: !NamesPreset(served[j], n)
  {
    LastSome(PresetNames(served), n)
  }

  /** One preset file the loop writes: its name and contents. */
  datatype PresetWrite = PresetWrite(name: string, config: Value)

  /** The writes the loop attempts, in order: one per served model with a
      usable id (`owned_by` defaults to "unknown"). */
  function Writes(served: seq<ServedModel>, port: int): (ws: seq<PresetWrite>)
    ensures |ws| <= |served|
    decreases |served|
  {
    if |served| == 0 then []
    else
      var rest := Writes(served[1..], port);
      match UsableId(served[0])
      case None => rest
      case Some(id) => [PresetWrite(PresetName(id), PresetFor(served[0], port))] + rest
  }

  /** The names of a list of writes. */
  function Names(ws: seq<PresetWrite>): (names: set<string>)
    ensures forall i | 0 <= i < |ws| :: ws[i].name in names
  {
    set i | 0 <= i < |ws| :: ws[i].name
  }

  lemma NamesCons(ws: seq<PresetWrite>)
    requires |ws| > 0
    ensures Names(ws) == {ws[0].name} + Names(ws[1..])
  {
    forall p | p in Names(ws) ensures p in {ws[0].name} + Names(ws[1..]) {
      var i :| 0 <= i < |ws| && ws[i].name == p;
      if i > 0 { assert ws[1..][i - 1] == ws[i]; }
    }
  }

  /** Some served model with a usable id has the preset name `n`. */
  predicate NamedBy(served: seq<ServedModel>, n: string) {
    exists k | 0 <= k < |served| :: UsableId(served[k]).Some? && PresetName(UsableId(served[k]).value) == n
  }

  /** Being named by a non-empty list is being named by its head or its tail. */
  lemma NamedByCons(served: seq<ServedModel>, n: string)
    requires |served| > 0
    ensures NamedBy(served, n) <==>
      (UsableId(served[0]).Some? && PresetName(UsableId(served[0]).value) == n) || NamedBy(served[1..], n)
  {
    if NamedBy(served[1..], n) {
      var k :| 0 <= k < |served[1..]| && UsableId(served[1..][k]).Some? && PresetName(UsableId(served[1..][k]).value) == n;
      assert served[k + 1] == served[1..][k];
    }
    if NamedBy(served, n) {
      var k :| 0 <= k < |served| && UsableId(served[k]).Some? && PresetName(UsableId(served[k]).value) == n;
      if k > 0 {
        assert served[1..][k - 1] == served[k];
      }
    }
  }

  /** The first write, when the first served model has an id, and the rest. */
  lemma WritesCons(served: seq<ServedModel>, port: int)
    requires |served| > 0
    ensures UsableId(served[0]).None? ==> Writes(served, port) == Writes(served[1..], port)
    ensures UsableId(served[0]).Some? ==>
      var ws := Writes(served, port);
      |ws| > 0 && ws[0] == PresetWrite(PresetName(UsableId(served[0]).value), PresetFor(served[0], port))
      && ws[1..] == Writes(served[1..], port)
  {
  }

  /** Dropping the head model drops the head name. */
  lemma PresetNamesCons(served: seq<ServedModel>)
    requires |served| > 0
    ensures PresetNames(served)[0] == PresetNameOf(served[0])
    ensures PresetNames(served)[1..] == PresetNames(served[1..])
  {
    assert forall i | 0 <= i < |served| - 1 :: PresetNames(served)[1..][i] == PresetNames(served[1..])[i] by {
      forall i | 0 <= i < |served| - 1
        ensures PresetNames(served)[1..][i] == PresetNames(served[1..])[i]
      {
        assert served[1..][i] == served[i + 1];
      }
    }
  }

  /** One step of `Writes`, stated over the names alone: a served model
      without an id writes nothing, one with an id writes its name first. */
  predicate WriteStep(ws: seq<PresetWrite>, rest: seq<PresetWrite>, names: seq<Option<string>>) {
    |names| > 0
    && (names[0].None? ==> ws == rest)
    && (names[0].Some? ==> |ws| > 0 && ws[0].name == names[0].value && ws[1..] == rest)
  }

  /** How the first positions move across one step. */
  lemma FirstStep(ws: seq<PresetWrite>, rest: seq<PresetWrite>, names: seq<Option<string>>, n: string)
    requires WriteStep(ws, rest, names)
    ensures names[0] == Some(n) ==> FirstSome(names, n) == 0 && |ws| > 0 && FirstNamed(ws, n) == 0
    ensures names[0] != Some(n) ==> FirstSome(names, n) == FirstSome(names[1..], n) + 1
    ensures names[0] != Some(n) ==> (FirstNamed(ws, n) < |ws| <==> FirstNamed(rest, n) < |rest|)
    ensures names[0] != Some(n) && FirstNamed(rest, n) < |rest| ==> ws[FirstNamed(ws, n)] == rest[FirstNamed(rest, n)]
  {
    if names[0] != Some(n) && names[0].Some? {
      assert FirstNamed(ws, n) == FirstNamed(rest, n) + 1;
    }
  }

  /** How the last positions move across one step. */
  lemma LastStep(ws: seq<PresetWrite>, rest: seq<PresetWrite>, names: seq<Option<string>>, n: string)
    requires WriteStep(ws, rest, names)
    ensures LastSome(names[1..], n) >= 0 ==> LastSome(names, n) == LastSome(names[1..], n) + 1
    ensures LastSome(names[1..], n) < 0 ==> LastSome(names, n) == (if names[0] == Some(n) then 0 else -1)
    ensures LastNamed(rest, n) >= 0 ==> LastNamed(ws, n) >= 0 && ws[LastNamed(ws, n)] == rest[LastNamed(rest, n)]
    ensures LastNamed(rest, n) < 0 ==> LastNamed(ws, n) == (if names[0] == Some(n) then 0 else -1)
  {
    if names[0].Some? {
      assert ws[1..] == rest;
      if LastNamed(rest, n) >= 0 {
        assert LastNamed(ws, n) == LastNamed(rest, n) + 1;
      }
    }
  }

  /** The head step of `Writes` as a `WriteStep`, with the head's contents. */
  lemma WritesStep(served: seq<ServedModel>, port: int)
    requires |served| > 0
    ensures WriteStep(Writes(served, port), Writes(served[1..], port), PresetNames(served))
    ensures PresetNames(served)[1..] == PresetNames(served[1..])
    ensures PresetNames(served)[0].Some? <==> UsableId(served[0]).Some?
    ensures UsableId(served[0]).Some? ==> Writes(served, port)[0].config == PresetFor(served[0], port)
  {
    PresetNamesCons(served);
    WritesCons(served, port);
  }

  /** The first write of a name is the preset of the first served model
      with that name. */
  lemma {:induction false} FirstWriteIsFirstServed(served: seq<ServedModel>, port: int, n: string)
    ensures var ws := Writes(served, port); var k := FirstSome(PresetNames(served), n);
      (FirstNamed(ws, n) < |ws| <==> k < |served|)
      && (k < |served| ==> UsableId(served[k]).Some? && ws[FirstNamed(ws, n)].config == PresetFor(served[k], port))
    decreases |served|
  {
    if |served| > 0 {
      var names := PresetNames(served);
      WritesStep(served, port);
      FirstStep(Writes(served, port), Writes(served[1..], port), names, n);
      FirstWriteIsFirstServed(served[1..], port, n);
      var k1 := FirstSome(names[1..], n);
      if names[0] != Some(n) && k1 < |served| - 1 {
        assert served[1..][k1] == served[k1 + 1];
      }
    }
  }

  /** The last write of a name is the preset of the last served model with
      that name. */
  lemma {:induction false} LastWriteIsLastServed(served: seq<ServedModel>, port: int, n: string)
    ensures var ws := Writes(served, port); var k := LastSome(PresetNames(served), n);
      (LastNamed(ws, n) >= 0 <==> k >= 0)
      && (k >= 0 ==> UsableId(served[k]).Some? && ws[LastNamed(ws, n)].config == PresetFor(served[k], port))
    decreases |served|
  {
    if |served| > 0 {
      var names := PresetNames(served);
      WritesStep(served, port);
      LastStep(Writes(served, port), Writes(served[1..], port), names, n);
      LastWriteIsLastServed(served[1..], port, n);
      var ws := Writes(served, port);
      var rest := Writes(served[1..], port);
      var k1 := LastSome(names[1..], n);
      if k1 >= 0 {
        assert served[1..][k1] == served[k1 + 1];
        assert LastSome(names, n) == k1 + 1;
        assert LastNamed(rest, n) >= 0;
        assert ws[LastNamed(ws, n)].config == rest[LastNamed(rest, n)].config == PresetFor(served[k1 + 1], port);
      } else {
        assert LastNamed(rest, n) < 0;
        if names[0] == Some(n) {
          assert LastNamed(ws, n) == 0 && LastSome(names, n) == 0;
          assert UsableId(served[0]).Some?;
          assert ws[0].config == PresetFor(served[0], port);
        } else {
          assert LastNamed(ws, n) == -1 && LastSome(names, n) == -1;
        }
      }
    }
  }



  /** The loop writes a preset name exactly when a served model with an id
      has it. */
  lemma {:induction false} WriteNames(served: seq<ServedModel>, port: int, n: string)
    ensures n in Names(Writes(served, port)) <==> NamedBy(served, n)
    decreases |served|
  {
    if |served| > 0 {
      WriteNames(served[1..], port, n);
      NamedByCons(served, n);
      WritesCons(served, port);
      if UsableId(served[0]).Some? {
        NamesCons(Writes(served, port));
      }
    }
  }

  /** How many of the writes have a name outside `skip`. */
  function CountOutside(ws: seq<PresetWrite>, skip: set<string>): (n: nat)
    ensures n <= |ws|
    decreases |ws|
  {
    if |ws| == 0 then 0
    else (if ws[0].name in skip then 0 else 1) + CountOutside(ws[1..], skip)
  }

  /** The position of the first write named `n`, or `|ws|` when there is none. */
  function FirstNamed(ws: seq<PresetWrite>, n: string): (k: nat)
    ensures k <= |ws|
    ensures k < |ws| ==> ws[k].name == n
    ensures forall j | 0 <= j < k :: ws[j].name != n
    decreases |ws|
  {
    if |ws| == 0 then 0
    else if ws[0].name == n then 0
    else
      var k := FirstNamed(ws[1..], n);
      assert forall j | 1 <= j < k + 1 :: ws[j] == ws[1..][j - 1];
      k + 1
  }

  /** The position of the last write named `n`, or -1 when there is none. */
  function LastNamed(ws: seq<PresetWrite>, n: string): (k: int)
    ensures -1 <= k < |ws|
    ensures k >= 0 ==> ws[k].name == n
    ensures forall j | k < j < |ws| :: ws[j].name != n
    decreases |ws|
  {
    if |ws| == 0 then -1
    else
      var k := LastNamed(ws[1..], n);
      assert forall j | k + 1 < j < |ws| :: ws[j] == ws[1..][j - 1];
      if k >= 0 then k + 1
      else if ws[0].name == n then 0
      else -1
  }

  /** The presets directory after a run, and the run's `(created, total)`. */
  datatype A0Result = A0Result(presets: map<string, Value>, created: nat, total: nat)

  /** The loop as written: the skip set `skip` is the directory listing taken
      before the loop and is never updated, so every write outside it happens
      and is counted, even one whose name an earlier write of the batch took. */
  function WriteAsWritten(ws: seq<PresetWrite>, skip: set<string>, dir: map<string, Value>): (r: (map<string, Value>, nat))
    ensures r.0.Keys == dir.Keys + (Names(ws) - skip)
    ensures forall p | p in dir && p in skip :: p in r.0 && r.0[p] == dir[p]
    ensures forall p | p in dir && p !in Names(ws) :: r.0[p] == dir[p]
    ensures forall p | p in Names(ws) && p !in skip :: LastNamed(ws, p) >= 0 && p in r.0 && r.0[p] == ws[LastNamed(ws, p)].config
    ensures r.1 == CountOutside(ws, skip)
    decreases |ws|
  {
    if |ws| == 0 then (dir, 0)
    else
      NamesCons(ws);
      if ws[0].name in skip then
        assert Names(ws) - skip == Names(ws[1..]) - skip;
        var r := WriteAsWritten(ws[1..], skip, dir);
        LastWrites(ws, skip, r.0);
        r
      else
        var dir' := dir[ws[0].name := ws[0].config];
        assert dir'.Keys == dir.Keys + {ws[0].name};
        var r := WriteAsWritten(ws[1..], skip, dir');
        assert r.0.Keys == dir.Keys + (Names(ws) - skip);
        LastWrites(ws, skip, r.0);
        (r.0, r.1 + 1)
  }

  /** When the tail's last writes are in `files`, so are the whole list's,
      provided the head's name is either skipped or in `files` with the
      head's contents unless a later write has it. */
  lemma LastWrites(ws: seq<PresetWrite>, skip: set<string>, files: map<string, Value>)
    requires |ws| > 0
    requires forall p | p in Names(ws[1..]) && p !in skip ::
      LastNamed(ws[1..], p) >= 0 && p in files && files[p] == ws[1..][LastNamed(ws[1..], p)].config
    requires ws[0].name !in skip && ws[0].name !in Names(ws[1..]) ==> ws[0].name in files && files[ws[0].name] == ws[0].config
    requires Names(ws) == {ws[0].name} + Names(ws[1..])
    ensures forall p | p in Names(ws) && p !in skip :: LastNamed(ws, p) >= 0 && p in files && files[p] == ws[LastNamed(ws, p)].config
  {
    forall p | p in Names(ws) && p !in skip
      ensures LastNamed(ws, p) >= 0 && p in files && files[p] == ws[LastNamed(ws, p)].config
    {
      var k := LastNamed(ws[1..], p);
      if p in Names(ws[1..]) {
        assert LastNamed(ws, p) == k + 1;
        assert ws[k + 1] == ws[1..][k];
      } else {
        assert p == ws[0].name;
        assert LastNamed(ws, p) == 0;
      }
    }
  }

  /** The directory the loop starts from: emptied first with `clear_first`. */
  function StartingPresets(dir: map<string, Value>, clearFirst: bool): map<string, Value> {
    if clearFirst then map[] else dir
  }

  /** `sync_models(port, configs_dir, clear_first)` as written: `dir` holds the
      `a0-*.json` presets before the run. */
  function SyncAsWritten(served: seq<ServedModel>, port: int, dir: map<string, Value>, clearFirst: bool): (r: A0Result)
    ensures var start := StartingPresets(dir, clearFirst);
      var ws := Writes(served, port);
      r.presets.Keys == start.Keys + Names(ws)
      && (forall p | p in start :: r.presets[p] == start[p])
      && r.total == |r.presets|
      && r.created == CountOutside(ws, start.Keys)
    ensures var start := StartingPresets(dir, clearFirst);
      forall p | p in r.presets && p !in start ::
        LastServedNamed(served, p) >= 0 && r.presets[p] == PresetFor(served[LastServedNamed(served, p)], port)
  {
    var start := StartingPresets(dir, clearFirst);
    var ws := Writes(served, port);
    var w := WriteAsWritten(ws, start.Keys, start);
    assert start.Keys + (Names(ws) - start.Keys) == start.Keys + Names(ws);
    assert forall p | p in w.0 && p !in start ::
      LastServedNamed(served, p) >= 0 && w.0[p] == PresetFor(served[LastServedNamed(served, p)], port)
    by {
      forall p | p in w.0 && p !in start
        ensures LastServedNamed(served, p) >= 0 && w.0[p] == PresetFor(served[LastServedNamed(served, p)], port)
      {
        LastWriteIsLastServed(served, port, p);
      }
    }
    A0Result(w.0, w.1, |w.0|)
  }

  function Served(id: string): ServedModel {
    ServedModel(Some(id), Some("anthropic"))
  }

  /** "claude-sonnet-4.5" and "claude-sonnet-4-5" share a safe name. */
  lemma SharedSafeName()
    ensures SafeName("claude-sonnet-4.5") == "claude-sonnet-4-5" == SafeName("claude-sonnet-4-5")
  {
    var a := "claude-sonnet-4.5";
    var b := "claude-sonnet-4-5";
    assert Lower(a) == a && Lower(b) == b;
    assert Sanitize(a) == b == Sanitize(b);
    SonnetIsSafe();
  }

  lemma SonnetIsSafe()
    ensures CollapseDashes("claude-sonnet-4-5") == "claude-sonnet-4-5" == StripDashes("claude-sonnet-4-5")
  {
    assert NoDoubleDash("claude-sonnet-4-5");
    CollapseFixesSingleDashes("claude-sonnet-4-5");
  }

  /** Two ids with one safe name in the same batch are both written (the
      second overwrites the first) and both counted. */
  lemma AsWrittenCountsCollisions(a: string, b: string, port: int)
    requires a != "" && b != "" && SafeName(a) == SafeName(b)
    ensures var r := SyncAsWritten([Served(a), Served(b)], port, map[], false);
      r.created == 2 && r.total == 1
  {
    var served := [Served(a), Served(b)];
    WritesOfTwo(served, port);
    CollidingBatch(served, port);
  }

  /** A batch of two writes with one name into an empty directory. */
  lemma CollidingBatch(served: seq<ServedModel>, port: int)
    requires var ws := Writes(served, port); |ws| == 2 && ws[0].name == ws[1].name
    ensures var r := SyncAsWritten(served, port, map[], false);
      r.created == 2 && r.total == 1
  {
    var ws := Writes(served, port);
    assert ws == [ws[0], ws[1]];
    CollidingPair(ws[0], ws[1]);
    FromEmpty(served, port);
  }

  /** Into an empty directory without clearing, the run is the loop alone. */
  lemma FromEmpty(served: seq<ServedModel>, port: int)
    ensures var w := WriteAsWritten(Writes(served, port), {}, map[]);
      SyncAsWritten(served, port, map[], false) == A0Result(w.0, w.1, |w.0|)
  {
    assert StartingPresets(map[], false) == map[];
  }

  /** For instance "claude-sonnet-4.5" and "claude-sonnet-4-5": 2 created, 1 in total. */
  lemma AsWrittenCountsOverwrites()
    ensures var r := SyncAsWritten([Served("claude-sonnet-4.5"), Served("claude-sonnet-4-5")], 8317, map[], false);
      r.created == 2 && r.total == 1
  {
    SharedSafeName();
    AsWrittenCountsCollisions("claude-sonnet-4.5", "claude-sonnet-4-5", 8317);
  }

  /** Two served models with ids give two writes, in order. */
  lemma WritesOfTwo(served: seq<ServedModel>, port: int)
    requires |served| == 2 && UsableId(served[0]).Some? && UsableId(served[1]).Some?
    ensures var ws := Writes(served, port);
      |ws| == 2 && ws[0].name == PresetName(UsableId(served[0]).value) && ws[1].name == PresetName(UsableId(served[1]).value)
  {
    assert served[1..][1..] == [];
  }

  /** As written, two writes of one name into an empty directory count as two
      and leave one file. */
  lemma CollidingPair(w1: PresetWrite, w2: PresetWrite)
    requires w1.name == w2.name
    ensures var r := WriteAsWritten([w1, w2], {}, map[]); r.1 == 2 && |r.0| == 1
  {
    var m1 := map[w1.name := w1.config];
    var m2 := m1[w2.name := w2.config];
    assert [w2][1..] == [];
    assert WriteAsWritten([w2], {}, m1) == (m2, 1);
    assert [w1, w2][1..] == [w2];
    assert WriteAsWritten([w1, w2], {}, map[]) == (m2, 2);
    assert m2.Keys == {w1.name};
  }

  /** Adding a new key adds one entry. */
  lemma MapAddCard(dir: map<string, Value>, k: string, v: Value)
    requires k !in dir
    ensures |dir[k := v]| == |dir| + 1
  {
  }

  /** The loop with the skip set kept up to date: a name already in the
      directory, from before or from earlier in the batch, is skipped. */
  function WriteDedup(ws: seq<PresetWrite>, dir: map<string, Value>): (r: (map<string, Value>, nat))
    ensures r.0.Keys == dir.Keys + Names(ws)
    ensures forall p | p in dir :: r.0[p] == dir[p]
    ensures |r.0| == |dir| + r.1
    ensures forall p | p in Names(ws) && p !in dir :: FirstNamed(ws, p) < |ws| && p in r.0 && r.0[p] == ws[FirstNamed(ws, p)].config
    decreases |ws|
  {
    if |ws| == 0 then (dir, 0)
    else
      NamesCons(ws);
      if ws[0].name in dir then
        assert dir.Keys + Names(ws) == dir.Keys + Names(ws[1..]);
        var r := WriteDedup(ws[1..], dir);
        FirstWrites(ws, dir, dir, r.0);
        r
      else
        var r := WriteDedup(ws[1..], dir[ws[0].name := ws[0].config]);
        FreshKeys(ws, dir, r.0);
        FreshCount(ws, dir, r.0, r.1);
        FreshKept(ws, dir, r.0);
        FirstWrites(ws, dir, dir[ws[0].name := ws[0].config], r.0);
        (r.0, r.1 + 1)
  }

  /** When the tail's first writes outside `dir'` are in `files`, so are the
      whole list's outside `dir`: `dir'` is `dir`, or `dir` with the head
      written, and `files` keeps what `dir'` holds. */
  lemma FirstWrites(ws: seq<PresetWrite>, dir: map<string, Value>, dir': map<string, Value>, files: map<string, Value>)
    requires |ws| > 0
    requires dir' == dir || (ws[0].name !in dir && dir' == dir[ws[0].name := ws[0].config])
    requires ws[0].name in dir'
    requires forall p | p in dir' :: p in files && files[p] == dir'[p]
    requires forall p | p in Names(ws[1..]) && p !in dir' ::
      FirstNamed(ws[1..], p) < |ws| - 1 && p in files && files[p] == ws[1..][FirstNamed(ws[1..], p)].config
    requires Names(ws) == {ws[0].name} + Names(ws[1..])
    ensures forall p | p in Names(ws) && p !in dir :: FirstNamed(ws, p) < |ws| && p in files && files[p] == ws[FirstNamed(ws, p)].config
  {
    forall p | p in Names(ws) && p !in dir
      ensures FirstNamed(ws, p) < |ws| && p in files && files[p] == ws[FirstNamed(ws, p)].config
    {
      if p == ws[0].name {
        assert FirstNamed(ws, p) == 0;
        assert dir' != dir;
      } else {
        var k := FirstNamed(ws[1..], p);
        assert p in Names(ws[1..]) && p !in dir';
        assert FirstNamed(ws, p) == k + 1;
        assert ws[k + 1] == ws[1..][k];
      }
    }
  }

  /** The names after writing a name not yet in the directory. */
  lemma FreshKeys(ws: seq<PresetWrite>, dir: map<string, Value>, files: map<string, Value>)
    requires |ws| > 0
    requires files.Keys == dir[ws[0].name := ws[0].config].Keys + Names(ws[1..])
    ensures files.Keys == dir.Keys + Names(ws)
  {
    NamesCons(ws);
    assert dir[ws[0].name := ws[0].config].Keys == dir.Keys + {ws[0].name};
  }

  /** The file count after writing a name not yet in the directory. */
  lemma FreshCount(ws: seq<PresetWrite>, dir: map<string, Value>, files: map<string, Value>, n: nat)
    requires |ws| > 0 && ws[0].name !in dir
    requires |files| == |dir[ws[0].name := ws[0].config]| + n
    ensures |files| == |dir| + n + 1
  {
    MapAddCard(dir, ws[0].name, ws[0].config);
  }

  /** Writing a name not yet in the directory keeps the files present. */
  lemma FreshKept(ws: seq<PresetWrite>, dir: map<string, Value>, files: map<string, Value>)
    requires |ws| > 0 && ws[0].name !in dir
    requires var dir' := dir[ws[0].name := ws[0].config];
      forall p | p in dir' :: p in files && files[p] == dir'[p]
    ensures forall p | p in dir :: p in files && files[p] == dir[p]
  {
    var dir' := dir[ws[0].name := ws[0].config];
    forall p | p in dir ensures p in files && files[p] == dir[p] {
      assert p in dir' && dir'[p] == dir[p];
    }
  }

  /** `sync_models` with the skip set updated after each write. */
  function SyncDedup(served: seq<ServedModel>, port: int, dir: map<string, Value>, clearFirst: bool): (r: A0Result)
    ensures var start := StartingPresets(dir, clearFirst);
      r.presets.Keys == start.Keys + Names(Writes(served, port))
      && (forall p | p in start :: r.presets[p] == start[p])
      && r.total == |r.presets|
      && r.total == |start| + r.created
    ensures var start := StartingPresets(dir, clearFirst);
      forall p | p in r.presets && p !in start ::
        FirstServedNamed(served, p) < |served| && r.presets[p] == PresetFor(served[FirstServedNamed(served, p)], port)
  {
    var start := StartingPresets(dir, clearFirst);
    var w := WriteDedup(Writes(served, port), start);
    assert forall p | p in w.0 && p !in start ::
      FirstServedNamed(served, p) < |served| && w.0[p] == PresetFor(served[FirstServedNamed(served, p)], port)
    by {
      forall p | p in w.0 && p !in start
        ensures FirstServedNamed(served, p) < |served| && w.0[p] == PresetFor(served[FirstServedNamed(served, p)], port)
      {
        FirstWriteIsFirstServed(served, port, p);
      }
    }
    A0Result(w.0, w.1, |w.0|)
  }

  /** After a run the directory holds exactly the presets it started with
      and one for each preset name of a served model with an id. */
  lemma SyncFiles(served: seq<ServedModel>, port: int, dir: map<string, Value>, clearFirst: bool, n: string)
    ensures n in SyncDedup(served, port, dir, clearFirst).presets <==>
      n in StartingPresets(dir, clearFirst) || NamedBy(served, n)
  {
    WriteNames(served, port, n);
  }

  /** Both versions leave the same set of files. */
  lemma SameFilesEitherWay(served: seq<ServedModel>, port: int, dir: map<string, Value>, clearFirst: bool)
    ensures SyncDedup(served, port, dir, clearFirst).presets.Keys == SyncAsWritten(served, port, dir, clearFirst).presets.Keys
    ensures SyncDedup(served, port, dir, clearFirst).total == SyncAsWritten(served, port, dir, clearFirst).total
  {
  }
}

=== FILE: api.dfy ===
/** `vibeproxy_manager/api.py`: the parts of `VibeProxyClient` that shape data.
    The base URL loses its trailing slashes; `chat` converts the messages,
    fills in the temperature, and turns the HTTP exchange into a
    `ChatResponse`, with every failure folded into an "Error: ..." response;
    `preflight` reads that response as a yes or no. The HTTP exchange itself
    is a parameter. */
module Api {
  import opened Wrappers
  import opened Strings
  import opened Json
  import opened Catalogue

  const DefaultBaseUrl: string := "http://localhost:8317"

  predicate IsSlash(c: char) { c == '/' }

  /** `base_url.rstrip("/")`. */
  function NormalizeBaseUrl(url: string): (r: string)
    ensures r <= url
    ensures |r| > 0 ==> r[|r| - 1] != '/'
    ensures forall i | |r| <= i < |url| :: url[i] == '/'
  {
    TrimEnd(url, IsSlash)
  }

  /** Normalising twice changes nothing. */
  lemma NormalizeIdempotent(url: string)
    ensures NormalizeBaseUrl(NormalizeBaseUrl(url)) == NormalizeBaseUrl(url)
  {
  }

  /** Normalising keeps everything but a run of trailing slashes: any two
      URLs that differ only in trailing slashes normalise alike. */
  lemma {:induction false} NormalizeIgnoresTrailingSlashes(url: string, n: nat)
    ensures NormalizeBaseUrl(url + seq(n, _ => '/')) == NormalizeBaseUrl(url)
    decreases n
  {
    if n > 0 {
      var longer := url + seq(n, _ => '/');
      assert longer[|longer| - 1] == '/';
      assert longer[..|longer| - 1] == url + seq(n - 1, _ => '/');
      NormalizeIgnoresTrailingSlashes(url, n - 1);
    } else {
      assert url + seq(0, _ => '/') == url;
    }
  }

  /** The default URL is kept; one trailing slash is dropped. */
  lemma NormalizeExamples()
    ensures NormalizeBaseUrl(DefaultBaseUrl) == "http://localhost:8317"
    ensures NormalizeBaseUrl("http://example.com:9000/") == "http://example.com:9000"
  {
    assert "http://example.com:9000/"[..23] == "http://example.com:9000";
  }

  /** A message as `chat` receives it: a `ChatMessage`, or anything else
      (normally a dict), which is passed through unchanged. */
  datatype MessageIn = Typed(message: ChatMessage) | Raw(value: Value)

  function MessageDict(m: ChatMessage): Value {
    Obj(map["role" := Str(m.role), "content" := Str(m.content)])
  }

  /** The message list sent in the payload, same length and order. */
  function ConvertMessages(msgs: seq<MessageIn>): (r: seq<Value>)
    ensures |r| == |msgs|
    ensures forall i | 0 <= i < |msgs| :: msgs[i].Raw? ==> r[i] == msgs[i].value
    ensures forall i | 0 <= i < |msgs| :: msgs[i].Typed? ==>
      Member(r[i], "role") == Some(Str(msgs[i].message.role))
      && Member(r[i], "content") == Some(Str(msgs[i].message.content))
      && r[i].Obj? && r[i].fields.Keys == {"role", "content"}
  {
    seq(|msgs|, i requires 0 <= i < |msgs| =>
      match msgs[i]
      case Typed(m) => MessageDict(m)
      case Raw(v) => v)
  }

  /** Converting a concatenation converts each part. */
  lemma ConvertAppend(a: seq<MessageIn>, b: seq<MessageIn>)
    ensures ConvertMessages(a + b) == ConvertMessages(a) + ConvertMessages(b)
  {
  }

  /** The temperature sent: the caller's when given; otherwise 1.0 for the
      GPT-5 family and 0.0 for everything else. */
  function ResolveTemperature(model: string, temperature: Option<real>): (t: real)
    ensures temperature.Some? ==> t == temperature.value
    ensures temperature.None? ==> (t == 1.0 <==> NeedsUnitTemperature(model))
    ensures temperature.None? ==> (t == 0.0 <==> !NeedsUnitTemperature(model))
  {
    if temperature.Some? then temperature.value
    else if NeedsUnitTemperature(model) then 1.0 else 0.0
  }

  /** The temperature rule ignores the case of the model id. */
  lemma TemperatureIgnoresCase(a: string, b: string)
    requires Lower(a) == Lower(b)
    ensures ResolveTemperature(a, None) == ResolveTemperature(b, None)
  {
  }

  datatype Payload = Payload(model: string, messages: seq<Value>, maxTokens: int, temperature: real)

  /** How the POST went: a body parsed from a 2xx reply, a non-2xx status with
      its body text, or an exception with its text (connection errors, a body
      that is not JSON). */
  datatype HttpResult =
    | Response(data: Value)
    | StatusError(code: int, body: string)
    | Failure(error: string)

  /** What the extraction read from a reply body, or `None` when reading it
      raised (a value of the wrong type somewhere). */
  datatype Extracted = Extracted(content: string, tokens: int, finishReason: string)

  /** `d.get(k, default)`. */
  function GetOr(d: map<string, Value>, k: string, default: Value): (v: Value)
    ensures k in d ==> v == d[k]
    ensures k !in d ==> v == default
  {
    if k in d then d[k] else default
  }

  /** `len(v)`, for the values that have one. */
  function Len(v: Value): Option<nat> {
    match v
    case Str(s) => Some(|s|)
    case List(items) => Some(|items|)
    case Obj(fields) => Some(|fields|)
    case _ => None
  }

  /** The content and finish reason of a non-empty choices list; `None` when the
      first choice or its message is not an object, or a field has the wrong type. */
  function FromChoices(choices: Value): (r: Option<(string, string)>)
    requires Len(choices).Some? && Len(choices).value > 0
  {
    if !choices.List? || !choices.items[0].Obj? then None
    else
      var choice := choices.items[0].fields;
      var message := GetOr(choice, "message", Obj(map[]));
      if !message.Obj? then None
      else
        var content := GetOr(message.fields, "content", Str(""));
        var finish := GetOr(choice, "finish_reason", Str("stop"));
        if content.Str? && finish.Str? then Some((content.s, finish.s)) else None
  }

  /** The first choice can be read: `data["choices"][0]` is an object, its
      `message` (default `{}`) is an object, and the content and finish reason
      are strings, as `ChatResponse` requires. */
  predicate FirstChoiceReadable(choices: Value) {
    choices.List? && |choices.items| > 0 && choices.items[0].Obj?
    && GetOr(choices.items[0].fields, "message", Obj(map[])).Obj?
    && GetOr(GetOr(choices.items[0].fields, "message", Obj(map[])).fields, "content", Str("")).Str?
    && GetOr(choices.items[0].fields, "finish_reason", Str("stop")).Str?
  }

  /** The reply body reads without raising: it is an object; a `choices`
      value has a length and, when non-empty, a readable first choice; and
      `usage` (default `{}`) is an object whose `total_tokens` (default 0)
      is an integer. */
  predicate Extractable(data: Value) {
    data.Obj?
    && ("choices" in data.fields ==>
          Len(data.fields["choices"]).Some?
          && (Len(data.fields["choices"]).value > 0 ==> FirstChoiceReadable(data.fields["choices"])))
    && GetOr(data.fields, "usage", Obj(map[])).Obj?
    && GetOr(GetOr(data.fields, "usage", Obj(map[])).fields, "total_tokens", Int(0)).Int?
  }

  /** The extraction in `chat`'s `try` block. */
  function Extract(data: Value): (r: Option<Extracted>)
    ensures r.Some? <==> Extractable(data)
    ensures r.Some? ==> data.Obj?
    ensures r.Some? && !("choices" in data.fields && Len(data.fields["choices"]).Some?
                         && Len(data.fields["choices"]).value > 0) ==>
      r.value.finishReason == "error" && r.value.content == ""
    ensures r.Some? && "usage" !in data.fields ==> r.value.tokens == 0
    ensures r.Some? && "usage" in data.fields ==>
      data.fields["usage"].Obj? && GetOr(data.fields["usage"].fields, "total_tokens", Int(0)) == Int(r.value.tokens)
    ensures r.Some? && "choices" in data.fields && data.fields["choices"].List? && |data.fields["choices"].items| > 0 ==>
      var choice := data.fields["choices"].items[0];
      choice.Obj? && GetOr(choice.fields, "message", Obj(map[])).Obj?
      && GetOr(GetOr(choice.fields, "message", Obj(map[])).fields, "content", Str("")) == Str(r.value.content)
      && GetOr(choice.fields, "finish_reason", Str("stop")) == Str(r.value.finishReason)
  {
    if !data.Obj? then None
    else
      var d := data.fields;
      var picked: Option<(string, string)> :=
        if "choices" in d then
          match Len(d["choices"])
          case None => None
          case Some(n) => if n > 0 then FromChoices(d["choices"]) else Some(("", "error"))
        else Some(("", "error"));
      var usage := GetOr(d, "usage", Obj(map[]));
      if picked.None? || !usage.Obj? then None
      else
        var tokens := GetOr(usage.fields, "total_tokens", Int(0));
        if tokens.Int? then Some(Extracted(picked.value.0, tokens.i, picked.value.1)) else None
  }

  /** A well-formed reply: first choice's message content (default ""), its
      finish reason (default "stop"), and the total token count (default 0). */
  lemma ExtractWellFormed(content: Option<string>, finish: Option<string>, tokens: Option<int>)
    ensures var message := if content.Some? then map["content" := Str(content.value)] else map[];
      var choice := if finish.Some? then map["message" := Obj(message), "finish_reason" := Str(finish.value)]
                    else map["message" := Obj(message)];
      var data := if tokens.Some? then map["choices" := List([Obj(choice)]), "usage" := Obj(map["total_tokens" := Int(tokens.value)])]
                  else map["choices" := List([Obj(choice)])];
      Extract(Obj(data)) == Some(Extracted(content.GetOr(""), tokens.GetOr(0), finish.GetOr("stop")))
  {
  }

  /** Keys other than `choices` and `usage`, such as a reply's `id`,
      `object` or `created`, do not change what is extracted. */
  lemma ExtractIgnoresOtherKeys(data: map<string, Value>, k: string, v: Value)
    requires k != "choices" && k != "usage"
    ensures Extract(Obj(data[k := v])) == Extract(Obj(data))
  {
    var d := data[k := v];
    assert ("choices" in d) == ("choices" in data);
    assert ("usage" in d) == ("usage" in data);
    if "choices" in data {
      assert d["choices"] == data["choices"];
    }
    if "usage" in data {
      assert d["usage"] == data["usage"];
    }
  }

  /** A first choice without a message reads as empty content. */
  lemma ExtractWithoutMessage(finish: string)
    ensures Extract(Obj(map["choices" := List([Obj(map["finish_reason" := Str(finish)])])]))
      == Some(Extracted("", 0, finish))
  {
  }

  /** The first 200 characters (`text[:200]`). */
  function Prefix200(s: string): (r: string)
    ensures r <= s && |r| <= 200
    ensures |s| <= 200 ==> r == s
  {
    if |s| <= 200 then s else s[..200]
  }

  /** An error response: content "Error: " plus the text, no tokens. */
  function ErrorResponse(model: string, text: string): (r: ChatResponse)
    ensures r.finishReason == "error" && r.tokens == 0 && r.model == model
    ensures "Error: " <= r.content && r.content[7..] == text
  {
    ChatResponse("Error: " + text, 0, model, "error")
  }

  datatype ChatCall = ChatCall(payload: Payload, response: ChatResponse)

  /** `chat`. `http` is the outcome of posting the payload; `raised` is the text
      of the exception when reading a reply body raised. */
  function Chat(model: string, messages: seq<MessageIn>, maxTokens: int, temperature: Option<real>,
                http: HttpResult, raised: string): (c: ChatCall)
    ensures c.payload.model == model && c.payload.maxTokens == maxTokens
    ensures c.payload.messages == ConvertMessages(messages)
    ensures c.payload.temperature == ResolveTemperature(model, temperature)
    ensures c.response.model == model
    ensures !http.Response? ==>
      c.response.finishReason == "error" && c.response.tokens == 0 && "Error: " <= c.response.content
    ensures http.StatusError? ==>
      c.response.content == "Error: HTTP " + IntToString(http.code) + ": " + Prefix200(http.body)
    ensures http.Response? && Extract(http.data).Some? ==>
      var e := Extract(http.data).value;
      c.response == ChatResponse(e.content, e.tokens, model, e.finishReason)
    ensures http.Response? && Extract(http.data).None? ==> c.response == ErrorResponse(model, raised)
  {
    var payload := Payload(model, ConvertMessages(messages), maxTokens, ResolveTemperature(model, temperature));
    var response :=
      match http
      case Response(data) =>
        (match Extract(data)
         case Some(e) => ChatResponse(e.content, e.tokens, model, e.finishReason)
         case None => ErrorResponse(model, raised))
      case StatusError(code, body) => ErrorResponse(model, "HTTP " + IntToString(code) + ": " + Prefix200(body))
      case Failure(error) => ErrorResponse(model, error);
    ChatCall(payload, response)
  }

  /** A body without choices is reported as an error even though no
      exception occurred; its content is then empty. */
  lemma NoChoicesIsError(model: string)
    ensures Chat(model, [], 500, None, Response(Obj(map[])), "").response == ChatResponse("", 0, model, "error")
  {
  }

  const PreflightPrompt: Value := Obj(map["role" := Str("user"), "content" := Str("Reply with just 'OK'")])

  /** `preflight`: one ten-token request; success exactly when the response is
      not an error. `elapsed` is the formatted elapsed time. */
  function Preflight(model: string, http: HttpResult, raised: string, elapsed: string): (r: (bool, string))
    ensures var c := Chat(model, [Raw(PreflightPrompt)], 10, None, http, raised);
      (r.0 <==> c.response.finishReason != "error")
      && (!r.0 ==> r.1 == c.response.content)
      && (r.0 ==> r.1 == "OK (" + elapsed + "s, " + IntToString(c.response.tokens) + " tokens)")
    ensures !http.Response? ==> !r.0
  {
    var c := Chat(model, [Raw(PreflightPrompt)], 10, None, http, raised);
    if c.response.finishReason == "error" then (false, c.response.content)
    else (true, "OK (" + elapsed + "s, " + IntToString(c.response.tokens) + " tokens)")
  }
}

=== FILE: browse.dfy ===
/** `BrowseModelsScreen.refresh_list` in
    `vibeproxy_manager/screens/browse_models.py`: the model list is filtered by
    the search text and the favourites switch, grouped by provider in
    `PROVIDER_ORDER`, and each non-empty group becomes a disabled header row
    followed by one row per model, favourites first and then by id.

    A row shows only the model's id, so the groups are built from the ids of
    the filtered models. */
module Browse {
  import opened Strings
  import opened Seqs
  import opened Ordering
  import opened Catalogue

  /** A row of the selection list: a provider header, or a model with its
      label and its value (the model id). */
  datatype Row = Header(provider: Provider, count: nat) | Item(text: string, value: string)

  function Ids(models: seq<Model>): (ids: seq<string>)
    ensures |ids| == |models|
    ensures forall i | 0 <= i < |models| :: ids[i] == models[i].id
  {
    seq(|models|, i requires 0 <= i < |models| => models[i].id)
  }

  function MatchesSearch(search: string): Model -> bool {
    (m: Model) => Contains(Lower(m.id), Lower(search))
  }

  /** The search filter: with a non-empty search text, the models whose
      lower-cased id contains the lower-cased text; otherwise all of them. */
  function SearchFilter(models: seq<Model>, search: string): (r: seq<Model>)
    ensures search == "" ==> r == models
    ensures forall i | 0 <= i < |r| :: r[i] in models && (search != "" ==> Contains(Lower(r[i].id), Lower(search)))
    ensures forall i | 0 <= i < |models| :: Contains(Lower(models[i].id), Lower(search)) ==> models[i] in r
  {
    if search == "" then models else Filter(models, MatchesSearch(search))
  }

  function IsFavorite(favorites: seq<string>): Model -> bool {
    (m: Model) => m.id in favorites
  }

  /** The favourites switch: when on, only the models whose id is a favourite. */
  function FavoritesFilter(models: seq<Model>, favorites: seq<string>, favoritesOnly: bool): (r: seq<Model>)
    ensures !favoritesOnly ==> r == models
    ensures forall i | 0 <= i < |r| :: r[i] in models && (favoritesOnly ==> r[i].id in favorites)
    ensures forall i | 0 <= i < |models| :: models[i].id in favorites ==> models[i] in r
  {
    if favoritesOnly then Filter(models, IsFavorite(favorites)) else models
  }

  /** The models that survive both filters: each listed model passes both,
      and every model that passes both is listed. */
  function Filtered(models: seq<Model>, search: string, favorites: seq<string>, favoritesOnly: bool): (r: seq<Model>)
    ensures !favoritesOnly && search == "" ==> r == models
    ensures forall i | 0 <= i < |r| ::
      r[i] in models && (search != "" ==> Contains(Lower(r[i].id), Lower(search))) && (favoritesOnly ==> r[i].id in favorites)
    ensures forall i | 0 <= i < |models| ::
      Contains(Lower(models[i].id), Lower(search)) && (favoritesOnly ==> models[i].id in favorites) ==> models[i] in r
  {
    var s := SearchFilter(models, search);
    var r := FavoritesFilter(s, favorites, favoritesOnly);
    assert forall i | 0 <= i < |models| ::
      Contains(Lower(models[i].id), Lower(search)) && (favoritesOnly ==> models[i].id in favorites) ==> models[i] in r
    by {
      forall i | 0 <= i < |models| && Contains(Lower(models[i].id), Lower(search)) && (favoritesOnly ==> models[i].id in favorites)
        ensures models[i] in r
      {
        var j :| 0 <= j < |s| && s[j] == models[i];
      }
    }
    r
  }

  /** A model is listed exactly when it passes both filters. */
  lemma FilteredMembers(models: seq<Model>, search: string, favorites: seq<string>, favoritesOnly: bool, m: Model)
    ensures m in Filtered(models, search, favorites, favoritesOnly) <==>
      m in models && (search != "" ==> Contains(Lower(m.id), Lower(search)))
      && (favoritesOnly ==> m.id in favorites)
  {
  }

  /** The sort key `(0 if favourite else 1, id)`, written as one string: the
      rank digit followed by the id. */
  function FavoriteKey(favorites: seq<string>): string -> string {
    (id: string) => [if id in favorites then '0' else '1'] + id
  }

  /** The key orders favourites first and then by id. */
  lemma FavoriteKeyOrder(favorites: seq<string>, a: string, b: string)
    ensures Le(FavoriteKey(favorites)(a), FavoriteKey(favorites)(b)) <==>
      (a in favorites && b !in favorites) || ((a in favorites <==> b in favorites) && Le(a, b))
  {
    var ka, kb := FavoriteKey(favorites)(a), FavoriteKey(favorites)(b);
    assert ka[1..] == a && kb[1..] == b;
  }

  /** `"⭐ "` for a favourite, three blanks otherwise, then the id. */
  function ItemRow(favorites: seq<string>, id: string): (r: Row)
    ensures r.Item? && r.value == id
    ensures id in favorites ==> r.text == "⭐ " + id
    ensures id !in favorites ==> r.text == "   " + id
  {
    Item((if id in favorites then "⭐ " else "   ") + id, id)
  }

  function ItemRows(favorites: seq<string>, ids: seq<string>): (rows: seq<Row>)
    ensures |rows| == |ids|
    ensures forall i | 0 <= i < |ids| :: rows[i] == ItemRow(favorites, ids[i])
  {
    seq(|ids|, i requires 0 <= i < |ids| => ItemRow(favorites, ids[i]))
  }

  function InGroup(p: Provider): string -> bool {
    (id: string) => ProviderOf(id) == p
  }

  /** The rows of one provider group: nothing for an empty group; otherwise
      the header with the group size, then the group's ids in key order. */
  function GroupRows(p: Provider, group: seq<string>, favorites: seq<string>): (rows: seq<Row>)
    ensures |group| == 0 ==> rows == []
    ensures |group| > 0 ==> |rows| == |group| + 1 && rows[0] == Header(p, |group|)
    ensures |group| > 0 ==> rows[1..] == ItemRows(favorites, SortBy(group, FavoriteKey(favorites)))
  {
    if |group| == 0 then []
    else [Header(p, |group|)] + ItemRows(favorites, SortBy(group, FavoriteKey(favorites)))
  }

  /** The groups of `providers`, in that order. */
  function RowsFor(providers: seq<Provider>, ids: seq<string>, favorites: seq<string>): seq<Row>
    decreases |providers|
  {
    if |providers| == 0 then []
    else GroupRows(providers[0], Filter(ids, InGroup(providers[0])), favorites) + RowsFor(providers[1..], ids, favorites)
  }

  /** `refresh_list`: the rows of the selection list. Every filtered model is
      one item row valued with its id, starred exactly when it is a favourite,
      and the headers are the providers with models, in `PROVIDER_ORDER`. */
  function RefreshList(models: seq<Model>, search: string, favorites: seq<string>, favoritesOnly: bool): (rows: seq<Row>)
    ensures multiset(ItemValues(rows)) == multiset(Ids(Filtered(models, search, favorites, favoritesOnly)))
    ensures Starred(favorites, rows)
    ensures HeaderProviders(rows) == Filter(ProviderOrder, HasModels(Ids(Filtered(models, search, favorites, favoritesOnly))))
    ensures Grouped(rows, favorites)
  {
    var ids := Ids(Filtered(models, search, favorites, favoritesOnly));
    EachIdOnce(ids, favorites);
    StarMarksFavorites(ProviderOrder, ids, favorites);
    HeadersInOrder(ProviderOrder, ids, favorites);
    RowsForGrouped(ProviderOrder, ids, favorites);
    RowsFor(ProviderOrder, ids, favorites)
  }

  // ---- what the rows contain ------------------------------------------------

  /** The values of the item rows, in order. */
  function ItemValues(rows: seq<Row>): (vs: seq<string>)
    ensures |vs| <= |rows|
    decreases |rows|
  {
    if |rows| == 0 then []
    else (if rows[0].Item? then [rows[0].value] else []) + ItemValues(rows[1..])
  }

  lemma {:induction false} ItemValuesAppend(a: seq<Row>, b: seq<Row>)
    ensures ItemValues(a + b) == ItemValues(a) + ItemValues(b)
    decreases |a|
  {
    if |a| > 0 {
      assert (a + b)[1..] == a[1..] + b;
      ItemValuesAppend(a[1..], b);
    } else {
      assert a + b == b;
    }
  }

  lemma {:induction false} ItemValuesOfItems(favorites: seq<string>, ids: seq<string>)
    ensures ItemValues(ItemRows(favorites, ids)) == ids
    decreases |ids|
  {
    if |ids| > 0 {
      var rows := ItemRows(favorites, ids);
      assert rows[1..] == ItemRows(favorites, ids[1..]);
      ItemValuesOfItems(favorites, ids[1..]);
      assert ids == [ids[0]] + ids[1..];
    }
  }

  lemma GroupItemValues(p: Provider, group: seq<string>, favorites: seq<string>)
    ensures ItemValues(GroupRows(p, group, favorites)) == SortBy(group, FavoriteKey(favorites))
  {
    var rows := GroupRows(p, group, favorites);
    if |group| > 0 {
      assert rows == [rows[0]] + rows[1..];
      ItemValuesAppend([rows[0]], rows[1..]);
      ItemValuesOfItems(favorites, SortBy(group, FavoriteKey(favorites)));
      assert ItemValues([rows[0]]) == [];
    }
  }

  function InProviders(providers: seq<Provider>): string -> bool {
    (id: string) => ProviderOf(id) in providers
  }

  /** The items of the groups of distinct `providers` are, as a multiset,
      the ids whose provider is among them. */
  lemma {:induction false} RowsForItems(providers: seq<Provider>, ids: seq<string>, favorites: seq<string>)
    requires Distinct(providers)
    ensures multiset(ItemValues(RowsFor(providers, ids, favorites))) == multiset(Filter(ids, InProviders(providers)))
    decreases |providers|
  {
    if |providers| == 0 {
      FilterNone(ids, InProviders(providers));
    } else {
      var p, rest := providers[0], providers[1..];
      var g := Filter(ids, InGroup(p));
      ItemValuesAppend(GroupRows(p, g, favorites), RowsFor(rest, ids, favorites));
      GroupItemValues(p, g, favorites);
      DistinctTail(providers);
      RowsForItems(rest, ids, favorites);
      ProvidersSplit(providers);
      FilterDisjointUnion(ids, InProviders(providers), InGroup(p), InProviders(rest));
    }
  }

  /** Belonging to a list of distinct providers is belonging to its head or,
      exclusively, to its tail. */
  lemma ProvidersSplit(providers: seq<Provider>)
    requires |providers| > 0 && Distinct(providers)
    ensures forall id :: InProviders(providers)(id) <==> InGroup(providers[0])(id) || InProviders(providers[1..])(id)
    ensures forall id :: !(InGroup(providers[0])(id) && InProviders(providers[1..])(id))
  {
    assert providers == [providers[0]] + providers[1..];
    assert providers[0] !in providers[1..] by {
      forall i | 0 <= i < |providers| - 1 ensures providers[1..][i] != providers[0] {
        assert providers[1..][i] == providers[i + 1];
      }
    }
  }

  lemma {:induction false} FilterNone(ids: seq<string>, keep: string -> bool)
    requires forall id :: !keep(id)
    ensures Filter(ids, keep) == []
    decreases |ids|
  {
    if |ids| > 0 {
      FilterNone(ids[1..], keep);
    }
  }

  /** Every id appears exactly once among the groups in `PROVIDER_ORDER`, as
      an item whose value is that id. */
  lemma EachIdOnce(ids: seq<string>, favorites: seq<string>)
    ensures multiset(ItemValues(RowsFor(ProviderOrder, ids, favorites))) == multiset(ids)
  {
    assert Distinct(ProviderOrder);
    RowsForItems(ProviderOrder, ids, favorites);
    forall i | 0 <= i < |ids| ensures InProviders(ProviderOrder)(ids[i]) {
      ProviderListed(ids[i]);
    }
    FilterAll(ids, InProviders(ProviderOrder));
  }

  /** Every item row among `rows` is the one `favorites` gives its id. */
  predicate Starred(favorites: seq<string>, rows: seq<Row>) {
    forall i | 0 <= i < |rows| :: rows[i].Item? ==> rows[i] == ItemRow(favorites, rows[i].value)
  }

  lemma GroupStarred(p: Provider, g: seq<string>, favorites: seq<string>)
    ensures Starred(favorites, GroupRows(p, g, favorites))
  {
    var head := GroupRows(p, g, favorites);
    if |g| > 0 {
      forall i | 0 <= i < |head| && head[i].Item?
        ensures head[i] == ItemRow(favorites, head[i].value)
      {
        assert head[i] == head[1..][i - 1];
      }
    }
  }

  lemma StarredAppend(favorites: seq<string>, a: seq<Row>, b: seq<Row>)
    requires Starred(favorites, a) && Starred(favorites, b)
    ensures Starred(favorites, a + b)
  {
    forall i | 0 <= i < |a + b| && (a + b)[i].Item?
      ensures (a + b)[i] == ItemRow(favorites, (a + b)[i].value)
    {
      if i >= |a| {
        assert (a + b)[i] == b[i - |a|];
      }
    }
  }

  /** Every item row is labelled with the star exactly when its id is a favourite. */
  lemma {:induction false} StarMarksFavorites(providers: seq<Provider>, ids: seq<string>, favorites: seq<string>)
    ensures Starred(favorites, RowsFor(providers, ids, favorites))
    decreases |providers|
  {
    if |providers| > 0 {
      StarMarksFavorites(providers[1..], ids, favorites);
      var g := Filter(ids, InGroup(providers[0]));
      assert RowsFor(providers, ids, favorites) == GroupRows(providers[0], g, favorites) + RowsFor(providers[1..], ids, favorites);
      GroupStarred(providers[0], g, favorites);
      StarredAppend(favorites, GroupRows(providers[0], g, favorites), RowsFor(providers[1..], ids, favorites));
    }
  }

  /** The providers of the header rows, in order. */
  function HeaderProviders(rows: seq<Row>): seq<Provider>
    decreases |rows|
  {
    if |rows| == 0 then []
    else (if rows[0].Header? then [rows[0].provider] else []) + HeaderProviders(rows[1..])
  }

  lemma {:induction false} HeaderProvidersAppend(a: seq<Row>, b: seq<Row>)
    ensures HeaderProviders(a + b) == HeaderProviders(a) + HeaderProviders(b)
    decreases |a|
  {
    if |a| > 0 {
      assert (a + b)[1..] == a[1..] + b;
      HeaderProvidersAppend(a[1..], b);
    } else {
      assert a + b == b;
    }
  }

  lemma {:induction false} NoHeadersInItems(favorites: seq<string>, ids: seq<string>)
    ensures HeaderProviders(ItemRows(favorites, ids)) == []
    decreases |ids|
  {
    if |ids| > 0 {
      assert ItemRows(favorites, ids)[1..] == ItemRows(favorites, ids[1..]);
      NoHeadersInItems(favorites, ids[1..]);
    }
  }

  function HasModels(ids: seq<string>): Provider -> bool {
    p => Filter(ids, InGroup(p)) != []
  }

  /** One header per provider that has models, in the order of `providers`. */
  lemma {:induction false} HeadersInOrder(providers: seq<Provider>, ids: seq<string>, favorites: seq<string>)
    ensures HeaderProviders(RowsFor(providers, ids, favorites)) == Filter(providers, HasModels(ids))
    decreases |providers|
  {
    if |providers| > 0 {
      var p := providers[0];
      var g := Filter(ids, InGroup(p));
      var head := GroupRows(p, g, favorites);
      HeaderProvidersAppend(head, RowsFor(providers[1..], ids, favorites));
      HeadersInOrder(providers[1..], ids, favorites);
      GroupHeader(p, g, favorites);
    }
  }

  /** A group contributes its provider's header when it has models, and nothing otherwise. */
  lemma GroupHeader(p: Provider, g: seq<string>, favorites: seq<string>)
    ensures HeaderProviders(GroupRows(p, g, favorites)) == if |g| > 0 then [p] else []
  {
    if |g| > 0 {
      var head := GroupRows(p, g, favorites);
      assert head == [Header(p, |g|)] + head[1..];
      HeaderProvidersAppend([Header(p, |g|)], head[1..]);
      NoHeadersInItems(favorites, SortBy(g, FavoriteKey(favorites)));
      assert HeaderProviders([Header(p, |g|)]) == [p];
    }
  }

  /** The header of each group counts exactly the items that follow it, and
      those items are ordered favourites first, then by id. */
  lemma GroupShape(p: Provider, group: seq<string>, favorites: seq<string>)
    requires |group| > 0
    ensures var rows := GroupRows(p, group, favorites);
      rows[0] == Header(p, |group|)
      && (forall i | 1 <= i < |rows| :: rows[i].Item?)
      && |rows| - 1 == rows[0].count
      && SortedBy(ItemValues(rows), FavoriteKey(favorites))
      && multiset(ItemValues(rows)) == multiset(group)
  {
    GroupItemValues(p, group, favorites);
  }

  // ---- how the rows are grouped ---------------------------------------------

  /** If row `h` is a header for `n` models, the `n` rows after it are items
      of that provider in key order, and the row after them, if any, is the
      next header. */
  ghost predicate GroupAt(rows: seq<Row>, h: nat, favorites: seq<string>) {
    h < |rows| && rows[h].Header? ==>
      var n := rows[h].count;
      0 < n && h + n < |rows|
      && (forall i | h < i <= h + n :: rows[i].Item? && ProviderOf(rows[i].value) == rows[h].provider)
      && (h + n + 1 < |rows| ==> rows[h + n + 1].Header?)
      && (forall i, j | h < i < j <= h + n :: Le(FavoriteKey(favorites)(rows[i].value), FavoriteKey(favorites)(rows[j].value)))
  }

  /** The list is a run of groups: it opens with a header, and each header
      is followed by exactly as many items of its provider as it counts. */
  ghost predicate Grouped(rows: seq<Row>, favorites: seq<string>) {
    (|rows| > 0 ==> rows[0].Header?)
    && forall h: nat | h < |rows| :: GroupAt(rows, h, favorites)
  }

  /** The rows of one group of a provider's ids are grouped. */
  lemma GroupGrouped(p: Provider, group: seq<string>, favorites: seq<string>)
    requires forall i | 0 <= i < |group| :: ProviderOf(group[i]) == p
    ensures Grouped(GroupRows(p, group, favorites), favorites)
  {
    var rows := GroupRows(p, group, favorites);
    if |group| > 0 {
      assert GroupAt(rows, 0, favorites) by {
        var sorted := SortBy(group, FavoriteKey(favorites));
        GroupItemsOf(p, group, favorites);
        forall i, j | 0 < i < j <= |group|
          ensures Le(FavoriteKey(favorites)(rows[i].value), FavoriteKey(favorites)(rows[j].value))
        {
          assert rows[i].value == sorted[i - 1] && rows[j].value == sorted[j - 1];
        }
      }
      assert forall h: nat | 0 < h < |rows| :: !rows[h].Header? by {
        GroupItemsOf(p, group, favorites);
      }
    }
  }

  /** The item rows of a group of one provider's ids are that provider's
      ids in key order. */
  lemma GroupItemsOf(p: Provider, group: seq<string>, favorites: seq<string>)
    requires forall i | 0 <= i < |group| :: ProviderOf(group[i]) == p
    requires |group| > 0
    ensures var rows, sorted := GroupRows(p, group, favorites), SortBy(group, FavoriteKey(favorites));
      forall i | 0 < i <= |group| :: rows[i] == ItemRow(favorites, sorted[i - 1]) && ProviderOf(sorted[i - 1]) == p
  {
    var rows := GroupRows(p, group, favorites);
    var sorted := SortBy(group, FavoriteKey(favorites));
    forall i | 0 < i <= |group|
      ensures rows[i] == ItemRow(favorites, sorted[i - 1]) && ProviderOf(sorted[i - 1]) == p
    {
      assert rows[i] == rows[1..][i - 1];
      assert sorted[i - 1] in multiset(group);
    }
  }

  /** Two grouped lists placed one after the other are grouped. */
  lemma GroupedAppend(a: seq<Row>, b: seq<Row>, favorites: seq<string>)
    requires Grouped(a, favorites) && Grouped(b, favorites)
    ensures Grouped(a + b, favorites)
  {
    var rows := a + b;
    forall h: nat | h < |rows|
      ensures GroupAt(rows, h, favorites)
    {
      if h < |a| {
        assert GroupAt(a, h, favorites);
        if rows[h].Header? {
          var n := rows[h].count;
          forall i | h < i <= h + n + 1 && i < |a|
            ensures rows[i] == a[i]
          {
          }
          if h + n + 1 == |a| && |b| > 0 {
            assert rows[h + n + 1] == b[0];
          }
        }
      } else {
        assert GroupAt(b, h - |a|, favorites);
        forall i | h <= i < |rows|
          ensures rows[i] == b[i - |a|]
        {
        }
      }
    }
  }

  /** The groups of any providers form a grouped list. */
  lemma {:induction false} RowsForGrouped(providers: seq<Provider>, ids: seq<string>, favorites: seq<string>)
    ensures Grouped(RowsFor(providers, ids, favorites), favorites)
    decreases |providers|
  {
    if |providers| > 0 {
      var p := providers[0];
      var g := Filter(ids, InGroup(p));
      GroupGrouped(p, g, favorites);
      RowsForGrouped(providers[1..], ids, favorites);
      GroupedAppend(GroupRows(p, g, favorites), RowsFor(providers[1..], ids, favorites), favorites);
    }
  }
}

=== FILE: catalogue.dfy ===
/** The data records of `vibeproxy_manager/models.py`: a served model, its
    provider classification and display name, chat messages and responses,
    and Agent Zero presets. */
module Catalogue {
  import opened Wrappers
  import opened Strings

  /** A model as listed by `/v1/models`. */
  datatype Model = Model(id: string, objectType: string, created: int, ownedBy: string)

  /** A model entry of a `/v1/models` reply as the sync scripts read it: its
      `id` and `owned_by` fields, when present. */
  datatype ServedModel = ServedModel(id: Option<string>, ownedBy: Option<string>)

  /** The id the sync scripts act on: `None` when it is missing or empty
      (`if not model_id: continue`). */
  function UsableId(m: ServedModel): (r: Option<string>)
    ensures r.Some? <==> m.id.Some? && m.id.value != ""
    ensures r.Some? ==> r == m.id
  {
    if m.id.Some? && m.id.value != "" then m.id else None
  }

  /** A model record built from an id alone takes the declared field defaults. */
  function NewModel(id: string): (m: Model)
    ensures m.id == id
    ensures m.objectType == "model" && m.created == 0 && m.ownedBy == "vibeproxy"
  {
    Model(id, "model", 0, "vibeproxy")
  }

  datatype Provider = Anthropic | OpenAI | Google | XAI | Raptor | Other

  /** The provider names exactly as the source spells them. */
  function ProviderName(p: Provider): string {
    match p
    case Anthropic => "Anthropic"
    case OpenAI => "OpenAI"
    case Google => "Google"
    case XAI => "xAI"
    case Raptor => "Raptor"
    case Other => "Other"
  }

  /** `PROVIDER_ORDER`: the order provider groups are listed in. */
  const ProviderOrder: seq<Provider> := [Anthropic, OpenAI, Google, XAI, Raptor, Other]

  /** The same order as names. */
  const ProviderOrderNames: seq<string> := ["Anthropic", "OpenAI", "Google", "xAI", "Raptor", "Other"]

  /** `Model.provider`: ordered, case-insensitive keyword checks on the id. */
  function ProviderOf(id: string): Provider {
    var l := Lower(id);
    if Contains(l, "claude") then Anthropic
    else if Contains(l, "gpt") then OpenAI
    else if Contains(l, "gemini") then Google
    else if Contains(l, "grok") then XAI
    else if Contains(l, "raptor") then Raptor
    else Other
  }

  /** The keyword table the classification walks, first match wins. */
  const ProviderRules: seq<(string, Provider)> :=
    [("claude", Anthropic), ("gpt", OpenAI), ("gemini", Google), ("grok", XAI), ("raptor", Raptor)]

  /** Reference definition: the provider of the first rule whose keyword occurs in `s`. */
  function FirstMatch(rules: seq<(string, Provider)>, s: string): Provider
    decreases |rules|
  {
    if |rules| == 0 then Other
    else if Contains(s, rules[0].0) then rules[0].1
    else FirstMatch(rules[1..], s)
  }

  /** The if-chain is the first-match walk over the rule table on the lower-cased id. */
  lemma ProviderIsFirstMatch(id: string)
    ensures ProviderOf(id) == FirstMatch(ProviderRules, Lower(id))
  {
    var l := Lower(id);
    var rs := ProviderRules;
    assert rs[1..][1..][1..][1..][1..] == [];
    assert FirstMatch(rs[1..][1..][1..][1..], l) ==
      (if Contains(l, "raptor") then Raptor else Other);
    assert FirstMatch(rs[1..][1..][1..], l) ==
      (if Contains(l, "grok") then XAI else FirstMatch(rs[1..][1..][1..][1..], l));
    assert FirstMatch(rs[1..][1..], l) ==
      (if Contains(l, "gemini") then Google else FirstMatch(rs[1..][1..][1..], l));
  }

  /** The provider always has a name listed in `PROVIDER_ORDER`, and its group
      position is that name's index there. */
  lemma ProviderListed(id: string)
    ensures ProviderOf(id) in ProviderOrder
    ensures ProviderName(ProviderOf(id)) in ProviderOrderNames
    ensures forall i | 0 <= i < |ProviderOrder| :: ProviderOrderNames[i] == ProviderName(ProviderOrder[i])
  {
  }

  /** Keyword precedence: an id naming several families is classified by the
      earliest check ("claude" over "gpt" over "gemini" over "grok" over "raptor"). */
  lemma ProviderPrecedence(id: string)
    ensures Contains(Lower(id), "claude") ==> ProviderOf(id) == Anthropic
    ensures ProviderOf(id) == OpenAI <==> !Contains(Lower(id), "claude") && Contains(Lower(id), "gpt")
    ensures ProviderOf(id) == Google <==>
      !Contains(Lower(id), "claude") && !Contains(Lower(id), "gpt") && Contains(Lower(id), "gemini")
    ensures ProviderOf(id) == Other <==>
      forall k | 0 <= k < |ProviderRules| :: !Contains(Lower(id), ProviderRules[k].0)
  {
    var rs := ProviderRules;
    assert rs[0].0 == "claude" && rs[1].0 == "gpt" && rs[2].0 == "gemini";
    assert rs[3].0 == "grok" && rs[4].0 == "raptor" && |rs| == 5;
  }

  /** Classification ignores case: ids equal up to ASCII case share a provider. */
  lemma ProviderIgnoresCase(a: string, b: string)
    requires Lower(a) == Lower(b)
    ensures ProviderOf(a) == ProviderOf(b)
  {
  }

  /** Lower-casing an id first does not change its provider. */
  lemma ProviderOfLowered(id: string)
    ensures ProviderOf(Lower(id)) == ProviderOf(id)
  {
    LowerIdempotent(id);
  }

  /** `MODEL_DISPLAY_NAMES`. */
  const DisplayNames: map<string, string> := map[
    "claude-opus-4-5-20251101" := "Claude Opus 4.5 (Latest)",
    "claude-sonnet-4-5-20250929" := "Claude Sonnet 4.5",
    "claude-haiku-4-5-20251001" := "Claude Haiku 4.5",
    "claude-opus-4-1-20250805" := "Claude Opus 4.1",
    "claude-sonnet-4-20250514" := "Claude Sonnet 4",
    "claude-3-7-sonnet-20250219" := "Claude 3.7 Sonnet",
    "claude-3-5-haiku-20241022" := "Claude 3.5 Haiku",
    "claude-opus-4.5" := "Claude Opus 4.5 (Copilot)",
    "claude-sonnet-4.5" := "Claude Sonnet 4.5 (Copilot)",
    "claude-haiku-4.5" := "Claude Haiku 4.5 (Copilot)",
    "gpt-5.2-codex" := "GPT-5.2 Codex",
    "gpt-5.2" := "GPT-5.2",
    "gpt-5.1-codex-max" := "GPT-5.1 Codex Max (Best)",
    "gpt-5.1-codex" := "GPT-5.1 Codex",
    "gpt-5.1-codex-mini" := "GPT-5.1 Codex Mini",
    "gpt-5.1" := "GPT-5.1",
    "gpt-5-codex" := "GPT-5 Codex",
    "gpt-5-codex-mini" := "GPT-5 Codex Mini",
    "gpt-5" := "GPT-5",
    "gpt-5-mini" := "GPT-5 Mini",
    "gpt-4.1" := "GPT-4.1",
    "gemini-3-pro-preview" := "Gemini 3 Pro Preview",
    "gemini-3-flash-preview" := "Gemini 3 Flash Preview",
    "gemini-3-pro" := "Gemini 3 Pro",
    "gemini-2.5-pro" := "Gemini 2.5 Pro (1M ctx)",
    "gemini-2.5-flash" := "Gemini 2.5 Flash",
    "gemini-2.5-flash-lite" := "Gemini 2.5 Flash Lite",
    "grok-code-fast-1" := "Grok Code Fast",
    "raptor-mini" := "Raptor Mini"
  ]

  /** `Model.display_name`: the table's name for a known id, the id itself otherwise. */
  function DisplayName(id: string): (name: string)
    ensures id in DisplayNames ==> name == DisplayNames[id]
    ensures id !in DisplayNames ==> name == id
  {
    if id in DisplayNames then DisplayNames[id] else id
  }

  /** The id families that must be sent temperature 1: the lower-cased id contains "gpt-5". */
  predicate NeedsUnitTemperature(id: string) {
    Contains(Lower(id), "gpt-5")
  }

  /** A chat message (`ChatMessage`). */
  datatype ChatMessage = ChatMessage(role: string, content: string)

  /** A chat completion result (`ChatResponse`); the elapsed wall-clock time is not modelled. */
  datatype ChatResponse = ChatResponse(content: string, tokens: int, model: string, finishReason: string)

  /** An Agent Zero preset entry (`A0Config`). */
  datatype A0Config = A0Config(name: string, path: string, model: string, description: string)
}

=== FILE: config.dfy ===
/** `vibeproxy_manager/config.py`: the persisted VibeProxy settings, their
    key mapping on load and save, favourites and token-limit edits, Agent Zero
    preset creation and listing, and the Factory (droid-cli) default model. */
module Config {
  import opened Wrappers
  import opened Strings
  import opened Seqs
  import opened Ordering
  import opened Json
  import opened Catalogue

  datatype VibeProxyConfig = VibeProxyConfig(
    macUser: string,
    macIp: string,
    localPort: int,
    remotePort: int,
    sshPassword: string,
    favorites: seq<string>,
    disabledModels: seq<string>,
    maxTokens: int)

  /** The field defaults of `VibeProxyConfig`. */
  const Defaults: VibeProxyConfig :=
    VibeProxyConfig("danielba", "192.168.50.70", 8317, 8317, "", [], [], 500)

  /** A JSON file as the program finds it: absent, unreadable or not valid
      JSON, or parsed into a value. */
  datatype JsonFile = Missing | Unreadable | Parsed(data: Value)

  /** The (PascalCase, snake_case) key pairs of the eight fields, in field order. */
  const KeyPairs: seq<(string, string)> := [
    ("MacUser", "mac_user"), ("MacIP", "mac_ip"), ("LocalPort", "local_port"),
    ("RemotePort", "remote_port"), ("SSHPassword", "ssh_password"),
    ("Favorites", "favorites"), ("DisabledModels", "disabled_models"),
    ("MaxTokens", "max_tokens")]

  /** `data.get(pascal, data.get(snake, default))`. */
  function Pick(data: map<string, Value>, pascal: string, snake: string, default: Value): (v: Value)
    ensures pascal in data ==> v == data[pascal]
    ensures pascal !in data && snake in data ==> v == data[snake]
    ensures pascal !in data && snake !in data ==> v == default
  {
    Get(data, pascal).GetOr(Get(data, snake).GetOr(default))
  }

  function AsString(v: Value): Option<string> {
    if v.Str? then Some(v.s) else None
  }

  function AsInt(v: Value): Option<int> {
    if v.Int? then Some(v.i) else None
  }

  /** A JSON list whose items are all strings, as `list[str]` accepts it. */
  function AsStringList(v: Value): (r: Option<seq<string>>)
    ensures r.Some? ==> v.List? && |r.value| == |v.items|
  {
    if v.List? && forall k | 0 <= k < |v.items| :: v.items[k].Str? then
      Some(seq(|v.items|, k requires 0 <= k < |v.items| => v.items[k].s))
    else None
  }

  function StringList(xs: seq<string>): (v: Value)
    ensures v.List? && |v.items| == |xs|
  {
    List(seq(|xs|, k requires 0 <= k < |xs| => Str(xs[k])))
  }

  lemma StringListRoundTrip(xs: seq<string>)
    ensures AsStringList(StringList(xs)) == Some(xs)
  {
    var v := StringList(xs);
    assert forall k | 0 <= k < |v.items| :: v.items[k] == Str(xs[k]);
    assert seq(|v.items|, k requires 0 <= k < |v.items| => v.items[k].s) == xs;
  }

  /** The field defaults as JSON values, in field order. */
  const FieldDefaults: seq<Value> := [
    Str(Defaults.macUser), Str(Defaults.macIp), Int(Defaults.localPort), Int(Defaults.remotePort),
    Str(Defaults.sshPassword), List([]), List([]), Int(Defaults.maxTokens)]

  /** The eight values `load` maps onto the fields, in field order. */
  function Picked(data: map<string, Value>): (vs: seq<Value>)
    ensures |vs| == |KeyPairs|
    ensures forall k | 0 <= k < |KeyPairs| :: vs[k] == Pick(data, KeyPairs[k].0, KeyPairs[k].1, FieldDefaults[k])
  {
    seq(|KeyPairs|, k requires 0 <= k < |KeyPairs| => Pick(data, KeyPairs[k].0, KeyPairs[k].1, FieldDefaults[k]))
  }

  /** `VibeProxyConfig(**mapped)`: `None` when a field has a value of the wrong
      type (pydantic rejects it). */
  function FromValues(vs: seq<Value>): Option<VibeProxyConfig>
    requires |vs| == 8
  {
    var user := AsString(vs[0]);
    var ip := AsString(vs[1]);
    var local := AsInt(vs[2]);
    var remote := AsInt(vs[3]);
    var password := AsString(vs[4]);
    var favorites := AsStringList(vs[5]);
    var disabled := AsStringList(vs[6]);
    var tokens := AsInt(vs[7]);
    if user.Some? && ip.Some? && local.Some? && remote.Some? && password.Some?
      && favorites.Some? && disabled.Some? && tokens.Some?
    then Some(VibeProxyConfig(user.value, ip.value, local.value, remote.value, password.value,
                              favorites.value, disabled.value, tokens.value))
    else None
  }

  /** The key mapping of `load` followed by validation. */
  function FromData(data: map<string, Value>): Option<VibeProxyConfig> {
    FromValues(Picked(data))
  }

  /** Reading the config file without the cache: the defaults whenever the
      file is absent, unreadable, not a JSON object, or fails validation. */
  function ReadConfig(file: JsonFile): (c: VibeProxyConfig)
    ensures !(file.Parsed? && file.data.Obj?) ==> c == Defaults
    ensures file.Parsed? && file.data.Obj? && FromData(file.data.fields).None? ==> c == Defaults
  {
    match file
    case Parsed(Obj(fields)) => FromData(fields).GetOr(Defaults)
    case _ => Defaults
  }

  /** An empty JSON object loads as the defaults. */
  lemma EmptyObjectGivesDefaults()
    ensures ReadConfig(Parsed(Obj(map[]))) == Defaults
  {
  }

  /** No snake_case key coincides with any PascalCase key, and the snake_case keys are distinct. */
  lemma KeyPairsDistinct()
    ensures forall j, k | 0 <= j < |KeyPairs| && 0 <= k < |KeyPairs| :: KeyPairs[k].1 != KeyPairs[j].0
    ensures forall j, k | 0 <= j < |KeyPairs| && 0 <= k < |KeyPairs| && j != k :: KeyPairs[k].1 != KeyPairs[j].1
    ensures forall j, k | 0 <= j < |KeyPairs| && 0 <= k < |KeyPairs| && j != k :: KeyPairs[k].0 != KeyPairs[j].0
  {
  }

  /** A PascalCase key shadows its snake_case twin: with the PascalCase key
      present, the snake_case value is never consulted. */
  lemma PascalShadowsSnake(data: map<string, Value>, k: nat, v: Value)
    requires k < |KeyPairs| && KeyPairs[k].0 in data
    ensures FromData(data[KeyPairs[k].1 := v]) == FromData(data)
  {
    KeyPairsDistinct();
    assert Picked(data[KeyPairs[k].1 := v]) == Picked(data);
  }

  /** Without the PascalCase key, the snake_case value is read exactly as if it
      had been stored under the PascalCase key. */
  lemma SnakeStandsInForPascal(data: map<string, Value>, k: nat)
    requires k < |KeyPairs| && KeyPairs[k].0 !in data && KeyPairs[k].1 in data
    ensures FromData(data) == FromData((data - {KeyPairs[k].1})[KeyPairs[k].0 := data[KeyPairs[k].1]])
  {
    KeyPairsDistinct();
    assert Picked(data) == Picked((data - {KeyPairs[k].1})[KeyPairs[k].0 := data[KeyPairs[k].1]]);
  }

  /** The configuration manager's only state: the cached config. */
  datatype Manager = Manager(cache: Option<VibeProxyConfig>)

  /** `ConfigManager.load`: the cached config when there is one, otherwise the
      file's config, which becomes the cache. */
  function Load(m: Manager, file: JsonFile): (r: (VibeProxyConfig, Manager))
    ensures r.1.cache == Some(r.0)
    ensures m.cache.Some? ==> r.0 == m.cache.value && r.1 == m
    ensures m.cache.None? ==> r.0 == ReadConfig(file)
  {
    match m.cache
    case Some(c) => (c, m)
    case None => (ReadConfig(file), Manager(Some(ReadConfig(file))))
  }

  /** Once loaded, later loads ignore the file: whatever it now holds, the
      first config comes back. */
  lemma LoadIsCached(m: Manager, first: JsonFile, later: JsonFile)
    ensures Load(Load(m, first).1, later).0 == Load(m, first).0
  {
  }

  /** The JSON object `save` writes: exactly the eight PascalCase keys. */
  function SaveData(c: VibeProxyConfig): (d: map<string, Value>)
    ensures d.Keys == {"MacUser", "MacIP", "LocalPort", "RemotePort", "SSHPassword",
                       "Favorites", "DisabledModels", "MaxTokens"}
  {
    map[
      "MacUser" := Str(c.macUser),
      "MacIP" := Str(c.macIp),
      "LocalPort" := Int(c.localPort),
      "RemotePort" := Int(c.remotePort),
      "SSHPassword" := Str(c.sshPassword),
      "Favorites" := StringList(c.favorites),
      "DisabledModels" := StringList(c.disabledModels),
      "MaxTokens" := Int(c.maxTokens)]
  }

  /** `ConfigManager.save(config)`: writes the given config, or else the cached
      or freshly loaded one, and caches what it wrote. */
  function Save(m: Manager, file: JsonFile, config: Option<VibeProxyConfig>): (r: (map<string, Value>, Manager))
    ensures config.Some? ==> r.1.cache == config
    ensures r.1.cache.Some? && r.0 == SaveData(r.1.cache.value)
    ensures config.None? && m.cache.Some? ==> r.1 == m
    ensures config.None? && m.cache.None? ==> r.1.cache == Some(ReadConfig(file))
  {
    var c := if config.Some? then config.value else Load(m, file).0;
    (SaveData(c), Manager(Some(c)))
  }

  /** Saving then loading the written file by a fresh manager reproduces the config. */
  lemma SaveLoadRoundTrip(m: Manager, file: JsonFile, c: VibeProxyConfig)
    ensures Load(Manager(None), Parsed(Obj(Save(m, file, Some(c)).0))).0 == c
  {
    assert Save(m, file, Some(c)).0 == SaveData(c);
    SavedDataReadsBack(c);
  }

  /** The saved object passes validation and gives back the config. */
  lemma SavedDataReadsBack(c: VibeProxyConfig)
    ensures FromData(SaveData(c)) == Some(c)
  {
    StringListRoundTrip(c.favorites);
    StringListRoundTrip(c.disabledModels);
    assert Picked(SaveData(c)) == [Str(c.macUser), Str(c.macIp), Int(c.localPort), Int(c.remotePort),
                                   Str(c.sshPassword), StringList(c.favorites), StringList(c.disabledModels),
                                   Int(c.maxTokens)];
  }

  // ---- favourites -------------------------------------------------------

  /** `list.remove(x)`: drops the first occurrence only, keeping the order of the rest. */
  function RemoveFirst(xs: seq<string>, x: string): (r: seq<string>)
    ensures x !in xs ==> r == xs
    ensures x in xs ==> exists k :: RemovedAt(xs, x, k, r)
    ensures multiset(r) == multiset(xs) - multiset{x}
    ensures x in xs ==> |r| == |xs| - 1
    decreases |xs|
  {
    if |xs| == 0 then []
    else
      assert xs == [xs[0]] + xs[1..];
      if xs[0] == x then
        assert RemovedAt(xs, x, 0, xs[1..]);
        xs[1..]
      else
        var rest := RemoveFirst(xs[1..], x);
        RemovedBehind(xs, x, rest);
        [xs[0]] + rest
  }

  /** `r` is `xs` without its element at `k`, the first occurrence of `x`. */
  predicate RemovedAt(xs: seq<string>, x: string, k: int, r: seq<string>) {
    0 <= k < |xs| && xs[k] == x && x !in xs[..k] && r == xs[..k] + xs[k + 1..]
  }

  /** When the head is kept, the occurrence removed from the tail is the first one of the whole list. */
  lemma RemovedBehind(xs: seq<string>, x: string, rest: seq<string>)
    requires |xs| > 0 && xs[0] != x
    requires x in xs[1..] ==> exists k :: RemovedAt(xs[1..], x, k, rest)
    ensures x in xs ==> exists k :: RemovedAt(xs, x, k, [xs[0]] + rest)
  {
    if x in xs {
      assert xs == [xs[0]] + xs[1..];
      assert x in xs[1..];
      var k :| RemovedAt(xs[1..], x, k, rest);
      RemovedShift(xs, x, k, rest);
    }
  }

  /** Removing at `k` in the tail is removing at `k + 1` in the whole list. */
  lemma RemovedShift(xs: seq<string>, x: string, k: int, rest: seq<string>)
    requires |xs| > 0 && xs[0] != x
    requires RemovedAt(xs[1..], x, k, rest)
    ensures RemovedAt(xs, x, k + 1, [xs[0]] + rest)
  {
    var t := xs[1..];
    assert xs[..k + 1] == [xs[0]] + t[..k];
    assert xs[k + 2..] == t[k + 1..];
    assert rest == t[..k] + t[k + 1..];
    assert [xs[0]] + rest == xs[..k + 1] + xs[k + 2..];
  }

  /** The config after a favourites edit, and whether the edit saved it. */
  datatype FavoriteEdit = FavoriteEdit(config: VibeProxyConfig, saved: bool)

  /** `add_favorite`: appends the id unless it is already a favourite (then no save). */
  function AddFavorite(c: VibeProxyConfig, id: string): (e: FavoriteEdit)
    ensures id in e.config.favorites
    ensures e.saved <==> id !in c.favorites
    ensures c.favorites <= e.config.favorites
    ensures multiset(e.config.favorites) ==
      multiset(c.favorites) + (if id in c.favorites then multiset{} else multiset{id})
    ensures e.config == c.(favorites := e.config.favorites)
  {
    if id in c.favorites then FavoriteEdit(c, false)
    else FavoriteEdit(c.(favorites := c.favorites + [id]), true)
  }

  /** Adding twice is adding once, and adding never creates a duplicate. */
  lemma AddFavoriteIdempotent(c: VibeProxyConfig, id: string)
    ensures AddFavorite(AddFavorite(c, id).config, id) == FavoriteEdit(AddFavorite(c, id).config, false)
    ensures Distinct(c.favorites) ==> Distinct(AddFavorite(c, id).config.favorites)
  {
  }

  /** `remove_favorite`: drops the id's first occurrence; a non-member changes nothing. */
  function RemoveFavorite(c: VibeProxyConfig, id: string): (e: FavoriteEdit)
    ensures id !in c.favorites ==> e == FavoriteEdit(c, false)
    ensures id in c.favorites ==> e.saved
    ensures id in c.favorites ==> exists k :: RemovedAt(c.favorites, id, k, e.config.favorites)
    ensures multiset(e.config.favorites) == multiset(c.favorites) - multiset{id}
    ensures Distinct(c.favorites) ==> id !in e.config.favorites
    ensures e.config == c.(favorites := e.config.favorites)
  {
    if id in c.favorites then
      DistinctCount(c.favorites, id);
      FavoriteEdit(c.(favorites := RemoveFirst(c.favorites, id)), true)
    else FavoriteEdit(c, false)
  }

  /** The config after `toggle_favorite` and the membership it reports. */
  datatype Toggle = Toggle(config: VibeProxyConfig, nowFavorite: bool)

  /** `toggle_favorite`: removes a member (first occurrence) or appends a
      non-member, always saves, and reports the flipped membership. */
  function ToggleFavorite(c: VibeProxyConfig, id: string): (t: Toggle)
    ensures t.nowFavorite <==> id !in c.favorites
    ensures Count(c.favorites, id) <= 1 ==> (id in t.config.favorites <==> t.nowFavorite)
    ensures t.config == c.(favorites := t.config.favorites)
  {
    if id in c.favorites then Toggle(c.(favorites := RemoveFirst(c.favorites, id)), false)
    else Toggle(c.(favorites := c.favorites + [id]), true)
  }

  /** Toggling twice restores membership and the multiset of favourites, as
      long as the id was listed at most once. */
  lemma ToggleTwiceRestores(c: VibeProxyConfig, id: string)
    requires Count(c.favorites, id) <= 1
    ensures var c2 := ToggleFavorite(ToggleFavorite(c, id).config, id).config;
      (id in c2.favorites <==> id in c.favorites) && multiset(c2.favorites) == multiset(c.favorites)
  {
    var c1 := ToggleFavorite(c, id).config;
    if id in c.favorites {
      assert multiset(c1.favorites) == multiset(c.favorites) - multiset{id};
      assert id !in multiset(c1.favorites);
    }
  }

  /** A favourites list holding the id twice (possible in a hand-edited file)
      reports "not a favourite" while the id is still listed. */
  lemma ToggleWithDuplicateKeepsMember()
    ensures var t := ToggleFavorite(Defaults.(favorites := ["gpt-5", "gpt-5"]), "gpt-5");
      !t.nowFavorite && "gpt-5" in t.config.favorites
  {
    var t := ToggleFavorite(Defaults.(favorites := ["gpt-5", "gpt-5"]), "gpt-5");
    assert t.config.favorites == ["gpt-5"];
  }

  // ---- token limit ------------------------------------------------------

  /** `set_max_tokens`: stores the request clamped to 1..128000. */
  function SetMaxTokens(c: VibeProxyConfig, tokens: int): (r: VibeProxyConfig)
    ensures 1 <= r.maxTokens <= 128000
    ensures 1 <= tokens <= 128000 ==> r.maxTokens == tokens
    ensures tokens < 1 ==> r.maxTokens == 1
    ensures tokens > 128000 ==> r.maxTokens == 128000
    ensures r == c.(maxTokens := r.maxTokens)
  {
    var capped := if tokens < 128000 then tokens else 128000;
    c.(maxTokens := if capped > 1 then capped else 1)
  }

  // ---- Agent Zero presets -----------------------------------------------

  /** The characters `[a-z0-9-]` kept by the file-name sanitiser. */
  predicate IsSafeNameChar(c: char) {
    IsLower(c) || IsDigit(c) || c == '-'
  }

  /** `re.sub(r"[^a-z0-9-]", "-", s)`. */
  function Sanitize(s: string): (r: string)
    ensures |r| == |s|
    ensures forall i | 0 <= i < |r| :: IsSafeNameChar(r[i])
    ensures forall i | 0 <= i < |s| :: IsSafeNameChar(s[i]) ==> r[i] == s[i]
    ensures forall i | 0 <= i < |s| :: !IsSafeNameChar(s[i]) ==> r[i] == '-'
  {
    seq(|s|, i requires 0 <= i < |s| => if IsSafeNameChar(s[i]) then s[i] else '-')
  }

  /** The chat settings of a preset file. */
  datatype PresetTemplate = PresetTemplate(fileName: string, model: string, apiBase: string, temperature: string)

  /** `create_config_for_model` (file contents and name; the write itself is not modelled). */
  function CreateConfigForModel(id: string): (p: PresetTemplate)
    ensures p.model == id
    ensures p.apiBase == "http://host.docker.internal:8317/v1"
    ensures p.temperature == (if NeedsUnitTemperature(id) then "1" else "0")
    ensures |p.fileName| == |id| + 8
    ensures "a0-" <= p.fileName && p.fileName[|p.fileName| - 5..] == ".json"
    ensures forall i | 3 <= i < |p.fileName| - 5 :: IsSafeNameChar(p.fileName[i])
    ensures forall i | 0 <= i < |id| ::
      p.fileName[3 + i] == (if IsSafeNameChar(LowerChar(id[i])) then LowerChar(id[i]) else '-')
  {
    PresetTemplate("a0-" + Sanitize(Lower(id)) + ".json", id,
                   "http://host.docker.internal:8317/v1",
                   if NeedsUnitTemperature(id) then "1" else "0")
  }

  /** Preset file names ignore case: ids equal up to case share a file (the
      later one overwrites the earlier). */
  lemma PresetNameIgnoresCase(a: string, b: string)
    requires Lower(a) == Lower(b)
    ensures CreateConfigForModel(a).fileName == CreateConfigForModel(b).fileName
    ensures CreateConfigForModel(a).temperature == CreateConfigForModel(b).temperature
  {
  }

  /** A file in the presets directory. */
  datatype PresetFile = PresetFile(name: string, content: JsonFile)

  /** Names matched by the glob `a0-*.json`. */
  predicate MatchesPresetGlob(name: string) {
    |name| >= 8 && "a0-" <= name && name[|name| - 5..] == ".json"
  }

  /** What `get_a0_configs` reads from one file: the model string, or `None`
      when reading it raises (the file is then skipped). */
  function ExtractModel(file: JsonFile): (r: Option<string>)
    ensures file.Missing? || file.Unreadable? ==> r.None?
  {
    match file
    case Parsed(data) => ModelOf(data)
    case _ => None
  }

  /** Whether `key in v` holds; `None` when the membership test itself raises. */
  function HasKey(v: Value, key: string): Option<bool> {
    match v
    case Obj(fields) => Some(key in fields)
    case Str(s) => Some(Contains(s, key))
    case List(items) => Some(Str(key) in items)
    case _ => None
  }

  /** The model lookup: `data["chat"]["model"]` if present, else
      `data["chat_model"]`, else "". Indexing a non-object raises, and so does
      a model value that is not a string (`A0Config.model` rejects it). */
  function ModelOf(data: Value): (r: Option<string>)
    ensures data.Obj? && "chat" in data.fields && data.fields["chat"].Obj?
      && "model" in data.fields["chat"].fields
      ==> r == AsString(data.fields["chat"].fields["model"])
    ensures data.Obj? && "chat" !in data.fields && "chat_model" !in data.fields ==> r == Some("")
    ensures data.Obj? && ("chat" !in data.fields || HasKey(data.fields["chat"], "model") == Some(false)) ==>
      r == (if "chat_model" in data.fields then AsString(data.fields["chat_model"]) else Some(""))
    ensures (data.Obj? && "chat" in data.fields && !data.fields["chat"].Obj?
             && HasKey(data.fields["chat"], "model") != Some(false)) ==> r.None?
  {
    match HasKey(data, "chat")
    case None => None
    case Some(hasChat) =>
      var chatHasModel: Option<bool> :=
        if !hasChat then Some(false)
        else if data.Obj? then HasKey(data.fields["chat"], "model")
        else None;
      match chatHasModel
      case None => None
      case Some(true) =>
        if data.Obj? && data.fields["chat"].Obj? then AsString(data.fields["chat"].fields["model"]) else None
      case Some(false) =>
        match HasKey(data, "chat_model")
        case None => None
        case Some(false) => Some("")
        case Some(true) => if data.Obj? then AsString(data.fields["chat_model"]) else None
  }

  /** The preset name derived from a file name: stem, every "a0-" removed,
      dashes to spaces, `str.title()`. */
  function PresetDisplayName(fileName: string): string
    requires |fileName| >= 5
  {
    Title(ReplaceChar(ReplaceAll(fileName[..|fileName| - 5], "a0-", ""), '-', ' '))
  }

  function ToA0Config(dirPrefix: string, f: PresetFile, model: string): (c: A0Config)
    requires MatchesPresetGlob(f.name)
    ensures c.path == dirPrefix + f.name && c.model == model
    ensures c.description == "" <==> model == ""
  {
    A0Config(PresetDisplayName(f.name), dirPrefix + f.name, model,
             if model != "" then "Uses " + model else "")
  }

  function FileName(f: PresetFile): string { f.name }

  predicate Globbed(f: PresetFile) { MatchesPresetGlob(f.name) }

  predicate Readable(f: PresetFile) { ExtractModel(f.content).Some? }

  /** A file that becomes a preset: it matches the glob and its model can be read. */
  predicate Presettable(f: PresetFile) { Globbed(f) && Readable(f) }

  /** The files `get_a0_configs` turns into presets: those matching the glob,
      in name order, whose model can be read. */
  function Listed(files: seq<PresetFile>): (l: seq<PresetFile>)
    ensures |l| <= |files|
    ensures SortedBy(l, FileName)
    ensures forall i | 0 <= i < |l| :: l[i] in files && MatchesPresetGlob(l[i].name) && Readable(l[i])
    ensures forall i | 0 <= i < |files| :: MatchesPresetGlob(files[i].name) && Readable(files[i]) ==> files[i] in l
    ensures multiset(l) == multiset(Filter(files, Presettable))
  {
    var sorted := GlobbedSorted(files);
    FilterKeepsSorted(sorted, Readable, FileName);
    ListedCounts(files, sorted);
    Filter(sorted, Readable)
  }

  /** `sorted(glob("a0-*.json"))`: the matching files in name order. */
  function GlobbedSorted(files: seq<PresetFile>): (g: seq<PresetFile>)
    ensures |g| <= |files|
    ensures SortedBy(g, FileName)
    ensures multiset(g) == multiset(Filter(files, Globbed))
    ensures forall i | 0 <= i < |g| :: g[i] in files && Globbed(g[i])
    ensures forall i | 0 <= i < |files| :: Globbed(files[i]) ==> files[i] in g
  {
    SortFilterMembers(files, Globbed, FileName);
    SortBy(Filter(files, Globbed), FileName)
  }

  /** Each presettable file is listed as often as it occurs, and no other file is. */
  lemma ListedCounts(files: seq<PresetFile>, sorted: seq<PresetFile>)
    requires multiset(sorted) == multiset(Filter(files, Globbed))
    ensures multiset(Filter(sorted, Readable)) == multiset(Filter(files, Presettable))
  {
    forall f ensures multiset(Filter(sorted, Readable))[f] == multiset(Filter(files, Presettable))[f] {
      FilterMultiset(sorted, Readable, f);
      FilterMultiset(files, Globbed, f);
      FilterMultiset(files, Presettable, f);
    }
  }

  /** `get_a0_configs`: one preset per listed file, in name order; none when
      the directory does not exist. */
  function GetA0Configs(dirExists: bool, dirPrefix: string, files: seq<PresetFile>): (r: seq<A0Config>)
    ensures !dirExists ==> r == []
    ensures dirExists ==> |r| == |Listed(files)|
    ensures dirExists ==> forall i | 0 <= i < |r| ::
      r[i].path == dirPrefix + Listed(files)[i].name && Some(r[i].model) == ExtractModel(Listed(files)[i].content)
  {
    if !dirExists then [] else PresetsOf(dirPrefix, Listed(files))
  }

  /** One preset per file, in the files' order. */
  function PresetsOf(dirPrefix: string, l: seq<PresetFile>): (r: seq<A0Config>)
    requires forall i | 0 <= i < |l| :: MatchesPresetGlob(l[i].name) && ExtractModel(l[i].content).Some?
    ensures |r| == |l|
    ensures forall i | 0 <= i < |r| ::
      r[i].path == dirPrefix + l[i].name && Some(r[i].model) == ExtractModel(l[i].content)
  {
    seq(|l|, i requires 0 <= i < |l| => ToA0Config(dirPrefix, l[i], ExtractModel(l[i].content).value))
  }

  /** The presets come out ordered by path. */
  lemma A0ConfigsSortedByPath(dirPrefix: string, files: seq<PresetFile>)
    ensures var r := GetA0Configs(true, dirPrefix, files);
      forall i, j | 0 <= i < j < |r| :: Le(r[i].path, r[j].path)
  {
    var r := GetA0Configs(true, dirPrefix, files);
    var l := Listed(files);
    forall i, j | 0 <= i < j < |r|
      ensures Le(r[i].path, r[j].path)
    {
      assert Le(FileName(l[i]), FileName(l[j]));
      LeCommonPrefix(dirPrefix, l[i].name, l[j].name);
    }
  }

  // ---- Factory (droid-cli) default model --------------------------------

  /** Outcome of creating the directory and writing `config.json`. */
  datatype WriteOutcome = Written | PermissionDenied | OsFailure(error: string)

  /** `set_factory_default_model`'s `(success, message)` and, on success, the JSON object written. */
  datatype FactoryResult = FactoryResult(ok: bool, message: string, written: Option<map<string, Value>>)

  /** Python's type name, as it appears in an `AttributeError` message. */
  function TypeName(v: Value): string {
    match v
    case Null => "NoneType"
    case Bool(_) => "bool"
    case Int(_) => "int"
    case Str(_) => "str"
    case List(_) => "list"
    case Obj(_) => "dict"
  }

  /** `load_factory_config`: a missing or unreadable file reads as `{"custom_models": []}`. */
  function LoadFactoryConfig(file: JsonFile): Value {
    match file
    case Parsed(v) => v
    case _ => Obj(map["custom_models" := List([])])
  }

  /** The entry written for the chosen model. */
  function FactoryEntry(modelId: string, displayName: string, localPort: int): Value {
    Obj(map[
      "model_display_name" := Str(displayName + " (VibeProxy)"),
      "model" := Str(modelId),
      "base_url" := Str("http://localhost:" + IntToString(localPort) + "/v1"),
      "api_key" := Str("dummy-not-used"),
      "provider" := Str("openai")])
  }

  /** `m.get("model") != model_id` for a dict entry. */
  predicate IsOtherModel(modelId: string, m: Value) {
    Member(m, "model") != Some(Str(modelId))
  }

  /** The first list item that is not a dict (calling `.get` on it raises). */
  function FirstNonObject(items: seq<Value>): (r: Option<Value>)
    ensures r.None? <==> forall i | 0 <= i < |items| :: items[i].Obj?
    ensures r.Some? ==> !r.value.Obj? && r.value in items
    decreases |items|
  {
    if |items| == 0 then None
    else if !items[0].Obj? then Some(items[0])
    else FirstNonObject(items[1..])
  }

  /** The loaded Factory config is an object whose `custom_models`, when it is a
      list, holds only objects: the update cannot raise before writing. */
  predicate Updatable(file: JsonFile) {
    var data := LoadFactoryConfig(file);
    data.Obj? && match Get(data.fields, "custom_models")
      case Some(List(items)) => forall i | 0 <= i < |items| :: items[i].Obj?
      case _ => true
  }

  function UnexpectedMessage(v: Value): (m: string)
    ensures "Unexpected error updating Factory config: " <= m
  {
    "Unexpected error updating Factory config: '" + TypeName(v) + "' object has no attribute 'get'"
  }

  /** `set_factory_default_model`: removes every entry for the model, puts a
      fresh entry first and writes the file back. */
  function SetFactoryDefaultModel(file: JsonFile, configPath: string, modelId: string,
                                  displayName: string, localPort: int, write: WriteOutcome): (r: FactoryResult)
    ensures r.ok <==> r.written.Some?
    ensures r.ok <==> Updatable(file) && write.Written?
    ensures r.ok ==> r.message == "Factory default set to " + displayName
    ensures !Updatable(file) ==> "Unexpected error updating Factory config: " <= r.message
    ensures Updatable(file) && write.PermissionDenied? ==> r.message == "Permission denied writing to " + configPath
    ensures Updatable(file) && write.OsFailure? ==> r.message == "Cannot write to Factory config: " + write.error
  {
    var data := LoadFactoryConfig(file);
    if !data.Obj? then FactoryResult(false, UnexpectedMessage(data), None)
    else
      var models := match Get(data.fields, "custom_models")
        case Some(List(items)) => items
        case _ => [];
      match FirstNonObject(models)
      case Some(bad) => FactoryResult(false, UnexpectedMessage(bad), None)
      case None =>
        var kept := Filter(models, (m: Value) => IsOtherModel(modelId, m));
        var written := data.fields["custom_models" := List([FactoryEntry(modelId, displayName, localPort)] + kept)];
        match write
        case Written => FactoryResult(true, "Factory default set to " + displayName, Some(written))
        case PermissionDenied => FactoryResult(false, "Permission denied writing to " + configPath, None)
        case OsFailure(e) => FactoryResult(false, "Cannot write to Factory config: " + e, None)
  }

  /** After a successful update the chosen model is first, is the only entry
      with that model id, the other entries keep their relative order, and
      every other top-level key is untouched; a `custom_models` value that is
      not a list counts as empty. */
  lemma FactoryDefaultFirst(file: JsonFile, configPath: string, modelId: string,
                            displayName: string, localPort: int)
    requires LoadFactoryConfig(file).Obj?
    requires var r := SetFactoryDefaultModel(file, configPath, modelId, displayName, localPort, Written); r.ok
    ensures var data := LoadFactoryConfig(file).fields;
      var old_ := match Get(data, "custom_models") case Some(List(items)) => items case _ => [];
      var w := SetFactoryDefaultModel(file, configPath, modelId, displayName, localPort, Written).written.value;
      && "custom_models" in w && w["custom_models"].List?
      && var l := w["custom_models"].items;
      && |l| >= 1
      && l[0] == FactoryEntry(modelId, displayName, localPort)
      && (forall i | 1 <= i < |l| :: IsOtherModel(modelId, l[i]))
      && l[1..] == Filter(old_, (m: Value) => IsOtherModel(modelId, m))
      && (forall k | k in data && k != "custom_models" :: k in w && w[k] == data[k])
  {
    var data := LoadFactoryConfig(file).fields;
    var old_ := match Get(data, "custom_models") case Some(List(items)) => items case _ => [];
    var kept := Filter(old_, (m: Value) => IsOtherModel(modelId, m));
    var l := [FactoryEntry(modelId, displayName, localPort)] + kept;
    assert l[1..] == kept;
  }
}

=== FILE: droid_sync.dfy ===
/** `scripts/sync-models-to-droid.py`: the models VibeProxy serves are appended
    to the `customModels` list of Droid's `settings.json`. An id already listed,
    in the file or earlier in the same run, is skipped; each new entry gets the
    next index and an id built from its display name and that index. Fetching
    the model list and reading and writing the file are parameters. */
module DroidSync {
  import opened Wrappers
  import opened Strings
  import opened Json
  import opened Catalogue
  import opened Config
  import Api

  /** `get_provider_short`'s table. */
  const ProviderShortNames: map<string, string> := map[
    "anthropic" := "anthropic", "github-copilot" := "copilot", "google" := "google",
    "openai" := "openai", "qwen" := "qwen"]

  /** `get_provider_short`: only "github-copilot" is renamed. */
  function ProviderShort(provider: string): (r: string)
    ensures r == (if provider == "github-copilot" then "copilot" else provider)
  {
    if provider in ProviderShortNames then ProviderShortNames[provider] else provider
  }

  /** `get_display_name`'s table. */
  const DroidDisplayNames: map<string, string> := map[
    "claude-opus-4-5-20251101" := "Claude Opus 4.5",
    "claude-sonnet-4-5-20250929" := "Claude Sonnet 4.5",
    "claude-haiku-4-5-20251001" := "Claude Haiku 4.5",
    "gpt-5.2-codex" := "GPT-5.2 Codex",
    "gpt-5.2" := "GPT-5.2",
    "gpt-5.1-codex-max" := "GPT-5.1 Codex Max",
    "gpt-5.1-codex-mini" := "GPT-5.1 Codex Mini",
    "gpt-5.1-codex" := "GPT-5.1 Codex",
    "gpt-5-mini" := "GPT-5 Mini",
    "gpt-5" := "GPT-5",
    "gpt-4.1" := "GPT-4.1",
    "gpt-4.1-mini" := "GPT-4.1 Mini",
    "gemini-3-pro" := "Gemini 3 Pro",
    "gemini-2.5-pro" := "Gemini 2.5 Pro",
    "gemini-2.5-flash" := "Gemini 2.5 Flash"]

  /** The generated name: dashes and underscores become blanks, then title case. */
  function GeneratedName(id: string): string {
    Title(ReplaceChar(ReplaceChar(id, '-', ' '), '_', ' '))
  }

  /** Character `i` of the generated name: a dash or underscore becomes a
      blank; a letter is upper-cased at the start or after a non-letter and
      lower-cased after a letter (`str.title()`); anything else is kept. */
  function GeneratedChar(id: string, i: nat): char
    requires i < |id|
  {
    if id[i] == '-' || id[i] == '_' then ' '
    else if i > 0 && IsLetter(id[i - 1]) then LowerChar(id[i])
    else UpperChar(id[i])
  }

  /** `get_display_name`: the table's name, else the generated one. */
  function DisplayName(id: string): (name: string)
    ensures id in DroidDisplayNames ==> name == DroidDisplayNames[id]
    ensures id !in DroidDisplayNames ==>
      |name| == |id| && forall i | 0 <= i < |id| :: name[i] == GeneratedChar(id, i)
  {
    if id in DroidDisplayNames then DroidDisplayNames[id]
    else GeneratedNameShape(id); GeneratedName(id)
  }

  /** A generated name keeps the id's length; every dash and underscore
      becomes a blank and the letters are title-cased. */
  lemma GeneratedNameShape(id: string)
    ensures var g := GeneratedName(id);
      |g| == |id| && forall i | 0 <= i < |id| :: g[i] == GeneratedChar(id, i)
  {
    var s := ReplaceChar(ReplaceChar(id, '-', ' '), '_', ' ');
    TitleRule(s);
    forall i | 0 <= i < |id|
      ensures GeneratedName(id)[i] == GeneratedChar(id, i)
    {
      if i > 0 {
        assert IsLetter(s[i - 1]) <==> IsLetter(id[i - 1]);
      }
    }
  }

  /** `f"{display_name} [{provider_short}]"`. */
  function FullDisplay(id: string, ownedBy: Option<string>): string {
    DisplayName(id) + " [" + ProviderShort(ownedBy.GetOr("unknown")) + "]"
  }

  /** The entry written for a new model at position `index`. */
  function NewEntry(id: string, ownedBy: Option<string>, index: nat, baseUrl: string): (e: Value)
    ensures e.Obj? && ModelIdOf(e) == Some(id)
    ensures e.fields.Keys == {"model", "id", "index", "baseUrl", "apiKey", "displayName", "noImageSupport", "provider"}
    ensures e.fields["index"] == Int(index)
    ensures e.fields["id"] == Str("custom:" + ReplaceChar(FullDisplay(id, ownedBy), ' ', '-') + "-" + NatToString(index))
    ensures e.fields["baseUrl"] == Str(baseUrl) && e.fields["provider"] == Str("openai")
  {
    var full := FullDisplay(id, ownedBy);
    Obj(map[
      "model" := Str(id),
      "id" := Str("custom:" + ReplaceChar(full, ' ', '-') + "-" + NatToString(index)),
      "index" := Int(index),
      "baseUrl" := Str(baseUrl),
      "apiKey" := Str("dummy-not-used"),
      "displayName" := Str(full),
      "noImageSupport" := Bool(false),
      "provider" := Str("openai")])
  }

  /** `m.get("model")` when it is a string: the only kind of value a served
      id (a string) can equal. */
  function ModelIdOf(e: Value): Option<string> {
    if e.Obj? && "model" in e.fields && e.fields["model"].Str? then Some(e.fields["model"].s) else None
  }

  /** `{m.get("model") for m in existing}`, keeping the strings. */
  function ExistingIds(entries: seq<Value>): (ids: set<string>)
    ensures forall i | 0 <= i < |entries| :: ModelIdOf(entries[i]).Some? ==> ModelIdOf(entries[i]).value in ids
    ensures forall x | x in ids :: exists i | 0 <= i < |entries| :: ModelIdOf(entries[i]) == Some(x)
  {
    set i | 0 <= i < |entries| && ModelIdOf(entries[i]).Some? :: ModelIdOf(entries[i]).value
  }

  /** A freshly added entry: an object with its position as `index` and a model id. */
  predicate IsNewEntryAt(e: Value, i: int) {
    e.Obj? && "index" in e.fields && e.fields["index"] == Int(i) && ModelIdOf(e).Some?
  }

  /** The `for model in vp_models` loop from `served[0]` on, with `entries` the
      list so far (its length is `next_index`) and `seen` the ids so far. */
  function Merge(served: seq<ServedModel>, baseUrl: string, entries: seq<Value>, seen: set<string>): (r: seq<Value>)
    ensures |entries| <= |r| && r[..|entries|] == entries
    ensures forall i | |entries| <= i < |r| :: IsNewEntryAt(r[i], i)
    decreases |served|
  {
    if |served| == 0 then entries
    else
      var id := UsableId(served[0]);
      if id.None? || id.value in seen then Merge(served[1..], baseUrl, entries, seen)
      else
        var e := NewEntry(id.value, served[0].ownedBy, |entries|, baseUrl);
        var r := Merge(served[1..], baseUrl, entries + [e], seen + {id.value});
        MergeStep(entries, e, r);
        r
  }

  /** The entry added at position `|entries|` joins the entries added after it. */
  lemma MergeStep(entries: seq<Value>, e: Value, r: seq<Value>)
    requires IsNewEntryAt(e, |entries|)
    requires |entries| + 1 <= |r| && r[..|entries| + 1] == entries + [e]
    requires forall i | |entries| + 1 <= i < |r| :: IsNewEntryAt(r[i], i)
    ensures r[..|entries|] == entries
    ensures forall i | |entries| <= i < |r| :: IsNewEntryAt(r[i], i)
  {
    assert r[..|entries|] == (entries + [e])[..|entries|];
    assert r[|entries|] == r[..|entries| + 1][|entries|] == e;
  }

  /** The model the loop adds at position `|entries|` when `served[0]` is new. */
  lemma MergeHead(served: seq<ServedModel>, baseUrl: string, entries: seq<Value>, seen: set<string>)
    requires |served| > 0 && UsableId(served[0]).Some? && UsableId(served[0]).value !in seen
    ensures var r := Merge(served, baseUrl, entries, seen);
      |entries| < |r| && ModelIdOf(r[|entries|]) == UsableId(served[0])
      && r[|entries|] == NewEntry(UsableId(served[0]).value, served[0].ownedBy, |entries|, baseUrl)
  {
    var id := UsableId(served[0]);
    var e := NewEntry(id.value, served[0].ownedBy, |entries|, baseUrl);
    var r := Merge(served[1..], baseUrl, entries + [e], seen + {id.value});
    assert r[..|entries| + 1] == entries + [e];
    assert r[|entries|] == r[..|entries| + 1][|entries|];
  }

  /** Every entry from position `from` on has a model id outside `seen`. */
  predicate AddsFresh(r: seq<Value>, from: nat, seen: set<string>) {
    forall i | from <= i < |r| :: ModelIdOf(r[i]).Some? && ModelIdOf(r[i]).value !in seen
  }

  /** No two entries from position `from` on share a model id. */
  predicate AddsDistinct(r: seq<Value>, from: nat) {
    forall i, j | from <= i < j < |r| :: ModelIdOf(r[i]) != ModelIdOf(r[j])
  }

  /** No added model was seen before, and no model is added twice. */
  lemma {:induction false} MergeFresh(served: seq<ServedModel>, baseUrl: string, entries: seq<Value>, seen: set<string>)
    ensures AddsFresh(Merge(served, baseUrl, entries, seen), |entries|, seen)
    ensures AddsDistinct(Merge(served, baseUrl, entries, seen), |entries|)
    decreases |served|
  {
    if |served| > 0 {
      var id := UsableId(served[0]);
      if id.None? || id.value in seen {
        assert Merge(served, baseUrl, entries, seen) == Merge(served[1..], baseUrl, entries, seen);
        MergeFresh(served[1..], baseUrl, entries, seen);
      } else {
        var e := NewEntry(id.value, served[0].ownedBy, |entries|, baseUrl);
        var r := Merge(served, baseUrl, entries, seen);
        assert r == Merge(served[1..], baseUrl, entries + [e], seen + {id.value});
        MergeFresh(served[1..], baseUrl, entries + [e], seen + {id.value});
        MergeHead(served, baseUrl, entries, seen);
        forall i, j | |entries| <= i < j < |r|
          ensures ModelIdOf(r[i]) != ModelIdOf(r[j])
        {
          if i == |entries| {
            assert ModelIdOf(r[j]).value !in seen + {id.value};
          }
        }
      }
    }
  }

  /** Some entry from position `from` on has model id `id`. */
  predicate ListsFrom(r: seq<Value>, from: nat, id: Option<string>) {
    exists i | from <= i < |r| :: ModelIdOf(r[i]) == id
  }

  /** Every usable served id was seen before the loop or is added by it. */
  lemma {:induction false} MergeCovers(served: seq<ServedModel>, baseUrl: string, entries: seq<Value>, seen: set<string>, k: nat)
    requires k < |served| && UsableId(served[k]).Some?
    ensures UsableId(served[k]).value in seen
      || ListsFrom(Merge(served, baseUrl, entries, seen), |entries|, UsableId(served[k]))
    decreases |served|
  {
    var r := Merge(served, baseUrl, entries, seen);
    var id := UsableId(served[0]);
    var x := UsableId(served[k]);
    if id.None? || id.value in seen {
      if k > 0 {
        assert r == Merge(served[1..], baseUrl, entries, seen);
        assert served[1..][k - 1] == served[k];
        MergeCovers(served[1..], baseUrl, entries, seen, k - 1);
      }
    } else {
      MergeHead(served, baseUrl, entries, seen);
      if k > 0 && x != id {
        var e := NewEntry(id.value, served[0].ownedBy, |entries|, baseUrl);
        assert r == Merge(served[1..], baseUrl, entries + [e], seen + {id.value});
        assert served[1..][k - 1] == served[k];
        MergeCovers(served[1..], baseUrl, entries + [e], seen + {id.value}, k - 1);
        if x.value !in seen {
          var i :| |entries| + 1 <= i < |r| && ModelIdOf(r[i]) == x;
        }
      } else {
        assert ModelIdOf(r[|entries|]) == x;
      }
    }
  }

  /** The entry `NewEntry` builds at position `i` for served model `m`. */
  predicate BuiltFrom(e: Value, m: ServedModel, i: nat, baseUrl: string) {
    UsableId(m).Some? && e == NewEntry(UsableId(m).value, m.ownedBy, i, baseUrl)
  }

  /** The position of the first served model with usable id `id`, or
      `|served|` when there is none. */
  function FirstServed(served: seq<ServedModel>, id: string): (k: nat)
    ensures k <= |served|
    ensures k < |served| ==> UsableId(served[k]) == Some(id)
    ensures forall j | 0 <= j < k :: UsableId(served[j]) != Some(id)
    decreases |served|
  {
    if |served| == 0 then 0
    else if UsableId(served[0]) == Some(id) then 0
    else
      var k := FirstServed(served[1..], id);
      assert forall j | 1 <= j < k + 1 :: served[j] == served[1..][j - 1];
      k + 1
  }

  /** `e` is the entry built at position `i` for the first served model with
      `e`'s model id: later models with that id are skipped by the loop. */
  predicate BuiltFromFirst(e: Value, served: seq<ServedModel>, i: nat, baseUrl: string) {
    ModelIdOf(e).Some? && FirstServed(served, ModelIdOf(e).value) < |served|
    && BuiltFrom(e, served[FirstServed(served, ModelIdOf(e).value)], i, baseUrl)
  }

  /** Looking past a head with another id shifts the first position by one. */
  lemma BuiltFromFirstTail(e: Value, served: seq<ServedModel>, i: nat, baseUrl: string)
    requires |served| > 0 && BuiltFromFirst(e, served[1..], i, baseUrl)
    requires UsableId(served[0]) != ModelIdOf(e)
    ensures BuiltFromFirst(e, served, i, baseUrl)
  {
    var k := FirstServed(served[1..], ModelIdOf(e).value);
    assert FirstServed(served, ModelIdOf(e).value) == k + 1;
    assert served[1..][k] == served[k + 1];
  }

  /** Every added entry is the one `NewEntry` builds, at that entry's
      position, for the first served model with its id: that model's id,
      display name and owner, the index and the base URL. */
  lemma {:induction false} MergeFromServed(served: seq<ServedModel>, baseUrl: string, entries: seq<Value>, seen: set<string>, i: nat)
    requires |entries| <= i < |Merge(served, baseUrl, entries, seen)|
    ensures BuiltFromFirst(Merge(served, baseUrl, entries, seen)[i], served, i, baseUrl)
    decreases |served|
  {
    var r := Merge(served, baseUrl, entries, seen);
    var id := UsableId(served[0]);
    MergeFresh(served, baseUrl, entries, seen);
    if id.None? || id.value in seen {
      assert r == Merge(served[1..], baseUrl, entries, seen);
      MergeFromServed(served[1..], baseUrl, entries, seen, i);
      assert ModelIdOf(r[i]).value !in seen;
      BuiltFromFirstTail(r[i], served, i, baseUrl);
    } else if i == |entries| {
      MergeHead(served, baseUrl, entries, seen);
      assert FirstServed(served, id.value) == 0;
      assert BuiltFrom(r[i], served[0], i, baseUrl);
    } else {
      var e := NewEntry(id.value, served[0].ownedBy, |entries|, baseUrl);
      assert r == Merge(served[1..], baseUrl, entries + [e], seen + {id.value});
      MergeFromServed(served[1..], baseUrl, entries + [e], seen + {id.value}, i);
      MergeFresh(served[1..], baseUrl, entries + [e], seen + {id.value});
      assert ModelIdOf(r[i]).value !in seen + {id.value};
      BuiltFromFirstTail(r[i], served, i, baseUrl);
    }
  }

  /** The first position of an id the head does not have, counted in the tail. */
  lemma FirstServedShift(served: seq<ServedModel>, x: string)
    requires |served| > 0 && UsableId(served[0]) != Some(x)
    ensures FirstServed(served, x) == FirstServed(served[1..], x) + 1
  {
  }

  /** The loop appends in served order: an entry added earlier comes from an
      earlier served model. */
  lemma {:induction false} MergeInServedOrder(served: seq<ServedModel>, baseUrl: string, entries: seq<Value>, seen: set<string>)
    ensures var r := Merge(served, baseUrl, entries, seen);
      forall i, j | |entries| <= i < j < |r| ::
        FirstServed(served, ModelIdOf(r[i]).value) < FirstServed(served, ModelIdOf(r[j]).value)
    decreases |served|
  {
    var r := Merge(served, baseUrl, entries, seen);
    if |served| > 0 {
      var id := UsableId(served[0]);
      MergeFresh(served, baseUrl, entries, seen);
      if id.None? || id.value in seen {
        assert r == Merge(served[1..], baseUrl, entries, seen);
        MergeInServedOrder(served[1..], baseUrl, entries, seen);
        forall i | |entries| <= i < |r|
          ensures FirstServed(served, ModelIdOf(r[i]).value) == FirstServed(served[1..], ModelIdOf(r[i]).value) + 1
        {
          assert ModelIdOf(r[i]).value !in seen;
          FirstServedShift(served, ModelIdOf(r[i]).value);
        }
      } else {
        var e := NewEntry(id.value, served[0].ownedBy, |entries|, baseUrl);
        var seen' := seen + {id.value};
        assert r == Merge(served[1..], baseUrl, entries + [e], seen');
        MergeInServedOrder(served[1..], baseUrl, entries + [e], seen');
        MergeFresh(served[1..], baseUrl, entries + [e], seen');
        MergeHead(served, baseUrl, entries, seen);
        assert FirstServed(served, id.value) == 0;
        forall i | |entries| + 1 <= i < |r|
          ensures FirstServed(served, ModelIdOf(r[i]).value) == FirstServed(served[1..], ModelIdOf(r[i]).value) + 1
        {
          assert ModelIdOf(r[i]).value !in seen';
          FirstServedShift(served, ModelIdOf(r[i]).value);
        }
      }
    }
  }

  /** Served models without a usable id add nothing. */
  lemma {:induction false} NoIdsNoEntries(served: seq<ServedModel>, baseUrl: string, entries: seq<Value>, seen: set<string>)
    requires forall k | 0 <= k < |served| :: UsableId(served[k]).None?
    ensures Merge(served, baseUrl, entries, seen) == entries
    decreases |served|
  {
    if |served| > 0 {
      assert forall k | 0 <= k < |served[1..]| :: served[1..][k] == served[k + 1];
      NoIdsNoEntries(served[1..], baseUrl, entries, seen);
    }
  }

  /** The end of `sync_models`: the settings written and `(added, total)`. */
  datatype SyncResult = SyncResult(settings: map<string, Value>, added: nat, total: nat)

  /** `load_factory_settings`: a missing or unreadable file reads as an empty list. */
  function LoadSettings(file: JsonFile): Value {
    match file
    case Parsed(v) => v
    case _ => Obj(map["customModels" := List([])])
  }

  /** The list the loop starts from, or `None` when the file's shape makes the
      script raise: a non-object file; with `clear_first`, a listed value
      without a length (the count is printed before the list is dropped);
      without it, a non-list list or an entry that is not an object. */
  function StartingEntries(settings: Value, clearFirst: bool): (r: Option<seq<Value>>)
    ensures clearFirst ==>
      (r.Some? <==> settings.Obj? && Api.Len(Get(settings.fields, "customModels").GetOr(List([]))).Some?)
    ensures clearFirst && r.Some? ==> r.value == []
  {
    if !settings.Obj? then None
    else if clearFirst then
      if Api.Len(Get(settings.fields, "customModels").GetOr(List([]))).Some? then Some([]) else None
    else
      var current := if "customModels" in settings.fields then settings.fields["customModels"] else List([]);
      if current.List? && forall i | 0 <= i < |current.items| :: current.items[i].Obj? then Some(current.items)
      else None
  }

  function BaseUrl(port: int): string {
    "http://localhost:" + IntToString(port) + "/v1"
  }

  /** `sync_models(port, clear_first)`; `served` is what `/v1/models` returned. */
  function SyncModels(served: seq<ServedModel>, port: int, file: JsonFile, clearFirst: bool): (r: Option<SyncResult>)
    ensures r.Some? <==> StartingEntries(LoadSettings(file), clearFirst).Some?
    ensures r.Some? ==>
      var start := StartingEntries(LoadSettings(file), clearFirst).value;
      r.value.total == |start| + r.value.added
      && "customModels" in r.value.settings && r.value.settings["customModels"].List?
      && |r.value.settings["customModels"].items| == r.value.total
      && r.value.settings["customModels"].items[..|start|] == start
      && forall i | |start| <= i < r.value.total :: IsNewEntryAt(r.value.settings["customModels"].items[i], i)
    ensures r.Some? ==> forall k | k in LoadSettings(file).fields && k != "customModels" ::
      k in r.value.settings && r.value.settings[k] == LoadSettings(file).fields[k]
  {
    var settings := LoadSettings(file);
    match StartingEntries(settings, clearFirst)
    case None => None
    case Some(start) =>
      var m := Merge(served, BaseUrl(port), start, ExistingIds(start));
      Some(SyncResult(settings.fields["customModels" := List(m)], |m| - |start|, |m|))
  }

  /** The list written by a successful run. */
  function Written(served: seq<ServedModel>, port: int, file: JsonFile, clearFirst: bool): seq<Value>
    requires SyncModels(served, port, file, clearFirst).Some?
  {
    SyncModels(served, port, file, clearFirst).value.settings["customModels"].items
  }

  /** `clear_models`: the list is emptied and its old length reported. The
      script raises, writing nothing, when the file is not an object or the
      listed value has no length. */
  function ClearModels(file: JsonFile): (r: Option<(map<string, Value>, nat)>)
    ensures var settings := LoadSettings(file);
      r.Some? <==> settings.Obj? && Api.Len(Get(settings.fields, "customModels").GetOr(List([]))).Some?
    ensures r.Some? ==> r.value.0 == LoadSettings(file).fields["customModels" := List([])]
    ensures r.Some? ==> r.value.1 == Api.Len(Get(LoadSettings(file).fields, "customModels").GetOr(List([]))).value
  {
    var settings := LoadSettings(file);
    if !settings.Obj? then None
    else match Api.Len(Get(settings.fields, "customModels").GetOr(List([])))
      case None => None
      case Some(n) => Some((settings.fields["customModels" := List([])], n))
  }

  /** Clearing the file and then syncing writes what one sync with
      `clear_first` writes. */
  lemma ClearThenSync(served: seq<ServedModel>, port: int, file: JsonFile)
    requires ClearModels(file).Some?
    ensures SyncModels(served, port, Parsed(Obj(ClearModels(file).value.0)), false) == SyncModels(served, port, file, true)
  {
    var cleared := ClearModels(file).value.0;
    assert StartingEntries(Obj(cleared), false) == Some([]);
    var m := Merge(served, BaseUrl(port), [], ExistingIds([]));
    assert cleared["customModels" := List(m)] == LoadSettings(file).fields["customModels" := List(m)];
  }

  /** With `clear_first` a run succeeds exactly when clearing alone would: a
      listed value without a length, such as `null`, makes both raise. */
  lemma ClearFirstNeedsLength(served: seq<ServedModel>, port: int, file: JsonFile)
    ensures SyncModels(served, port, file, true).Some? <==> ClearModels(file).Some?
    ensures SyncModels(served, port, Parsed(Obj(map["customModels" := Null])), true).None?
  {
  }

  /** With `clear_first` the old list is dropped: every entry is new and the
      indices start at 0. */
  lemma ClearFirstStartsOver(served: seq<ServedModel>, port: int, file: JsonFile)
    requires ClearModels(file).Some?
    ensures var r := SyncModels(served, port, file, true);
      r.Some? && r.value.added == r.value.total
      && forall i | 0 <= i < r.value.total :: IsNewEntryAt(Written(served, port, file, true)[i], i)
  {
  }

  /** Started from a list and the ids it holds, the loop adds no id of that
      list and no id twice. */
  lemma MergeAvoidsStart(served: seq<ServedModel>, baseUrl: string, start: seq<Value>)
    ensures var m := Merge(served, baseUrl, start, ExistingIds(start));
      (forall i | |start| <= i < |m| :: ModelIdOf(m[i]).Some?
        && forall j | 0 <= j < |start| :: ModelIdOf(start[j]) != ModelIdOf(m[i]))
      && (forall i, j | |start| <= i < j < |m| :: ModelIdOf(m[i]) != ModelIdOf(m[j]))
  {
    var ids := ExistingIds(start);
    var m := Merge(served, baseUrl, start, ids);
    MergeFresh(served, baseUrl, start, ids);
    assert AddsFresh(m, |start|, ids);
    forall i, j | |start| <= i < |m| && 0 <= j < |start|
      ensures ModelIdOf(start[j]) != ModelIdOf(m[i])
    {
      assert ModelIdOf(m[i]).value !in ids;
      if ModelIdOf(start[j]).Some? {
        assert ModelIdOf(start[j]).value in ids;
      }
    }
  }

  /** An id already in the file is never added again, and no id is added twice. */
  lemma NoDuplicateIds(served: seq<ServedModel>, port: int, file: JsonFile, clearFirst: bool)
    requires SyncModels(served, port, file, clearFirst).Some?
    ensures var start := StartingEntries(LoadSettings(file), clearFirst).value;
      var items := Written(served, port, file, clearFirst);
      (forall i | |start| <= i < |items| :: ModelIdOf(items[i]).Some?
        && forall j | 0 <= j < |start| :: ModelIdOf(start[j]) != ModelIdOf(items[i]))
      && (forall i, j | |start| <= i < j < |items| :: ModelIdOf(items[i]) != ModelIdOf(items[j]))
  {
    var start := StartingEntries(LoadSettings(file), clearFirst).value;
    assert Written(served, port, file, clearFirst) == Merge(served, BaseUrl(port), start, ExistingIds(start));
    MergeAvoidsStart(served, BaseUrl(port), start);
  }

  /** After the run every usable served id is listed, either from before or as a new entry. */
  lemma EveryServedIdListed(served: seq<ServedModel>, port: int, file: JsonFile, clearFirst: bool, k: nat)
    requires SyncModels(served, port, file, clearFirst).Some?
    requires k < |served| && UsableId(served[k]).Some?
    ensures var items := Written(served, port, file, clearFirst);
      exists i | 0 <= i < |items| :: ModelIdOf(items[i]) == UsableId(served[k])
  {
    var start := StartingEntries(LoadSettings(file), clearFirst).value;
    var ids := ExistingIds(start);
    var m := Merge(served, BaseUrl(port), start, ids);
    var x := UsableId(served[k]).value;
    assert Written(served, port, file, clearFirst) == m;
    MergeCovers(served, BaseUrl(port), start, ids, k);
    if x in ids {
      var j :| 0 <= j < |start| && ModelIdOf(start[j]) == Some(x);
      assert m[j] == m[..|start|][j];
    } else {
      var i :| |start| <= i < |m| && ModelIdOf(m[i]) == Some(x);
    }
  }

  /** Every entry the run adds is the entry built for the first served model
      with its id, at its position, pointing at `http://localhost:{port}/v1`. */
  lemma AddedAreServed(served: seq<ServedModel>, port: int, file: JsonFile, clearFirst: bool, i: nat)
    requires SyncModels(served, port, file, clearFirst).Some?
    requires |StartingEntries(LoadSettings(file), clearFirst).value| <= i < |Written(served, port, file, clearFirst)|
    ensures BuiltFromFirst(Written(served, port, file, clearFirst)[i], served, i, BaseUrl(port))
  {
    var start := StartingEntries(LoadSettings(file), clearFirst).value;
    MergeFromServed(served, BaseUrl(port), start, ExistingIds(start), i);
  }

  /** The run adds its entries in the order the models were served. */
  lemma AddedInServedOrder(served: seq<ServedModel>, port: int, file: JsonFile, clearFirst: bool)
    requires SyncModels(served, port, file, clearFirst).Some?
    ensures var start := StartingEntries(LoadSettings(file), clearFirst).value;
      var items := Written(served, port, file, clearFirst);
      forall i, j | |start| <= i < j < |items| ::
        FirstServed(served, ModelIdOf(items[i]).value) < FirstServed(served, ModelIdOf(items[j]).value)
  {
    var start := StartingEntries(LoadSettings(file), clearFirst).value;
    assert Written(served, port, file, clearFirst) == Merge(served, BaseUrl(port), start, ExistingIds(start));
    MergeInServedOrder(served, BaseUrl(port), start, ExistingIds(start));
  }
}

=== FILE: headless.dfy ===
/** `scripts/start-tunnel-headless.py`: the unattended plink launcher. It reads
    the raw config dictionary, exits early when a setting is missing or the
    tunnel is already up, starts plink, and polls once per second until the
    process dies, the port opens or the timeout passes. Time is counted in
    one-second ticks: tick `t` is the `t`-th pass through the wait loop. */
module Headless {
  import opened Wrappers
  import opened Strings
  import opened Json
  import opened Config
  import opened Tunnel

  const DefaultPort: Value := Int(8317)

  /** Python truthiness of a JSON value, as `not value` tests it. */
  predicate Truthy(v: Value) {
    match v
    case Null => false
    case Bool(b) => b
    case Int(i) => i != 0
    case Str(s) => s != ""
    case List(items) => items != []
    case Obj(fields) => fields != map[]
  }

  /** `str(value)` for the scalar values a config holds; a list or an object is
      rendered as a bare bracket pair. */
  function PyStr(v: Value): string {
    match v
    case Null => "None"
    case Bool(b) => if b then "True" else "False"
    case Int(i) => IntToString(i)
    case Str(s) => s
    case List(_) => "[]"
    case Obj(_) => "{}"
  }

  /** The five settings `start_tunnel` reads, with their defaults. */
  datatype Settings = Settings(port: Value, remotePort: Value, user: Value, ip: Value, password: Value)

  function ReadSettings(d: map<string, Value>): (s: Settings)
    ensures "LocalPort" !in d ==> s.port == DefaultPort
    ensures "RemotePort" !in d ==> s.remotePort == DefaultPort
    ensures "MacUser" !in d ==> !Truthy(s.user)
    ensures "MacIP" !in d ==> !Truthy(s.ip)
    ensures "SSHPassword" !in d ==> !Truthy(s.password)
    ensures "MacUser" in d ==> s.user == d["MacUser"]
    ensures "SSHPassword" in d ==> s.password == d["SSHPassword"]
    ensures "LocalPort" in d ==> s.port == d["LocalPort"]
    ensures "RemotePort" in d ==> s.remotePort == d["RemotePort"]
    ensures "MacIP" in d ==> s.ip == d["MacIP"]
  {
    Settings(Get(d, "LocalPort").GetOr(DefaultPort), Get(d, "RemotePort").GetOr(DefaultPort),
             Get(d, "MacUser").GetOr(Str("")), Get(d, "MacIP").GetOr(Str("")),
             Get(d, "SSHPassword").GetOr(Str("")))
  }

  const HostKey: string := "SHA256:5XgC3h/+waae885A5/IORHon1HPf3QLQXbF84V+mj0Y"

  /** The plink command line. */
  function PlinkArgv(plink: string, s: Settings): (argv: seq<string>)
    ensures |argv| == 11 && argv[0] == plink && argv[|argv| - 1] == "-N"
    ensures argv[5] == "-L" && argv[6] == PyStr(s.port) + ":localhost:" + PyStr(s.remotePort)
    ensures argv[7] == "-pw" && argv[8] == PyStr(s.password)
    ensures argv[9] == PyStr(s.user) + "@" + PyStr(s.ip)
    ensures "-batch" in argv
  {
    [plink, "-ssh", "-batch", "-hostkey", HostKey,
     "-L", PyStr(s.port) + ":localhost:" + PyStr(s.remotePort),
     "-pw", PyStr(s.password), PyStr(s.user) + "@" + PyStr(s.ip), "-N"]
  }

  /** With the ports at their default the forward is `8317:localhost:8317`. */
  lemma DefaultForward(plink: string)
    ensures PlinkArgv(plink, ReadSettings(map[]))[6] == "8317:localhost:8317"
  {
    assert NatToString(8317) == "8317" by {
      assert NatToString(8) == "8";
      assert NatToString(83) == "83";
      assert NatToString(831) == "831";
    }
  }

  /** How the wait loop ended. */
  datatype WaitResult = Ready(tick: nat) | ProcessDied(tick: nat, error: string) | TimedOut

  /** Nothing happened before tick `t`: the process was alive and the port closed. */
  predicate Quiet(t: nat, poll: nat -> Option<string>, portOpen: nat -> bool) {
    forall u | 0 <= u < t :: poll(u).None? && !portOpen(u)
  }

  /** The port opens at some tick inside the timeout while the process still runs. */
  predicate ReadyWithin(timeout: int, poll: nat -> Option<string>, portOpen: nat -> bool) {
    exists t: nat | t < timeout :: Quiet(t, poll, portOpen) && poll(t).None? && portOpen(t)
  }

  /** The number of ticks the loop can run: none for a negative timeout. */
  function Horizon(timeout: int): nat {
    if timeout < 0 then 0 else timeout
  }

  /** The wait loop. At each tick the process is polled first (`poll(t)` is
      its stderr when it has exited), then the port; otherwise one more second
      passes. The loop runs while fewer than `timeout` seconds have elapsed. */
  method WaitForTunnel(timeout: int, poll: nat -> Option<string>, portOpen: nat -> bool) returns (r: WaitResult)
    ensures r.Ready? ==> r.tick < timeout && Quiet(r.tick, poll, portOpen) && poll(r.tick).None? && portOpen(r.tick)
    ensures r.ProcessDied? ==>
      r.tick < timeout && Quiet(r.tick, poll, portOpen) && poll(r.tick).Some? && r.error == WindowsError(poll(r.tick).value)
    ensures r.TimedOut? <==> Quiet(Horizon(timeout), poll, portOpen)
    ensures r.Ready? <==> ReadyWithin(timeout, poll, portOpen)
  {
    var t: nat := 0;
    while t < timeout
      invariant timeout >= 0 ==> t <= timeout
      invariant timeout < 0 ==> t == 0
      invariant Quiet(t, poll, portOpen)
      decreases timeout - t
    {
      var stderr := poll(t);
      if stderr.Some? {
        r := ProcessDied(t, WindowsError(stderr.value));
        assert !Quiet(Horizon(timeout), poll, portOpen) by {
          assert poll(t).Some?;
        }
        QuietNotReady(timeout, t, poll, portOpen);
        return;
      }
      if portOpen(t) {
        r := Ready(t);
        assert !Quiet(Horizon(timeout), poll, portOpen) by {
          assert portOpen(t);
        }
        return;
      }
      t := t + 1;
    }
    r := TimedOut;
    QuietNotReady(timeout, t, poll, portOpen);
  }

  /** Once the process has died at tick `d` with nothing before it, or every
      tick up to the timeout was quiet, the port cannot be found open in time. */
  lemma QuietNotReady(timeout: int, d: nat, poll: nat -> Option<string>, portOpen: nat -> bool)
    requires Quiet(d, poll, portOpen)
    requires d >= timeout || poll(d).Some?
    ensures !ReadyWithin(timeout, poll, portOpen)
  {
  }

  /** Every way `start_tunnel` can end. `NoStartupInfo` is the uncaught
      `AttributeError` that `subprocess.STARTUPINFO` raises on a platform other
      than Windows, before the `try` around `Popen`. */
  datatype HeadlessOutcome =
    | MissingHost
    | MissingPassword
    | AlreadyUp
    | NoPlink
    | NoStartupInfo
    | SpawnError(error: string)
    | Waited(result: WaitResult)

  predicate HeadlessSucceeded(o: HeadlessOutcome) {
    o.AlreadyUp? || (o.Waited? && o.result.Ready?)
  }

  /** One run of `start_tunnel`: its outcome, the command it handed to `Popen`,
      and whether it terminated the process on timeout. */
  datatype HeadlessRun = HeadlessRun(outcome: HeadlessOutcome, launched: Option<seq<string>>, terminated: bool)

  /** The checks that come before any probe or launch. */
  predicate SettingsComplete(s: Settings) {
    Truthy(s.user) && Truthy(s.ip) && Truthy(s.password)
  }

  /** Python's name for the type of a JSON value. */
  function PyTypeName(v: Value): string {
    match v
    case Null => "NoneType"
    case Bool(_) => "bool"
    case Int(_) => "int"
    case Str(_) => "str"
    case List(_) => "list"
    case Obj(_) => "dict"
  }

  /** The `TypeError` `Popen` raises, inside the `try`, when it converts a
      command-line argument that is not a string. */
  function NotAStringError(v: Value): (e: string)
    ensures "expected str, bytes or os.PathLike object, not " <= e
  {
    "expected str, bytes or os.PathLike object, not " + PyTypeName(v)
  }

  /** `start_tunnel`. `alreadyOpen` is the probe made before anything is
      launched, `plink` what `find_plink` found, `windows` whether the
      platform has `subprocess.STARTUPINFO`, `spawnError` the exception
      `Popen` raised for a well-formed command, if any. */
  method StartTunnel(d: map<string, Value>, timeout: int, alreadyOpen: bool, plink: Option<string>, windows: bool,
                     spawnError: Option<string>, poll: nat -> Option<string>, portOpen: nat -> bool)
    returns (run: HeadlessRun)
    ensures var s := ReadSettings(d);
      (!Truthy(s.user) || !Truthy(s.ip) ==> run.outcome == MissingHost)
      && (Truthy(s.user) && Truthy(s.ip) && !Truthy(s.password) ==> run.outcome == MissingPassword)
      && (SettingsComplete(s) && alreadyOpen ==> run.outcome == AlreadyUp)
      && (SettingsComplete(s) && !alreadyOpen && plink.None? ==> run.outcome == NoPlink)
      && (SettingsComplete(s) && !alreadyOpen && plink.Some? && !windows ==> run.outcome == NoStartupInfo)
    ensures run.launched.Some? <==> SettingsComplete(ReadSettings(d)) && !alreadyOpen && plink.Some? && windows
    ensures run.launched.Some? ==> run.launched.value == PlinkArgv(plink.value, ReadSettings(d))
    ensures run.launched.Some? && !ReadSettings(d).password.Str? ==>
      run.outcome == SpawnError(NotAStringError(ReadSettings(d).password))
    ensures HeadlessSucceeded(run.outcome) <==>
      SettingsComplete(ReadSettings(d))
      && (alreadyOpen || (plink.Some? && windows && ReadSettings(d).password.Str? && spawnError.None? && ReadyWithin(timeout, poll, portOpen)))
    ensures run.terminated <==> run.outcome == Waited(TimedOut)
  {
    var s := ReadSettings(d);
    if !Truthy(s.user) || !Truthy(s.ip) {
      return HeadlessRun(MissingHost, None, false);
    }
    if !Truthy(s.password) {
      return HeadlessRun(MissingPassword, None, false);
    }
    if alreadyOpen {
      return HeadlessRun(AlreadyUp, None, false);
    }
    if plink.None? {
      return HeadlessRun(NoPlink, None, false);
    }
    var argv := PlinkArgv(plink.value, s);
    if !windows {
      return HeadlessRun(NoStartupInfo, None, false);
    }
    if !s.password.Str? {
      return HeadlessRun(SpawnError(NotAStringError(s.password)), Some(argv), false);
    }
    if spawnError.Some? {
      return HeadlessRun(SpawnError(spawnError.value), Some(argv), false);
    }
    var w := WaitForTunnel(timeout, poll, portOpen);
    return HeadlessRun(Waited(w), Some(argv), w.TimedOut?);
  }

  /** `main`: the exit status. The config file must exist and hold a JSON
      object (anything else ends the script with status 1, as does the
      uncaught error off Windows); `openBefore` is the probe made before
      anything is launched, in either mode, and `portOpen` the probes of the
      wait loop. */
  method MainExit(file: JsonFile, checkOnly: bool, timeout: int, openBefore: bool, plink: Option<string>, windows: bool,
                  spawnError: Option<string>, poll: nat -> Option<string>, portOpen: nat -> bool)
    returns (code: int)
    ensures code == 0 || code == 1
    ensures !(file.Parsed? && file.data.Obj?) ==> code == 1
    ensures file.Parsed? && file.data.Obj? && checkOnly ==> (code == 0 <==> openBefore)
    ensures file.Parsed? && file.data.Obj? && !checkOnly ==>
      (code == 0 <==>
        SettingsComplete(ReadSettings(file.data.fields))
        && (openBefore
            || (plink.Some? && windows && ReadSettings(file.data.fields).password.Str? && spawnError.None?
                && ReadyWithin(timeout, poll, portOpen))))
  {
    if !(file.Parsed? && file.data.Obj?) {
      return 1;
    }
    if checkOnly {
      return if openBefore then 0 else 1;
    }
    var run := StartTunnel(file.data.fields, timeout, openBefore, plink, windows, spawnError, poll, portOpen);
    return if HeadlessSucceeded(run.outcome) then 0 else 1;
  }
}

=== FILE: json.dfy ===
/** JSON values as Python's `json` module hands them to the code (dicts,
    lists, strings, integers, booleans and `None`). */
module Json {
  import opened Wrappers

  datatype Value =
    | Null
    | Bool(b: bool)
    | Int(i: int)
    | Str(s: string)
    | List(items: seq<Value>)
    | Obj(fields: map<string, Value>)

  /** `d.get(k)` on a dict. */
  function Get(d: map<string, Value>, k: string): (r: Option<Value>)
    ensures r.Some? <==> k in d
    ensures k in d ==> r.value == d[k]
  {
    if k in d then Some(d[k]) else None
  }

  /** `v.get(k)` where `v` is known to be a dict value; any other value has no keys here. */
  function Member(v: Value, k: string): Option<Value> {
    if v.Obj? then Get(v.fields, k) else None
  }
}

=== FILE: node_client.dfy ===
/** `clients/node/src/index.js`: the state and data shaping of the Node
    `VibeProxyClient`. The OpenAI SDK call is a parameter: `chat` receives the
    parsed reply object, `chatStream` the list of parsed stream chunks. The
    client keeps two maps, conversation histories per session and abort
    controllers per request; both are modelled as values that each operation
    returns updated. JavaScript's `||`, `??` and `?.` are written out. */
module NodeClient {
  import opened Wrappers
  import opened Strings
  import opened Json
  import opened Catalogue
  import Api

  // ---------------------------------------------------------------------
  // JavaScript values
  // ---------------------------------------------------------------------

  /** JavaScript truthiness: `null`, `false`, `0` and `""` are falsy; every
      array and object, even an empty one, is truthy. */
  predicate JsTruthy(v: Value) {
    match v
    case Null => false
    case Bool(b) => b
    case Int(i) => i != 0
    case Str(s) => s != ""
    case List(_) => true
    case Obj(_) => true
  }

  /** Truthiness of a value that may be `undefined` (`None`). */
  predicate Present(v: Option<Value>) {
    v.Some? && JsTruthy(v.value)
  }

  /** `a || b` on a string option. */
  function OrString(a: Option<string>, b: string): (r: string)
    ensures a.Some? && a.value != "" ==> r == a.value
    ensures !(a.Some? && a.value != "") ==> r == b
  {
    if a.Some? && a.value != "" then a.value else b
  }

  /** `a || b` on a number option. */
  function OrNumber(a: Option<int>, b: int): (r: int)
    ensures a.Some? && a.value != 0 ==> r == a.value
    ensures !(a.Some? && a.value != 0) ==> r == b
  {
    if a.Some? && a.value != 0 then a.value else b
  }

  /** `v?.[k]`: the property of an object; `undefined` for `undefined`,
      `null` and every value without that property. */
  function Prop(v: Option<Value>, k: string): (r: Option<Value>)
    ensures r.Some? <==> v.Some? && v.value.Obj? && k in v.value.fields
    ensures r.Some? ==> r.value == v.value.fields[k]
  {
    if v.Some? && v.value.Obj? && k in v.value.fields then Some(v.value.fields[k]) else None
  }

  /** `v?.[0]`: the first element of an array, the first character of a
      string, the property "0" of an object, `undefined` otherwise. */
  function First(v: Option<Value>): (r: Option<Value>)
    ensures v.Some? && v.value.List? ==> (r.Some? <==> v.value.items != [])
    ensures v.Some? && v.value.List? && v.value.items != [] ==> r == Some(v.value.items[0])
    ensures v.None? || v.value.Null? || v.value.Bool? || v.value.Int? ==> r.None?
  {
    if v.None? then None
    else match v.value
      case List(items) => if items != [] then Some(items[0]) else None
      case Str(s) => if s != "" then Some(Str([s[0]])) else None
      case Obj(fields) => if "0" in fields then Some(fields["0"]) else None
      case _ => None
  }

  /** `'' + v`: the text a value turns into when appended to a string. An
      array becomes its elements' texts joined by commas, `null` elements
      becoming empty. */
  function JsText(v: Value): string
    decreases v
  {
    match v
    case Null => "null"
    case Bool(b) => if b then "true" else "false"
    case Int(i) => IntToString(i)
    case Str(s) => s
    case List(items) =>
      Join(seq(|items|, i requires 0 <= i < |items| => if items[i].Null? then "" else JsText(items[i])), ',')
    case Obj(_) => "[object Object]"
  }

  // ---------------------------------------------------------------------
  // Construction and request settings
  // ---------------------------------------------------------------------

  const DefaultBaseUrl: string := "http://localhost:8317/v1"
  const DefaultModel: string := "claude-sonnet-4-5-20250929"
  const DefaultApiKey: string := "x"
  const DefaultMaxTokens: int := 4096
  const DefaultTimeout: int := 60000

  /** The constructor's options, typed as its documentation declares them;
      `None` is an option left out. */
  datatype ClientOptions = ClientOptions(baseUrl: Option<string>, model: Option<string>, apiKey: Option<string>,
                                         maxTokens: Option<int>, timeout: Option<int>)

  /** `VIBEPROXY_URL` and `VIBEPROXY_MODEL` from the environment. */
  datatype Env = Env(url: Option<string>, model: Option<string>)

  datatype Client = Client(baseUrl: string, defaultModel: string, apiKey: string, defaultMaxTokens: int, timeout: int)

  /** Every setting is set to something truthy. */
  predicate Settled(c: Client) {
    c.baseUrl != "" && c.defaultModel != "" && c.apiKey != "" && c.defaultMaxTokens != 0 && c.timeout != 0
  }

  /** The constructor: each setting is the option when it is truthy, then (for
      the URL and the model) the environment variable when it is non-empty,
      then the built-in default. */
  function NewClient(o: ClientOptions, env: Env): (c: Client)
    ensures Settled(c)
    ensures o.baseUrl.Some? && o.baseUrl.value != "" ==> c.baseUrl == o.baseUrl.value
    ensures !(o.baseUrl.Some? && o.baseUrl.value != "") ==> c.baseUrl == OrString(env.url, DefaultBaseUrl)
    ensures o.model.Some? && o.model.value != "" ==> c.defaultModel == o.model.value
    ensures !(o.model.Some? && o.model.value != "") ==> c.defaultModel == OrString(env.model, DefaultModel)
    ensures c.apiKey == OrString(o.apiKey, DefaultApiKey)
    ensures c.defaultMaxTokens == OrNumber(o.maxTokens, DefaultMaxTokens)
    ensures c.timeout == OrNumber(o.timeout, DefaultTimeout)
  {
    Client(OrString(o.baseUrl, OrString(env.url, DefaultBaseUrl)),
           OrString(o.model, OrString(env.model, DefaultModel)),
           OrString(o.apiKey, DefaultApiKey),
           OrNumber(o.maxTokens, DefaultMaxTokens),
           OrNumber(o.timeout, DefaultTimeout))
  }

  /** The options that name every setting of `c` explicitly. */
  function OptionsOf(c: Client): ClientOptions {
    ClientOptions(Some(c.baseUrl), Some(c.defaultModel), Some(c.apiKey), Some(c.defaultMaxTokens), Some(c.timeout))
  }

  /** Building a client from the settings of a constructed client gives the
      same client back, whatever the environment then holds. */
  lemma NewClientFixpoint(o: ClientOptions, env: Env, env2: Env)
    ensures NewClient(OptionsOf(NewClient(o, env)), env2) == NewClient(o, env)
  {
  }

  /** With no options and no environment the built-in defaults apply, and a
      `maxTokens` or `timeout` of 0 counts as left out. */
  lemma DefaultClient()
    ensures NewClient(ClientOptions(None, None, None, None, None), Env(None, None))
      == Client(DefaultBaseUrl, DefaultModel, DefaultApiKey, DefaultMaxTokens, DefaultTimeout)
    ensures NewClient(ClientOptions(None, None, Some(""), Some(0), Some(0)), Env(Some(""), None))
      == Client(DefaultBaseUrl, DefaultModel, DefaultApiKey, DefaultMaxTokens, DefaultTimeout)
  {
  }

  /** `getTemperature`: 1.0 for the GPT-5 family whatever was requested,
      otherwise the requested temperature (`None` for `null`/`undefined`) or 0. */
  function GetTemperature(model: string, requested: Option<real>): (t: real)
    ensures NeedsUnitTemperature(model) ==> t == 1.0
    ensures !NeedsUnitTemperature(model) ==> t == requested.GetOr(0.0)
  {
    if NeedsUnitTemperature(model) then 1.0 else requested.GetOr(0.0)
  }

  /** The Node and the Python client send the same temperature exactly when
      no temperature was requested, the model is outside the GPT-5 family, or
      the request was 1.0 already: for GPT-5 the Node client overrides an
      explicit temperature that the Python client keeps. */
  lemma TemperatureVersusPython(model: string, requested: Option<real>)
    ensures GetTemperature(model, requested) == Api.ResolveTemperature(model, requested)
      <==> requested.None? || !NeedsUnitTemperature(model) || requested.value == 1.0
  {
  }

  /** The per-call options of `chat`, `chatStream` and the conversations
      (the abort signal is not modelled). */
  datatype CallOptions = CallOptions(model: Option<string>, maxTokens: Option<int>, temperature: Option<real>,
                                     systemPrompt: Option<string>)

  /** A history entry `{role, content}`. */
  datatype Message = Message(role: string, content: Value)

  /** What is sent to the completions endpoint. */
  datatype Request = Request(model: string, messages: seq<Message>, maxTokens: int, temperature: real, stream: bool)

  /** The request `chat` (or, with `stream`, `chatStream`) sends: the call's
      model and token limit when truthy, else the client's. */
  function MakeRequest(c: Client, messages: seq<Message>, o: CallOptions, stream: bool): (r: Request)
    ensures r.messages == messages && r.stream == stream
    ensures r.model == OrString(o.model, c.defaultModel)
    ensures r.maxTokens == OrNumber(o.maxTokens, c.defaultMaxTokens)
    ensures r.temperature == GetTemperature(r.model, o.temperature)
  {
    var model := OrString(o.model, c.defaultModel);
    Request(model, messages, OrNumber(o.maxTokens, c.defaultMaxTokens), GetTemperature(model, o.temperature), stream)
  }

  /** A constructed client never sends an empty model or a zero token limit,
      whatever the call's options hold. */
  lemma RequestsAreSettled(o: ClientOptions, env: Env, messages: seq<Message>, call: CallOptions, stream: bool)
    ensures var r := MakeRequest(NewClient(o, env), messages, call, stream);
      r.model != "" && r.maxTokens != 0
  {
  }

  // ---------------------------------------------------------------------
  // Reading replies
  // ---------------------------------------------------------------------

  /** The object `chat` returns. `model` is `undefined` when the reply has none. */
  datatype ChatReply = ChatReply(content: Value, finishReason: Value, usage: Value, model: Option<Value>)

  /** `chat`'s reading of the SDK's reply object: the first choice's message
      content or "", its finish reason or "stop", the usage or `{}`. */
  function ReadReply(response: map<string, Value>): (r: ChatReply)
    ensures var choice := First(Prop(Some(Obj(response)), "choices"));
      var content := Prop(Prop(choice, "message"), "content");
      var finish := Prop(choice, "finish_reason");
      (Present(content) ==> r.content == content.value)
      && (!Present(content) ==> r.content == Str(""))
      && (Present(finish) ==> r.finishReason == finish.value)
      && (!Present(finish) ==> r.finishReason == Str("stop"))
    ensures JsTruthy(r.finishReason) && JsTruthy(r.usage)
    ensures "usage" in response && JsTruthy(response["usage"]) ==> r.usage == response["usage"]
    ensures !("usage" in response && JsTruthy(response["usage"])) ==> r.usage == Obj(map[])
    ensures r.model == Get(response, "model")
  {
    var choice := First(Prop(Some(Obj(response)), "choices"));
    var content := Prop(Prop(choice, "message"), "content");
    var finish := Prop(choice, "finish_reason");
    var usage := Get(response, "usage");
    ChatReply(if Present(content) then content.value else Str(""),
              if Present(finish) then finish.value else Str("stop"),
              if Present(usage) then usage.value else Obj(map[]),
              Get(response, "model"))
  }

  /** A well-formed reply is read back field for field. */
  lemma ReadWellFormedReply(content: string, finish: string, usage: map<string, Value>, model: string)
    requires content != "" && finish != ""
    ensures var choice := Obj(map["message" := Obj(map["content" := Str(content)]), "finish_reason" := Str(finish)]);
      ReadReply(map["choices" := List([choice]), "usage" := Obj(usage), "model" := Str(model)])
        == ChatReply(Str(content), Str(finish), Obj(usage), Some(Str(model)))
  {
  }

  /** A reply without choices reads as empty content that finished normally,
      where the Python client reports the same body as an error. */
  lemma EmptyReplyIsStop(model: string)
    ensures ReadReply(map[]) == ChatReply(Str(""), Str("stop"), Obj(map[]), None)
    ensures Api.Chat(model, [], 4096, None, Api.Response(Obj(map[])), "").response.finishReason == "error"
  {
  }

  /** One item `chatStream` yields. */
  datatype StreamChunk = Text(content: Value) | Done(finishReason: Value)

  /** The items one SDK chunk turns into: the text of the first choice's delta
      when truthy, then its finish reason when truthy. */
  function ChunkEvents(chunk: Value): (r: seq<StreamChunk>)
    ensures var choice := First(Prop(Some(chunk), "choices"));
      var content := Prop(Prop(choice, "delta"), "content");
      var finish := Prop(choice, "finish_reason");
      (Present(content) ==> Text(content.value) in r)
      && (Present(finish) ==> Done(finish.value) in r)
      && (forall e | e in r && e.Text? :: Present(content) && e.content == content.value)
      && (forall e | e in r && e.Done? :: Present(finish) && e.finishReason == finish.value)
      && |r| == (if Present(content) then 1 else 0) + (if Present(finish) then 1 else 0)
      && (|r| == 2 ==> r[0].Text? && r[1].Done?)
  {
    var choice := First(Prop(Some(chunk), "choices"));
    var content := Prop(Prop(choice, "delta"), "content");
    var finish := Prop(choice, "finish_reason");
    (if Present(content) then [Text(content.value)] else [])
      + (if Present(finish) then [Done(finish.value)] else [])
  }

  /** Every item carries a truthy value. */
  predicate Meaningful(e: StreamChunk) {
    match e
    case Text(c) => JsTruthy(c)
    case Done(f) => JsTruthy(f)
  }

  /** Everything `chatStream` yields for a sequence of chunks, in order. */
  function StreamEvents(chunks: seq<Value>): (r: seq<StreamChunk>)
    ensures forall i | 0 <= i < |r| :: Meaningful(r[i])
    ensures |r| <= 2 * |chunks|
  {
    if chunks == [] then [] else ChunkEvents(chunks[0]) + StreamEvents(chunks[1..])
  }

  /** Streaming two batches of chunks yields the items of each in turn. */
  lemma {:induction false} StreamEventsAppend(a: seq<Value>, b: seq<Value>)
    ensures StreamEvents(a + b) == StreamEvents(a) + StreamEvents(b)
    decreases |a|
  {
    if a == [] {
      assert a + b == b;
    } else {
      assert (a + b)[1..] == a[1..] + b;
      StreamEventsAppend(a[1..], b);
    }
  }

  /** The text `conversationStream` collects: every text item's content
      appended to a string. */
  function Collected(events: seq<StreamChunk>): string {
    if events == [] then ""
    else (if events[0].Text? then JsText(events[0].content) else "") + Collected(events[1..])
  }

  lemma {:induction false} CollectedAppend(a: seq<StreamChunk>, b: seq<StreamChunk>)
    ensures Collected(a + b) == Collected(a) + Collected(b)
    decreases |a|
  {
    if a == [] {
      assert a + b == b;
    } else {
      assert (a + b)[1..] == a[1..] + b;
      CollectedAppend(a[1..], b);
    }
  }

  /** A chunk whose first choice's delta holds the text `t`. */
  function DeltaChunk(t: string): Value {
    Obj(map["choices" := List([Obj(map["delta" := Obj(map["content" := Str(t)])])])])
  }

  function Concat(ts: seq<string>): string {
    if ts == [] then "" else ts[0] + Concat(ts[1..])
  }

  /** Streaming plain text deltas collects exactly their concatenation; empty
      deltas yield nothing and add nothing. */
  lemma {:induction false} CollectsDeltas(ts: seq<string>)
    ensures Collected(StreamEvents(seq(|ts|, i requires 0 <= i < |ts| => DeltaChunk(ts[i])))) == Concat(ts)
    decreases |ts|
  {
    var chunks := seq(|ts|, i requires 0 <= i < |ts| => DeltaChunk(ts[i]));
    if ts != [] {
      var rest := seq(|ts| - 1, i requires 0 <= i < |ts| - 1 => DeltaChunk(ts[1..][i]));
      assert chunks[1..] == rest;
      assert StreamEvents(chunks) == ChunkEvents(DeltaChunk(ts[0])) + StreamEvents(rest);
      CollectedAppend(ChunkEvents(DeltaChunk(ts[0])), StreamEvents(rest));
      CollectsDeltas(ts[1..]);
      DeltaCollected(ts[0]);
    }
  }

  /** One text delta collects to its text. */
  lemma DeltaCollected(t: string)
    ensures Collected(ChunkEvents(DeltaChunk(t))) == t
  {
    if t == "" {
      assert ChunkEvents(DeltaChunk(t)) == [];
    } else {
      assert ChunkEvents(DeltaChunk(t)) == [Text(Str(t))];
    }
  }

  // ---------------------------------------------------------------------
  // Conversation histories
  // ---------------------------------------------------------------------

  /** The client's `conversationHistory` map. */
  type Sessions = map<string, seq<Message>>

  /** `getHistory`: the stored history, or an empty one. */
  function GetHistory(s: Sessions, id: string): (h: seq<Message>)
    ensures id in s ==> h == s[id]
    ensures id !in s ==> h == []
  {
    if id in s then s[id] else []
  }

  /** `clearHistory`. */
  function ClearHistory(s: Sessions, id: string): (r: Sessions)
    ensures id !in r
    ensures forall k | k in s && k != id :: k in r && r[k] == s[k]
    ensures r.Keys <= s.Keys
  {
    s - {id}
  }

  /** After clearing, the session's history is empty and no other session's
      history has changed. */
  lemma ClearThenGet(s: Sessions, id: string, other: string)
    ensures GetHistory(ClearHistory(s, id), id) == []
    ensures other != id ==> GetHistory(ClearHistory(s, id), other) == GetHistory(s, other)
  {
  }

  /** The history as sent: the system prompt first when the history is empty
      and a prompt is given, then the user message. */
  function Opening(history: seq<Message>, userMessage: string, systemPrompt: Option<string>): (h: seq<Message>)
    ensures |h| > 0 && history <= h && h[|h| - 1] == Message("user", Str(userMessage))
    ensures |h| == |history| + 1 || |h| == |history| + 2
    ensures |h| == |history| + 2 <==> history == [] && systemPrompt.Some? && systemPrompt.value != ""
    ensures |h| == |history| + 2 ==> h[0] == Message("system", Str(systemPrompt.value))
  {
    var withSystem := if history == [] && systemPrompt.Some? && systemPrompt.value != ""
      then [Message("system", Str(systemPrompt.value))] else history;
    withSystem + [Message("user", Str(userMessage))]
  }

  /** What `conversation` returns. */
  datatype TurnResult = TurnResult(content: Value, finishReason: Value, messageCount: nat)

  /** One call of `conversation` or `conversationStream`: the request sent,
      the histories afterwards, and the result when the call completed. */
  datatype Turn = Turn(request: Request, sessions: Sessions, result: Option<TurnResult>)

  /** The histories after a turn. The history array of an existing session is
      pushed to in place, so a call that fails after sending (`reply` is
      `None`) leaves the system and user messages in it; a new session's
      array is only stored once the reply has come. */
  function AfterTurn(s: Sessions, id: string, opening: seq<Message>, reply: Option<Value>): (r: Sessions)
    ensures reply.Some? ==> r == s[id := opening + [Message("assistant", reply.value)]]
    ensures reply.None? ==> r == (if id in s then s[id := opening] else s)
  {
    if reply.Some? then s[id := opening + [Message("assistant", reply.value)]]
    else if id in s then s[id := opening] else s
  }

  /** `conversation`. `reply` is what `chat` returned for the request, `None`
      when it threw. */
  function Conversation(c: Client, s: Sessions, id: string, userMessage: string, o: CallOptions,
                        reply: Option<ChatReply>): (t: Turn)
    ensures t.request == MakeRequest(c, Opening(GetHistory(s, id), userMessage, o.systemPrompt), o, false)
    ensures t.result.Some? <==> reply.Some?
    ensures reply.Some? ==>
      id in t.sessions
      && t.sessions[id] == t.request.messages + [Message("assistant", reply.value.content)]
      && t.result.value == TurnResult(reply.value.content, reply.value.finishReason, |t.sessions[id]|)
    ensures forall k | k != id :: GetHistory(t.sessions, k) == GetHistory(s, k)
  {
    var sent := Opening(GetHistory(s, id), userMessage, o.systemPrompt);
    var request := MakeRequest(c, sent, o, false);
    match reply
    case None => Turn(request, AfterTurn(s, id, sent, None), None)
    case Some(r) =>
      var sessions := AfterTurn(s, id, sent, Some(r.content));
      Turn(request, sessions, Some(TurnResult(r.content, r.finishReason, |sessions[id]|)))
  }

  /** `conversationStream`: the items yielded, and the turn with the collected
      text stored as the assistant's message. `completed` is false when the
      stream broke off, and the consumer then sees only the items yielded so far. */
  datatype StreamTurn = StreamTurn(events: seq<StreamChunk>, turn: Turn)

  function ConversationStream(c: Client, s: Sessions, id: string, userMessage: string, o: CallOptions,
                              chunks: seq<Value>, completed: bool): (t: StreamTurn)
    ensures t.events == StreamEvents(chunks)
    ensures t.turn.request == MakeRequest(c, Opening(GetHistory(s, id), userMessage, o.systemPrompt), o, true)
    ensures t.turn.result.None?
    ensures completed ==>
      id in t.turn.sessions
      && t.turn.sessions[id] == t.turn.request.messages + [Message("assistant", Str(Collected(t.events)))]
    ensures !completed ==> t.turn.sessions == AfterTurn(s, id, t.turn.request.messages, None)
    ensures forall k | k != id :: GetHistory(t.turn.sessions, k) == GetHistory(s, k)
  {
    var sent := Opening(GetHistory(s, id), userMessage, o.systemPrompt);
    var events := StreamEvents(chunks);
    var stored := if completed then Some(Str(Collected(events))) else None;
    StreamTurn(events, Turn(MakeRequest(c, sent, o, true), AfterTurn(s, id, sent, stored), None))
  }

  /** The shape conversations give a history: an optional system message, then
      user and assistant messages alternating, starting with the user's and
      ending with the assistant's. */
  predicate WellFormed(h: seq<Message>) {
    Alternates(if h != [] && h[0].role == "system" then h[1..] else h)
  }

  /** User and assistant messages in pairs, the user's first. */
  predicate Alternates(body: seq<Message>) {
    |body| % 2 == 0 && forall i | 0 <= i < |body| :: body[i].role == (if i % 2 == 0 then "user" else "assistant")
  }

  lemma AlternatesExtend(body: seq<Message>, u: Message, a: Message)
    requires Alternates(body) && u.role == "user" && a.role == "assistant"
    ensures Alternates(body + [u, a])
  {
    var body2 := body + [u, a];
    forall i | 0 <= i < |body2|
      ensures body2[i].role == (if i % 2 == 0 then "user" else "assistant")
    {
      if i < |body| {
        assert body2[i] == body[i];
      }
    }
  }

  /** A completed turn keeps a well-formed history well formed and adds one
      user and one assistant message, plus the system message on a fresh
      session given a prompt. */
  lemma {:induction false} TurnKeepsShape(c: Client, s: Sessions, id: string, userMessage: string, o: CallOptions,
                                          reply: ChatReply)
    requires WellFormed(GetHistory(s, id))
    ensures var t := Conversation(c, s, id, userMessage, o, Some(reply));
      WellFormed(t.sessions[id])
      && t.result.value.messageCount
         == |GetHistory(s, id)| + 2 + (if GetHistory(s, id) == [] && o.systemPrompt.Some? && o.systemPrompt.value != "" then 1 else 0)
  {
    var h := GetHistory(s, id);
    var sent := Opening(h, userMessage, o.systemPrompt);
    var u := Message("user", Str(userMessage));
    var a := Message("assistant", reply.content);
    var h2 := sent + [a];
    if |sent| == |h| + 2 {
      assert h == [] && sent == [sent[0], u];
      assert h2 == [sent[0], u, a] && h2[1..] == [u, a];
    } else {
      assert sent == h + [u];
      assert h2 == h + [u, a];
      ExchangeKeepsShape(h, u, a);
    }
  }

  /** Appending a user message and its reply keeps a history well formed. */
  lemma ExchangeKeepsShape(h: seq<Message>, u: Message, a: Message)
    requires WellFormed(h) && u.role == "user" && a.role == "assistant"
    ensures WellFormed(h + [u, a])
  {
    var h2 := h + [u, a];
    if h == [] {
      assert h2 == [u, a];
      AlternatesExtend([], u, a);
    } else if h[0].role == "system" {
      assert h2[0] == h[0] && h2[1..] == h[1..] + [u, a];
      AlternatesExtend(h[1..], u, a);
    } else {
      assert h2[0] == h[0];
      AlternatesExtend(h, u, a);
    }
  }

  /** A turn on an existing, well-formed session that fails after sending
      leaves the user message in the stored history without a reply, and the
      history is no longer well formed. */
  lemma FailedTurnLeavesUserMessage(c: Client, s: Sessions, id: string, userMessage: string, o: CallOptions)
    requires id in s && s[id] != [] && WellFormed(s[id])
    ensures var t := Conversation(c, s, id, userMessage, o, None);
      t.sessions[id] == s[id] + [Message("user", Str(userMessage))]
      && !WellFormed(t.sessions[id])
  {
    var h2 := s[id] + [Message("user", Str(userMessage))];
    assert h2[0] == s[id][0];
  }

  /** After `clearHistory` the next turn starts over: it sends the system
      prompt again and the history holds exactly three messages. */
  lemma ClearStartsOver(c: Client, s: Sessions, id: string, userMessage: string, prompt: string,
                        o: CallOptions, reply: ChatReply)
    requires prompt != "" && o.systemPrompt == Some(prompt)
    ensures var t := Conversation(c, ClearHistory(s, id), id, userMessage, o, Some(reply));
      t.request.messages == [Message("system", Str(prompt)), Message("user", Str(userMessage))]
      && t.result.value.messageCount == 3
  {
  }

  // ---------------------------------------------------------------------
  // Abort controllers
  // ---------------------------------------------------------------------

  /** The `abortControllers` map. Controllers are told apart by a serial
      number: `next` is the serial the next controller gets, and `aborted`
      the serials whose `abort()` has been called. */
  datatype Registry = Registry(controllers: map<string, nat>, next: nat, aborted: set<nat>)

  /** Every registered or aborted controller was created by the registry; a
      registered one is not yet aborted and is registered under one id only. */
  predicate Valid(g: Registry) {
    (forall id | id in g.controllers :: g.controllers[id] < g.next && g.controllers[id] !in g.aborted)
    && (forall a | a in g.aborted :: a < g.next)
    && (forall a, b | a in g.controllers && b in g.controllers && a != b :: g.controllers[a] != g.controllers[b])
  }

  /** `createAbortController`: a new controller, which replaces any controller
      registered under the same id. */
  function CreateAbortController(g: Registry, id: string): (r: (Registry, nat))
    ensures r.0.controllers == g.controllers[id := r.1]
    ensures r.1 == g.next && r.0.next == g.next + 1
    ensures r.0.aborted == g.aborted
  {
    (Registry(g.controllers[id := g.next], g.next + 1, g.aborted), g.next)
  }

  /** `abort`: true exactly when a controller is registered under the id; that
      controller is aborted and unregistered. */
  function Abort(g: Registry, id: string): (r: (Registry, bool))
    ensures r.1 <==> id in g.controllers
    ensures r.1 ==> r.0.controllers == g.controllers - {id} && r.0.aborted == g.aborted + {g.controllers[id]}
    ensures !r.1 ==> r.0 == g
  {
    if id in g.controllers then
      (Registry(g.controllers - {id}, g.next, g.aborted + {g.controllers[id]}), true)
    else (g, false)
  }

  /** Both operations keep the registry valid. */
  lemma RegistryStaysValid(g: Registry, id: string)
    requires Valid(g)
    ensures Valid(CreateAbortController(g, id).0)
    ensures Valid(Abort(g, id).0)
  {
  }

  /** Aborting twice: the second call finds nothing. */
  lemma AbortOnce(g: Registry, id: string)
    ensures !Abort(Abort(g, id).0, id).1
  {
  }

  /** Creating then aborting aborts the controller just created; when it
      replaced an earlier one, that earlier controller is not aborted and can
      no longer be reached by its id. */
  lemma CreateThenAbort(g: Registry, id: string)
    requires Valid(g)
    ensures var (g1, c) := CreateAbortController(g, id);
      var (g2, ok) := Abort(g1, id);
      ok && g2.aborted == g.aborted + {c} && id !in g2.controllers
      && (id in g.controllers ==> g.controllers[id] !in g2.aborted)
  {
  }
}

=== FILE: ordering.dfy ===
/** Python's ordering of `str` values (code point by code point, a proper
    prefix first) and a sort by string key, as `sorted(xs, key=...)` produces. */
module Ordering {
  import opened Seqs

  /** `a <= b` on Python strings. */
  predicate Le(a: string, b: string)
    decreases |a|
  {
    |a| == 0 || (|b| > 0 && (a[0] < b[0] || (a[0] == b[0] && Le(a[1..], b[1..]))))
  }

  /** `a < b` on Python strings. */
  predicate Lt(a: string, b: string) {
    Le(a, b) && a != b
  }

  lemma {:induction false} LeRefl(a: string)
    ensures Le(a, a)
    decreases |a|
  {
    if |a| > 0 {
      LeRefl(a[1..]);
    }
  }

  lemma {:induction false} LeTrans(a: string, b: string, c: string)
    requires Le(a, b) && Le(b, c)
    ensures Le(a, c)
    decreases |a|
  {
    if |a| > 0 && a[0] == b[0] && b[0] == c[0] {
      LeTrans(a[1..], b[1..], c[1..]);
    }
  }

  lemma {:induction false} LeTotal(a: string, b: string)
    ensures Le(a, b) || Le(b, a)
    decreases |a|
  {
    if |a| > 0 && |b| > 0 && a[0] == b[0] {
      LeTotal(a[1..], b[1..]);
    }
  }

  lemma {:induction false} LeAntisym(a: string, b: string)
    requires Le(a, b) && Le(b, a)
    ensures a == b
    decreases |a|
  {
    if |a| > 0 {
      LeAntisym(a[1..], b[1..]);
      assert a == [a[0]] + a[1..] && b == [b[0]] + b[1..];
    }
  }

  /** A common prefix does not change the order. */
  lemma {:induction false} LeCommonPrefix(p: string, a: string, b: string)
    requires Le(a, b)
    ensures Le(p + a, p + b)
    decreases |p|
  {
    if |p| > 0 {
      LeCommonPrefix(p[1..], a, b);
      assert (p + a)[0] == p[0] == (p + b)[0];
      assert (p + a)[1..] == p[1..] + a && (p + b)[1..] == p[1..] + b;
    } else {
      assert p + a == a && p + b == b;
    }
  }

  /** Ordered by key, smallest first. */
  ghost predicate SortedBy<T>(xs: seq<T>, key: T -> string) {
    forall i, j | 0 <= i < j < |xs| :: Le(key(xs[i]), key(xs[j]))
  }

  /** Ordered by key with no two equal keys. */
  ghost predicate StrictlySortedBy<T>(xs: seq<T>, key: T -> string) {
    forall i, j | 0 <= i < j < |xs| :: Lt(key(xs[i]), key(xs[j]))
  }

  function Insert<T>(x: T, xs: seq<T>, key: T -> string): (r: seq<T>)
    requires SortedBy(xs, key)
    ensures SortedBy(r, key)
    ensures multiset(r) == multiset(xs) + multiset{x}
    ensures |r| == |xs| + 1
    decreases |xs|
  {
    if |xs| == 0 then [x]
    else if Le(key(x), key(xs[0])) then
      InsertFront(x, xs, key);
      [x] + xs
    else
      LeTotal(key(x), key(xs[0]));
      var tail := Insert(x, xs[1..], key);
      InsertBehind(xs[0], tail, x, xs[1..], key);
      assert xs == [xs[0]] + xs[1..];
      [xs[0]] + tail
  }

  lemma InsertFront<T>(x: T, xs: seq<T>, key: T -> string)
    requires SortedBy(xs, key) && |xs| > 0 && Le(key(x), key(xs[0]))
    ensures SortedBy([x] + xs, key)
  {
    var r := [x] + xs;
    forall i, j | 0 <= i < j < |r|
      ensures Le(key(r[i]), key(r[j]))
    {
      if i == 0 {
        assert r[0] == x && r[j] == xs[j - 1];
        if j > 1 {
          assert Le(key(xs[0]), key(xs[j - 1]));
          LeTrans(key(x), key(xs[0]), key(xs[j - 1]));
        }
      } else {
        assert r[i] == xs[i - 1] && r[j] == xs[j - 1];
      }
    }
  }

  lemma InsertBehind<T>(h: T, tail: seq<T>, x: T, rest: seq<T>, key: T -> string)
    requires SortedBy(tail, key) && SortedBy([h] + rest, key)
    requires multiset(tail) == multiset(rest) + multiset{x}
    requires Le(key(h), key(x))
    ensures SortedBy([h] + tail, key)
  {
    var r := [h] + tail;
    forall i, j | 0 <= i < j < |r|
      ensures Le(key(r[i]), key(r[j]))
    {
      if i == 0 {
        var y := tail[j - 1];
        assert r[0] == h && r[j] == y;
        assert y in multiset(tail);
        if y != x {
          assert y in multiset(rest);
          var k :| 0 <= k < |rest| && rest[k] == y;
          assert ([h] + rest)[0] == h && ([h] + rest)[k + 1] == y;
        }
      } else {
        assert r[i] == tail[i - 1] && r[j] == tail[j - 1];
      }
    }
  }

  /** Insertion sort by key: a permutation of the input, ordered by key. */
  function SortBy<T>(xs: seq<T>, key: T -> string): (r: seq<T>)
    ensures SortedBy(r, key)
    ensures multiset(r) == multiset(xs)
    ensures |r| == |xs|
    decreases |xs|
  {
    if |xs| == 0 then []
    else
      assert xs == [xs[0]] + xs[1..];
      Insert(xs[0], SortBy(xs[1..], key), key)
  }

  /** A sorted list whose keys are pairwise distinct is strictly sorted. */
  lemma SortedDistinctIsStrict<T>(xs: seq<T>, key: T -> string)
    requires SortedBy(xs, key)
    requires forall i, j | 0 <= i < j < |xs| :: key(xs[i]) != key(xs[j])
    ensures StrictlySortedBy(xs, key)
  {
  }

  /** The multiset of a non-empty list's tail is the list's multiset without its head. */
  lemma TailMultiset<T>(a: seq<T>)
    requires |a| > 0
    ensures multiset(a[1..]) == multiset(a) - multiset{a[0]}
  {
    assert a == [a[0]] + a[1..];
  }

  /** Two strictly sorted lists holding the same elements start alike. */
  lemma HeadsAgree<T>(a: seq<T>, b: seq<T>, key: T -> string)
    requires StrictlySortedBy(a, key) && StrictlySortedBy(b, key)
    requires multiset(a) == multiset(b) && |a| > 0
    ensures |b| > 0 && a[0] == b[0]
  {
    assert a[0] in multiset(b) && |b| > 0 && b[0] in multiset(a);
    var i :| 0 <= i < |b| && b[i] == a[0];
    var j :| 0 <= j < |a| && a[j] == b[0];
    if i != 0 && j != 0 {
      assert Lt(key(b[0]), key(a[0])) && Lt(key(a[0]), key(b[0]));
      LeAntisym(key(a[0]), key(b[0]));
    }
  }

  /** Two strictly sorted lists holding the same elements are equal: the
      sorted result does not depend on the order the input arrived in. */
  lemma {:induction false} StrictlySortedUnique<T>(a: seq<T>, b: seq<T>, key: T -> string)
    requires StrictlySortedBy(a, key) && StrictlySortedBy(b, key)
    requires multiset(a) == multiset(b)
    ensures a == b
    decreases |a|
  {
    if |a| > 0 {
      HeadsAgree(a, b, key);
      TailMultiset(a);
      TailMultiset(b);
      StrictlySortedUnique(a[1..], b[1..], key);
      assert a == [a[0]] + a[1..] && b == [b[0]] + b[1..];
    }
  }

  /** Dropping elements from a sorted list leaves it sorted. */
  lemma {:induction false} FilterKeepsSorted<T>(xs: seq<T>, p: T -> bool, key: T -> string)
    requires SortedBy(xs, key)
    ensures SortedBy(Filter(xs, p), key)
    decreases |xs|
  {
    if |xs| > 0 {
      FilterKeepsSorted(xs[1..], p, key);
      var rest := Filter(xs[1..], p);
      if p(xs[0]) {
        forall i, j | 0 <= i < j < |[xs[0]] + rest|
          ensures Le(key(([xs[0]] + rest)[i]), key(([xs[0]] + rest)[j]))
        {
          if i == 0 {
            var y := rest[j - 1];
            assert y in xs[1..];
            var k :| 0 <= k < |xs[1..]| && xs[1..][k] == y;
            assert xs[k + 1] == y;
          } else {
            assert ([xs[0]] + rest)[i] == rest[i - 1];
          }
        }
      }
    }
  }

  /** Sorting the elements a filter keeps: exactly the kept elements remain. */
  lemma SortFilterMembers<T>(xs: seq<T>, p: T -> bool, key: T -> string)
    ensures var r := SortBy(Filter(xs, p), key);
      forall i | 0 <= i < |r| :: r[i] in xs && p(r[i])
    ensures var r := SortBy(Filter(xs, p), key);
      forall i | 0 <= i < |xs| :: p(xs[i]) ==> xs[i] in r
  {
    var kept := Filter(xs, p);
    var r := SortBy(kept, key);
    forall i | 0 <= i < |r|
      ensures r[i] in xs && p(r[i])
    {
      assert r[i] in multiset(r);
      assert r[i] in multiset(kept);
      assert r[i] in kept;
    }
    forall i | 0 <= i < |xs| && p(xs[i])
      ensures xs[i] in r
    {
      assert xs[i] in kept;
      assert xs[i] in multiset(kept);
      assert xs[i] in multiset(r);
    }
  }
}

=== FILE: seqs.dfy ===
/** List comprehensions with a condition (`[x for x in xs if p(x)]`). */
module Seqs {

  /** The elements of `xs` satisfying `p`, in their original order. */
  function Filter<T>(xs: seq<T>, p: T -> bool): (r: seq<T>)
    ensures |r| <= |xs|
    ensures forall i | 0 <= i < |r| :: r[i] in xs && p(r[i])
    ensures forall i | 0 <= i < |xs| :: p(xs[i]) ==> xs[i] in r
    ensures multiset(r) <= multiset(xs)
    decreases |xs|
  {
    if |xs| == 0 then []
    else
      assert xs == [xs[0]] + xs[1..];
      if p(xs[0]) then [xs[0]] + Filter(xs[1..], p)
      else Filter(xs[1..], p)
  }

  lemma {:induction false} FilterAll<T>(xs: seq<T>, p: T -> bool)
    requires forall i | 0 <= i < |xs| :: p(xs[i])
    ensures Filter(xs, p) == xs
    decreases |xs|
  {
    if |xs| > 0 {
      FilterAll(xs[1..], p);
      assert xs == [xs[0]] + xs[1..];
    }
  }

  /** Filtering distributes over concatenation. */
  lemma {:induction false} FilterAppend<T>(xs: seq<T>, ys: seq<T>, p: T -> bool)
    ensures Filter(xs + ys, p) == Filter(xs, p) + Filter(ys, p)
    decreases |xs|
  {
    if |xs| > 0 {
      assert (xs + ys)[1..] == xs[1..] + ys;
      FilterAppend(xs[1..], ys, p);
    } else {
      assert xs + ys == ys;
    }
  }

  /** Filtering on the disjoint union of two conditions collects, as a
      multiset, what filtering on each collects. */
  lemma {:induction false} FilterDisjointUnion<T>(xs: seq<T>, both: T -> bool, p: T -> bool, q: T -> bool)
    requires forall x :: both(x) <==> p(x) || q(x)
    requires forall x :: !(p(x) && q(x))
    ensures multiset(Filter(xs, both)) == multiset(Filter(xs, p)) + multiset(Filter(xs, q))
    decreases |xs|
  {
    if |xs| > 0 {
      FilterDisjointUnion(xs[1..], both, p, q);
    }
  }

  /** Filtering keeps every occurrence of an element that passes and none of
      one that fails. */
  lemma {:induction false} FilterMultiset<T>(xs: seq<T>, p: T -> bool, x: T)
    ensures multiset(Filter(xs, p))[x] == if p(x) then multiset(xs)[x] else 0
    decreases |xs|
  {
    if |xs| > 0 {
      FilterMultiset(xs[1..], p, x);
      assert xs == [xs[0]] + xs[1..];
    }
  }

  /** Occurrences of `x` in `xs`. */
  function Count<T(==)>(xs: seq<T>, x: T): nat {
    multiset(xs)[x]
  }

  /** No element occurs twice. */
  predicate Distinct<T(==)>(xs: seq<T>) {
    forall i, j | 0 <= i < j < |xs| :: xs[i] != xs[j]
  }

  lemma {:induction false} DistinctCount<T>(xs: seq<T>, x: T)
    ensures Distinct(xs) ==> Count(xs, x) <= 1
    decreases |xs|
  {
    if |xs| > 0 && Distinct(xs) {
      DistinctCount(xs[1..], x);
      assert xs == [xs[0]] + xs[1..];
      if xs[0] == x {
        assert x !in xs[1..];
      }
    }
  }

  lemma DistinctTail<T>(xs: seq<T>)
    requires |xs| > 0 && Distinct(xs)
    ensures Distinct(xs[1..])
  {
    forall i, j | 0 <= i < j < |xs| - 1 ensures xs[1..][i] != xs[1..][j] {
      assert xs[1..][i] == xs[i + 1] && xs[1..][j] == xs[j + 1];
    }
  }

  /** Reordering a list cannot create a duplicate. */
  lemma PermutationKeepsDistinct<T>(a: seq<T>, b: seq<T>)
    requires multiset(a) == multiset(b) && Distinct(a)
    ensures Distinct(b)
  {
    forall i, j | 0 <= i < j < |b|
      ensures b[i] != b[j]
    {
      if b[i] == b[j] {
        var x := b[i];
        assert b == b[..j] + b[j..];
        assert b[..j][i] == x && b[j..][0] == x;
        assert multiset(b)[x] == multiset(b[..j])[x] + multiset(b[j..])[x];
        DistinctCount(a, x);
        assert false;
      }
    }
  }
}

=== FILE: strings.dfy ===
/** Character and string helpers shared by the model: ASCII case mapping,
    substring search, trimming, decimal rendering, splitting and joining. */
module Strings {

  predicate IsUpper(c: char) { 'A' <= c <= 'Z' }
  predicate IsLower(c: char) { 'a' <= c <= 'z' }
  predicate IsLetter(c: char) { IsUpper(c) || IsLower(c) }
  predicate IsDigit(c: char) { '0' <= c <= '9' }

  /** Whitespace removed by Python's `str.strip()` with no argument: the
      characters `str.isspace()` accepts, that is tab through carriage return,
      the four information separators, the blank, next line, no-break space,
      and the Unicode space separators, line and paragraph separators. */
  predicate IsSpace(c: char) {
    ('\U{9}' <= c <= '\U{D}') || ('\U{1C}' <= c <= '\U{20}')
    || c == '\U{85}' || c == '\U{A0}' || c == '\U{1680}'
    || ('\U{2000}' <= c <= '\U{200A}') || c == '\U{2028}' || c == '\U{2029}'
    || c == '\U{202F}' || c == '\U{205F}' || c == '\U{3000}'
  }

  function LowerChar(c: char): (r: char)
    ensures IsUpper(c) ==> IsLower(r) && r as int == c as int + 32
    ensures !IsUpper(c) ==> r == c
  {
    if IsUpper(c) then (c as int + 32) as char else c
  }

  function UpperChar(c: char): (r: char)
    ensures IsLower(c) ==> IsUpper(r) && r as int + 32 == c as int
    ensures !IsLower(c) ==> r == c
  {
    if IsLower(c) then (c as int - 32) as char else c
  }

  /** `str.lower()` restricted to ASCII letters. */
  function Lower(s: string): (r: string)
    ensures |r| == |s|
    ensures forall i | 0 <= i < |s| :: r[i] == LowerChar(s[i])
  {
    seq(|s|, i requires 0 <= i < |s| => LowerChar(s[i]))
  }

  lemma LowerIdempotent(s: string)
    ensures Lower(Lower(s)) == Lower(s)
  {
  }

  lemma LowerAppend(a: string, b: string)
    ensures Lower(a + b) == Lower(a) + Lower(b)
  {
  }

  /** `t in s` for strings: `t` occurs as a contiguous substring of `s`. */
  predicate Contains(s: string, t: string) {
    exists i | 0 <= i <= |s| :: t <= s[i..]
  }

  lemma ContainsAt(s: string, t: string, i: nat)
    requires i <= |s| && t <= s[i..]
    ensures Contains(s, t)
  {
  }

  lemma ContainsPrefix(s: string, t: string)
    requires t <= s
    ensures Contains(s, t)
  {
    ContainsAt(s, t, 0);
  }

  /** Every string contains the empty string (so an empty search keeps everything). */
  lemma ContainsEmpty(s: string)
    ensures Contains(s, "")
  {
    ContainsAt(s, "", 0);
  }

  /** Drops the trailing characters satisfying `p` (`str.rstrip(chars)`). */
  function TrimEnd(s: string, p: char -> bool): (r: string)
    ensures r <= s
    ensures |r| > 0 ==> !p(r[|r| - 1])
    ensures forall i | |r| <= i < |s| :: p(s[i])
    decreases |s|
  {
    if |s| > 0 && p(s[|s| - 1]) then TrimEnd(s[..|s| - 1], p) else s
  }

  /** Drops the leading characters satisfying `p` (`str.lstrip(chars)`). */
  function TrimStart(s: string, p: char -> bool): (r: string)
    ensures |r| <= |s| && r == s[|s| - |r|..]
    ensures |r| > 0 ==> !p(r[0])
    ensures forall i | 0 <= i < |s| - |r| :: p(s[i])
    decreases |s|
  {
    if |s| > 0 && p(s[0]) then
      TrimStartStep(s, p)
    else s
  }

  /** One step of `TrimStart`: the first character is dropped. */
  function TrimStartStep(s: string, p: char -> bool): (r: string)
    requires |s| > 0 && p(s[0])
    ensures |r| < |s| && r == s[|s| - |r|..]
    ensures |r| > 0 ==> !p(r[0])
    ensures forall i | 0 <= i < |s| - |r| :: p(s[i])
    decreases |s|, 0
  {
    var t := TrimStart(s[1..], p);
    assert s[1..][|s| - 1 - |t|..] == s[|s| - |t|..];
    assert forall i | 1 <= i < |s| - |t| :: s[i] == s[1..][i - 1];
    t
  }

  /** Drops both ends (`str.strip(chars)`). */
  function Trim(s: string, p: char -> bool): string {
    TrimStart(TrimEnd(s, p), p)
  }

  /** `str.strip()` with no argument. */
  function Strip(s: string): string {
    Trim(s, IsSpace)
  }

  /** The stripped string is empty exactly when every character is whitespace. */
  lemma StripEmptyIff(s: string)
    ensures Strip(s) == "" <==> forall i | 0 <= i < |s| :: IsSpace(s[i])
  {
    var e := TrimEnd(s, IsSpace);
    if Strip(s) == "" {
      assert e == "";
    } else {
      var r := Strip(s);
      var k := |e| - |r|;
      assert r[0] == e[k] == s[k];
    }
  }

  /** Replaces every occurrence of character `a` by `b`. */
  function ReplaceChar(s: string, a: char, b: char): (r: string)
    ensures |r| == |s|
    ensures forall i | 0 <= i < |s| :: r[i] == (if s[i] == a then b else s[i])
  {
    seq(|s|, i requires 0 <= i < |s| => if s[i] == a then b else s[i])
  }

  /** Python's `str.replace(pat, rep)`: non-overlapping, left to right. */
  function ReplaceAll(s: string, pat: string, rep: string): string
    requires |pat| > 0
    decreases |s|
  {
    if |s| < |pat| then s
    else if pat <= s then rep + ReplaceAll(s[|pat|..], pat, rep)
    else [s[0]] + ReplaceAll(s[1..], pat, rep)
  }

  /** Python's `str.title()` on ASCII: a letter is upper-cased when the previous
      character is not a letter, and lower-cased otherwise. */
  function Title(s: string): string {
    TitleAfter(s, false)
  }

  function TitleAfter(s: string, afterLetter: bool): (r: string)
    ensures |r| == |s|
    decreases |s|
  {
    if |s| == 0 then ""
    else
      var c := if afterLetter then LowerChar(s[0]) else UpperChar(s[0]);
      [c] + TitleAfter(s[1..], IsLetter(s[0]))
  }

  /** `str.title()`'s rule: a letter is upper-cased at the start or after a
      non-letter and lower-cased after a letter; other characters are kept. */
  lemma {:induction false} TitleAfterRule(s: string, afterLetter: bool)
    ensures forall i | 0 <= i < |s| ::
      TitleAfter(s, afterLetter)[i] == (if (i == 0 && afterLetter) || (i > 0 && IsLetter(s[i - 1])) then LowerChar(s[i]) else UpperChar(s[i]))
    decreases |s|
  {
    if |s| > 0 {
      TitleAfterRule(s[1..], IsLetter(s[0]));
      var r := TitleAfter(s, afterLetter);
      forall i | 1 <= i < |s|
        ensures r[i] == (if IsLetter(s[i - 1]) then LowerChar(s[i]) else UpperChar(s[i]))
      {
        assert r[i] == TitleAfter(s[1..], IsLetter(s[0]))[i - 1];
        assert s[1..][i - 1] == s[i];
        if i > 1 {
          assert s[1..][i - 2] == s[i - 1];
        }
      }
    }
  }

  /** `str.title()` on the whole string. */
  lemma TitleRule(s: string)
    ensures |Title(s)| == |s|
    ensures forall i | 0 <= i < |s| ::
      Title(s)[i] == (if i > 0 && IsLetter(s[i - 1]) then LowerChar(s[i]) else UpperChar(s[i]))
  {
    TitleAfterRule(s, false);
  }

  function DigitChar(d: nat): (c: char)
    requires d < 10
    ensures IsDigit(c)
  {
    ('0' as int + d) as char
  }

  /** Decimal rendering of a natural number, as `str(n)` / f-strings print it. */
  function NatToString(n: nat): (r: string)
    ensures |r| >= 1
    ensures forall i | 0 <= i < |r| :: IsDigit(r[i])
    ensures n >= 10 <==> |r| >= 2
    decreases n
  {
    if n < 10 then [DigitChar(n)] else NatToString(n / 10) + [DigitChar(n % 10)]
  }

  /** Distinct numbers print differently. */
  lemma {:induction false} NatToStringInjective(m: nat, n: nat)
    requires NatToString(m) == NatToString(n)
    ensures m == n
    decreases m
  {
    var a, b := NatToString(m), NatToString(n);
    if m >= 10 {
      assert n >= 10;
      assert a[..|a| - 1] == NatToString(m / 10);
      assert b[..|b| - 1] == NatToString(n / 10);
      NatToStringInjective(m / 10, n / 10);
      assert DigitChar(m % 10) == a[|a| - 1] == b[|b| - 1] == DigitChar(n % 10);
    } else {
      assert n < 10;
      assert DigitChar(m) == a[0] == b[0] == DigitChar(n);
    }
  }

  /** Decimal rendering of an integer, with a leading '-' when negative. */
  function IntToString(i: int): (r: string)
    ensures |r| >= 1
    ensures i >= 0 ==> r == NatToString(i)
    ensures i < 0 ==> r == "-" + NatToString(-i)
  {
    if i < 0 then "-" + NatToString(-i) else NatToString(i)
  }

  function IndexOf(s: string, d: char): (k: nat)
    requires d in s
    ensures k < |s| && s[k] == d && d !in s[..k]
  {
    if s[0] == d then 0 else 1 + IndexOf(s[1..], d)
  }

  /** `s.split(d)` for a one-character separator: always at least one part,
      and no part contains the separator. */
  function Split(s: string, d: char): (parts: seq<string>)
    ensures |parts| >= 1
    ensures forall j | 0 <= j < |parts| :: d !in parts[j]
    decreases |s|
  {
    if d in s then
      var k := IndexOf(s, d);
      [s[..k]] + Split(s[k + 1..], d)
    else [s]
  }

  /** `d.join(parts)`. */
  function Join(parts: seq<string>, d: char): string
    decreases |parts|
  {
    if |parts| == 0 then ""
    else if |parts| == 1 then parts[0]
    else parts[0] + [d] + Join(parts[1..], d)
  }

  /** Splitting then joining on the same separator restores the string. */
  lemma {:induction false} JoinSplit(s: string, d: char)
    ensures Join(Split(s, d), d) == s
    decreases |s|
  {
    if d in s {
      var k := IndexOf(s, d);
      var head, tail := s[..k], s[k + 1..];
      var rest := Split(tail, d);
      assert Split(s, d) == [head] + rest;
      JoinSplit(tail, d);
      JoinCons(head, rest, d);
      assert s == head + [d] + tail;
    }
  }

  lemma JoinCons(p: string, rest: seq<string>, d: char)
    requires |rest| >= 1
    ensures Join([p] + rest, d) == p + [d] + Join(rest, d)
  {
    assert ([p] + rest)[1..] == rest;
  }

  /** Joining the first `n` parts of a split gives a prefix of the string. */
  lemma {:induction false} JoinSplitPrefix(s: string, d: char, n: nat)
    requires n <= |Split(s, d)|
    ensures Join(Split(s, d)[..n], d) <= s
    decreases |s|
  {
    if n > 0 && d in s {
      var k := IndexOf(s, d);
      var head, tail := s[..k], s[k + 1..];
      var rest := Split(tail, d);
      assert Split(s, d) == [head] + rest;
      assert s == head + [d] + tail;
      if n == 1 {
        assert Split(s, d)[..n] == [head];
      } else {
        var front := Join(rest[..n - 1], d);
        assert front <= tail by {
          JoinSplitPrefix(tail, d, n - 1);
        }
        assert Join(Split(s, d)[..n], d) == head + [d] + front by {
          assert Split(s, d)[..n] == [head] + rest[..n - 1];
          JoinCons(head, rest[..n - 1], d);
        }
        PrefixAfter(head + [d], front, tail);
      }
    } else if n > 0 {
      assert Split(s, d)[..n] == [s];
    }
  }

  /** A common start keeps a prefix a prefix. */
  lemma PrefixAfter(a: string, b: string, c: string)
    requires b <= c
    ensures a + b <= a + c
  {
    assert (a + c)[..|a + b|] == a + c[..|b|];
  }

  lemma {:induction false} IndexOfFirst(p: string, d: char, rest: string)
    requires d !in p
    ensures IndexOf(p + [d] + rest, d) == |p|
    decreases |p|
  {
    if |p| > 0 {
      assert (p + [d] + rest)[1..] == p[1..] + [d] + rest;
      IndexOfFirst(p[1..], d, rest);
    }
  }

  /** Joining parts that do not contain the separator, then splitting, gives
      the parts back. */
  lemma {:induction false} SplitJoin(parts: seq<string>, d: char)
    requires |parts| >= 1
    requires forall j | 0 <= j < |parts| :: d !in parts[j]
    ensures Split(Join(parts, d), d) == parts
    decreases |parts|
  {
    if |parts| > 1 {
      var head, rest := parts[0], parts[1..];
      var s := Join(parts, d);
      assert s == head + [d] + Join(rest, d);
      IndexOfFirst(head, d, Join(rest, d));
      assert s[..|head|] == head && s[|head| + 1..] == Join(rest, d);
      SplitJoin(rest, d);
      assert parts == [head] + rest;
    }
  }
}

=== FILE: tunnel.dfy ===
/** `vibeproxy_manager/tunnel.py`: how `TunnelManager` launches, reports and
    stops the SSH port forward to the Mac, and the subnet scan for hosts that
    answer on the VibeProxy or SSH port. Sockets, processes and the clock are
    parameters: whether the port listens before and after a launch, what the
    launched process did, and what each probe answered. */
module Tunnel {
  import opened Wrappers
  import opened Strings
  import opened Seqs
  import opened Ordering
  import opened Config

  datatype Platform = Windows | Posix

  /** `f"{mac_user}@{mac_ip}"`. */
  function SshTarget(c: VibeProxyConfig): string {
    c.macUser + "@" + c.macIp
  }

  /** `f"{local_port}:localhost:{remote_port}"`. */
  function LocalForward(c: VibeProxyConfig): string {
    IntToString(c.localPort) + ":localhost:" + IntToString(c.remotePort)
  }

  /** A rendered integer holds only digits and a leading minus sign. */
  lemma NumberCharacters(i: int)
    ensures forall k | 0 <= k < |IntToString(i)| :: IsDigit(IntToString(i)[k]) || IntToString(i)[k] == '-'
  {
    var r := IntToString(i);
    if i < 0 {
      var n := NatToString(-i);
      assert r == ['-'] + n;
      assert forall k | 1 <= k < |r| :: r[k] == n[k - 1];
    }
  }

  lemma NoColonInNumber(i: int)
    ensures ':' !in IntToString(i) && ' ' !in IntToString(i)
  {
    NumberCharacters(i);
  }

  /** The forward splits back into local port, `localhost` and remote port. */
  lemma ForwardParts(c: VibeProxyConfig)
    ensures Split(LocalForward(c), ':') == [IntToString(c.localPort), "localhost", IntToString(c.remotePort)]
  {
    var parts := [IntToString(c.localPort), "localhost", IntToString(c.remotePort)];
    NoColonInNumber(c.localPort);
    NoColonInNumber(c.remotePort);
    JoinCons(parts[0], parts[1..], ':');
    JoinCons(parts[1], parts[2..], ':');
    assert parts[1..] == [parts[1]] + parts[2..];
    assert Join(parts, ':') == LocalForward(c);
    SplitJoin(parts, ':');
  }

  /** `start_in_terminal`: the command the user can run by hand. */
  function StartInTerminal(c: VibeProxyConfig): string {
    "ssh -N -L " + LocalForward(c) + " " + SshTarget(c)
  }

  /** When user and address hold no blank, the manual command splits into
      `ssh`, `-N`, `-L`, the forward and the target, in that order. */
  lemma ManualCommandParts(c: VibeProxyConfig)
    requires ' ' !in c.macUser && ' ' !in c.macIp
    ensures Split(StartInTerminal(c), ' ') == ["ssh", "-N", "-L", LocalForward(c), SshTarget(c)]
  {
    NoBlankInForward(c);
    ManualCommandJoined(c);
    SplitJoin(["ssh", "-N", "-L", LocalForward(c), SshTarget(c)], ' ');
  }

  /** The manual command is its five parts joined by blanks. */
  lemma ManualCommandJoined(c: VibeProxyConfig)
    ensures Join(["ssh", "-N", "-L", LocalForward(c), SshTarget(c)], ' ') == StartInTerminal(c)
  {
    JoinFive("ssh", "-N", "-L", LocalForward(c), SshTarget(c), ' ');
    assert "ssh" + " " + "-N" + " " + "-L" + " " == "ssh -N -L ";
  }

  lemma JoinFive(a: string, b: string, c: string, d: string, e: string, sep: char)
    ensures Join([a, b, c, d, e], sep) == a + [sep] + b + [sep] + c + [sep] + d + [sep] + e
  {
    JoinCons(d, [e], sep);
    assert [d, e] == [d] + [e];
    JoinCons(c, [d, e], sep);
    assert [c, d, e] == [c] + [d, e];
    JoinCons(b, [c, d, e], sep);
    assert [b, c, d, e] == [b] + [c, d, e];
    JoinCons(a, [b, c, d, e], sep);
    assert [a, b, c, d, e] == [a] + [b, c, d, e];
  }

  lemma NoBlankInForward(c: VibeProxyConfig)
    ensures ' ' !in LocalForward(c)
  {
    NoColonInNumber(c.localPort);
    NoColonInNumber(c.remotePort);
    var f := LocalForward(c);
    var a := IntToString(c.localPort);
    var m := ":localhost:";
    assert f == a + m + IntToString(c.remotePort);
    assert ' ' !in m;
  }

  // ---- start --------------------------------------------------------------

  /** The three launch branches of `start`. */
  datatype Launch = SshPass | WindowsBackground | KeyAuth

  /** sshpass is used exactly when a password is set and the platform is not
      Windows; Windows always starts a background process. */
  function ChooseLaunch(password: string, platform: Platform): (l: Launch)
    ensures l == SshPass <==> password != "" && platform == Posix
    ensures l == WindowsBackground <==> platform == Windows
  {
    if password != "" && platform.Posix? then SshPass
    else if platform.Windows? then WindowsBackground
    else KeyAuth
  }

  /** The argument vector of each branch. */
  function LaunchArgv(l: Launch, sshExe: string, password: string, forward: string, target: string): (argv: seq<string>)
    ensures |argv| >= 4 && argv[|argv| - 3..] == ["-L", forward, target]
    ensures l == SshPass ==> argv[..4] == ["sshpass", "-p", password, sshExe]
    ensures l != SshPass ==> argv[0] == sshExe && "BatchMode=yes" in argv
    ensures l == WindowsBackground <==> argv[1] == "-N"
  {
    match l
    case SshPass =>
      ["sshpass", "-p", password, sshExe, "-fN", "-o", "StrictHostKeyChecking=no",
       "-o", "UserKnownHostsFile=/dev/null", "-L", forward, target]
    case WindowsBackground =>
      [sshExe, "-N", "-o", "StrictHostKeyChecking=no", "-o", "BatchMode=yes", "-L", forward, target]
    case KeyAuth =>
      [sshExe, "-fN", "-o", "StrictHostKeyChecking=no", "-o", "BatchMode=yes", "-L", forward, target]
  }

  /** What `subprocess.run(..., timeout=10)` did: the process exited, the
      timeout expired, the executable was missing, or something else raised. */
  datatype RunOutcome =
    | Exited(code: int, stdout: string, stderr: string)
    | RunTimeout
    | RunFileNotFound(error: string)
    | RunRaised(error: string)

  /** What the Windows background process did after the two-second wait:
      `stderr` is empty when the process wrote nothing. */
  datatype SpawnOutcome =
    | Died(stderr: string)
    | Alive
    | SpawnFileNotFound(error: string)
    | SpawnRaised(error: string)

  /** Every return of `start`, one constructor per distinct message. */
  datatype StartOutcome =
    | AlreadyRunning
    | NoSsh
    | Started(port: int)
    | NotListening(platform: Platform)
    | SshFailed(error: string)
    | ConnectTimeout
    | SshpassMissing
    | CommandNotFound(error: string)
    | Raised(error: string)
    | UnexpectedPath

  predicate Succeeded(o: StartOutcome) {
    o.AlreadyRunning? || o.Started?
  }

  /** The message of each outcome. */
  function Message(o: StartOutcome): string {
    match o
    case AlreadyRunning => "Tunnel already running"
    case NoSsh => "SSH not found - install OpenSSH or Git for Windows"
    case Started(port) => "Tunnel started on port " + IntToString(port)
    case NotListening(Windows) => "SSH process started but port not listening"
    case NotListening(Posix) => "Tunnel process started but port not listening"
    case SshFailed(error) => "SSH failed: " + error
    case ConnectTimeout => "SSH connection timeout"
    case SshpassMissing => "sshpass not found - install it or use key-based auth"
    case CommandNotFound(error) => "Command not found: " + error
    case Raised(error) => error
    case UnexpectedPath => "Unexpected code path"
  }

  /** `start`'s `(success, message)` pair. */
  function Reply(o: StartOutcome): (bool, string) {
    (Succeeded(o), Message(o))
  }

  /** A missing executable: the sshpass hint when the error names sshpass. */
  function NotFound(error: string): (o: StartOutcome)
    ensures o == SshpassMissing <==> Contains(error, "sshpass")
    ensures o != SshpassMissing ==> o == CommandNotFound(error)
  {
    if Contains(error, "sshpass") then SshpassMissing else CommandNotFound(error)
  }

  /** The reason given for a failed exit on Unix: stripped stderr, else stripped
      stdout, else "Unknown error". It is never empty. */
  function PosixError(stdout: string, stderr: string): (e: string)
    ensures e != ""
    ensures Strip(stderr) != "" ==> e == Strip(stderr)
    ensures Strip(stderr) == "" && Strip(stdout) != "" ==> e == Strip(stdout)
    ensures Strip(stderr) == "" && Strip(stdout) == "" ==> e == "Unknown error"
  {
    if Strip(stderr) != "" then Strip(stderr)
    else if Strip(stdout) != "" then Strip(stdout)
    else "Unknown error"
  }

  /** The reason given when the Windows process died: "Unknown error" only when
      it wrote nothing at all; otherwise its stripped output, which may be empty. */
  function WindowsError(stderr: string): (e: string)
    ensures stderr == "" ==> e == "Unknown error"
    ensures stderr != "" ==> e == Strip(stderr)
  {
    if stderr == "" then "Unknown error" else Strip(stderr)
  }

  /** A Windows process that wrote only blanks is reported with an empty reason. */
  lemma BlankStderrGivesEmptyReason()
    ensures Message(SshFailed(WindowsError(" \n"))) == "SSH failed: "
  {
    StripEmptyIff(" \n");
  }

  /** How a launch through `subprocess.run` ends on Unix: a zero exit succeeds
      when the port then listens; a non-zero exit reports the process output;
      the three exception handlers give their own outcomes. */
  function PosixOutcome(port: int, run: RunOutcome, listeningAfter: bool): (o: StartOutcome)
    ensures run.Exited? && run.code == 0 && listeningAfter ==> o == Started(port)
    ensures run.Exited? && run.code == 0 && !listeningAfter ==> o == NotListening(Posix)
    ensures run.Exited? && run.code != 0 ==> o == SshFailed(PosixError(run.stdout, run.stderr))
    ensures run.RunTimeout? ==> o == ConnectTimeout
    ensures run.RunFileNotFound? ==> o == NotFound(run.error)
    ensures run.RunRaised? ==> o == Raised(run.error)
  {
    match run
    case RunTimeout => ConnectTimeout
    case RunFileNotFound(e) => NotFound(e)
    case RunRaised(e) => Raised(e)
    case Exited(code, stdout, stderr) =>
      if code == 0 then
        if listeningAfter then Started(port) else NotListening(Posix)
      else SshFailed(PosixError(stdout, stderr))
  }

  /** How the Windows background launch ends: a process that died reports its
      output; a live one succeeds when the port listens; the exception
      handlers give their own outcomes. */
  function WindowsOutcome(port: int, spawn: SpawnOutcome, listeningAfter: bool): (o: StartOutcome)
    ensures spawn.Alive? && listeningAfter ==> o == Started(port)
    ensures spawn.Alive? && !listeningAfter ==> o == NotListening(Windows)
    ensures spawn.Died? ==> o == SshFailed(WindowsError(spawn.stderr))
    ensures spawn.SpawnFileNotFound? ==> o == NotFound(spawn.error)
    ensures spawn.SpawnRaised? ==> o == Raised(spawn.error)
  {
    match spawn
    case SpawnFileNotFound(e) => NotFound(e)
    case SpawnRaised(e) => Raised(e)
    case Died(stderr) => SshFailed(WindowsError(stderr))
    case Alive => if listeningAfter then Started(port) else NotListening(Windows)
  }

  /** One call of `start` and, when it launched something, the argument vector. */
  datatype StartAttempt = StartAttempt(outcome: StartOutcome, launched: Option<seq<string>>)

  /** `start`. `listeningBefore` and `listeningAfter` are the two `is_running`
      probes, `sshExe` what `find_ssh` found, `run` and `spawn` what the
      launched process did on Unix and on Windows. */
  function Start(c: VibeProxyConfig, platform: Platform, listeningBefore: bool, sshExe: Option<string>,
                 run: RunOutcome, spawn: SpawnOutcome, listeningAfter: bool): (a: StartAttempt)
    ensures listeningBefore ==> a.outcome == AlreadyRunning && a.launched.None?
    ensures !listeningBefore && sshExe.None? ==> a.outcome == NoSsh && a.launched.None?
    ensures a.launched.Some? <==> !listeningBefore && sshExe.Some?
    ensures a.launched.Some? ==>
      a.launched.value == LaunchArgv(ChooseLaunch(c.sshPassword, platform), sshExe.value, c.sshPassword, LocalForward(c), SshTarget(c))
    ensures Succeeded(a.outcome) ==> listeningBefore || listeningAfter
    ensures a.outcome.Started? ==> a.outcome.port == c.localPort
    ensures a.outcome != UnexpectedPath
    ensures a.outcome.SshFailed? && platform == Posix ==> a.outcome.error != ""
    ensures a.launched.Some? && platform == Posix ==>
      a.outcome == PosixOutcome(c.localPort, run, listeningAfter)
    ensures a.launched.Some? && platform == Windows ==>
      a.outcome == WindowsOutcome(c.localPort, spawn, listeningAfter)
  {
    if listeningBefore then StartAttempt(AlreadyRunning, None)
    else if sshExe.None? then StartAttempt(NoSsh, None)
    else
      var launch := ChooseLaunch(c.sshPassword, platform);
      var argv := LaunchArgv(launch, sshExe.value, c.sshPassword, LocalForward(c), SshTarget(c));
      var outcome :=
        if launch == WindowsBackground then WindowsOutcome(c.localPort, spawn, listeningAfter)
        else if platform.Posix? then PosixOutcome(c.localPort, run, listeningAfter)
        else UnexpectedPath;
      StartAttempt(outcome, Some(argv))
  }

  /** The `(success, message)` pairs `start` returns when the Unix launch exits 0. */
  lemma PosixReplies(c: VibeProxyConfig, sshExe: string, spawn: SpawnOutcome)
    ensures Reply(Start(c, Posix, false, Some(sshExe), Exited(0, "", ""), spawn, true).outcome)
      == (true, "Tunnel started on port " + IntToString(c.localPort))
    ensures Reply(Start(c, Posix, false, Some(sshExe), Exited(0, "", ""), spawn, false).outcome)
      == (false, "Tunnel process started but port not listening")
  {
    PosixLaunched(c, sshExe, Exited(0, "", ""), spawn, true);
    PosixLaunched(c, sshExe, Exited(0, "", ""), spawn, false);
  }

  /** The `(success, message)` pairs of the exception handlers after a Unix launch. */
  lemma PosixExceptionReplies(c: VibeProxyConfig, sshExe: string, spawn: SpawnOutcome, error: string)
    ensures Reply(Start(c, Posix, false, Some(sshExe), RunTimeout, spawn, false).outcome)
      == (false, "SSH connection timeout")
    ensures Reply(Start(c, Posix, false, Some(sshExe), RunFileNotFound("sshpass"), spawn, false).outcome)
      == (false, "sshpass not found - install it or use key-based auth")
    ensures Reply(Start(c, Posix, false, Some(sshExe), RunRaised(error), spawn, false).outcome) == (false, error)
  {
    PosixLaunched(c, sshExe, RunTimeout, spawn, false);
    PosixLaunched(c, sshExe, RunFileNotFound("sshpass"), spawn, false);
    PosixLaunched(c, sshExe, RunRaised(error), spawn, false);
    ContainsAt("sshpass", "sshpass", 0);
  }

  /** A Unix launch ends as `PosixOutcome` of its process result. */
  lemma PosixLaunched(c: VibeProxyConfig, sshExe: string, run: RunOutcome, spawn: SpawnOutcome, l: bool)
    ensures Start(c, Posix, false, Some(sshExe), run, spawn, l).outcome == PosixOutcome(c.localPort, run, l)
  {
  }

  /** The `(success, message)` pairs `start` returns while the Windows process runs. */
  lemma WindowsReplies(c: VibeProxyConfig, sshExe: string, run: RunOutcome)
    ensures Reply(Start(c, Windows, false, Some(sshExe), run, Alive, true).outcome)
      == (true, "Tunnel started on port " + IntToString(c.localPort))
    ensures Reply(Start(c, Windows, false, Some(sshExe), run, Alive, false).outcome)
      == (false, "SSH process started but port not listening")
  {
    WindowsLaunched(c, sshExe, run, Alive, true);
    WindowsLaunched(c, sshExe, run, Alive, false);
  }

  /** The `(success, message)` pairs when the Windows process dies at once or
      cannot be spawned. */
  lemma WindowsFailureReplies(c: VibeProxyConfig, sshExe: string, run: RunOutcome, error: string)
    ensures Reply(Start(c, Windows, false, Some(sshExe), run, Died(""), false).outcome)
      == (false, "SSH failed: Unknown error")
    ensures Reply(Start(c, Windows, false, Some(sshExe), run, SpawnRaised(error), false).outcome) == (false, error)
  {
    WindowsLaunched(c, sshExe, run, Died(""), false);
    WindowsLaunched(c, sshExe, run, SpawnRaised(error), false);
    assert "SSH failed: " + "Unknown error" == "SSH failed: Unknown error";
  }

  /** A Windows launch ends as `WindowsOutcome` of its process result. */
  lemma WindowsLaunched(c: VibeProxyConfig, sshExe: string, run: RunOutcome, spawn: SpawnOutcome, l: bool)
    ensures Start(c, Windows, false, Some(sshExe), run, spawn, l).outcome == WindowsOutcome(c.localPort, spawn, l)
  {
  }

  /** Every branch except sshpass builds the same command whatever the password. */
  lemma ArgvIgnoresPassword(l: Launch, sshExe: string, password: string, forward: string, target: string)
    requires l != SshPass
    ensures LaunchArgv(l, sshExe, password, forward, target) == LaunchArgv(l, sshExe, "", forward, target)
  {
  }

  /** The password is never passed on the command line except to sshpass. */
  lemma PasswordOnlyToSshpass(c: VibeProxyConfig, platform: Platform, sshExe: string,
                              run: RunOutcome, spawn: SpawnOutcome, listeningAfter: bool)
    requires platform == Windows || c.sshPassword == ""
    ensures var a := Start(c, platform, false, Some(sshExe), run, spawn, listeningAfter);
      a.launched.Some? && a.launched.value[0] == sshExe
  {
  }

  // ---- stop ---------------------------------------------------------------

  datatype StopOutcome = NotRunning | ManualStopRequired | Stopped | StillRunning | StopRaised(error: string)

  predicate StopSucceeded(o: StopOutcome) {
    o.NotRunning? || o.Stopped?
  }

  function StopMessage(o: StopOutcome): string {
    match o
    case NotRunning => "Tunnel not running"
    case ManualStopRequired => "Manual stop required: kill SSH process or close terminal"
    case Stopped => "Tunnel stopped"
    case StillRunning => "Failed to stop tunnel"
    case StopRaised(error) => error
  }

  /** The `pkill` invocation that targets this tunnel's ssh process. */
  function PkillArgv(port: int): seq<string> {
    ["pkill", "-f", "ssh.*" + IntToString(port) + ":localhost"]
  }

  /** The text after `ssh.*` in the pkill pattern begins the forward spec
      of the tunnel being stopped. */
  lemma PkillPatternMatchesForward(c: VibeProxyConfig)
    ensures PkillArgv(c.localPort)[2][5..] <= LocalForward(c)
  {
    assert PkillArgv(c.localPort)[2][5..] == IntToString(c.localPort) + ":localhost";
  }

  /** `stop`. `listening` and `listeningAfter` are the probes before and after
      pkill; `pkillError` is the exception running pkill raised, if any. */
  function Stop(platform: Platform, listening: bool, pkillError: Option<string>, listeningAfter: bool): (o: StopOutcome)
    ensures StopSucceeded(o) <==> !listening || (platform == Posix && pkillError.None? && !listeningAfter)
    ensures !listening ==> o == NotRunning
    ensures listening && platform == Windows ==> o == ManualStopRequired
    ensures listening && platform == Posix && pkillError.Some? ==> o == StopRaised(pkillError.value)
  {
    if !listening then NotRunning
    else if platform.Windows? then ManualStopRequired
    else if pkillError.Some? then StopRaised(pkillError.value)
    else if !listeningAfter then Stopped
    else StillRunning
  }

  /** `ensure_password_saved`: true exactly when the password holds a
      character other than white space. */
  function EnsurePasswordSaved(password: string): (saved: bool)
    ensures saved <==> exists i | 0 <= i < |password| :: !IsSpace(password[i])
  {
    StripEmptyIff(password);
    password != "" && Strip(password) != ""
  }

  /** No-break spaces, information separators and ideographic spaces are
      white space to `str.strip()`, so a password of them is not saved. */
  lemma UnicodeBlankPasswordNotSaved()
    ensures !EnsurePasswordSaved("\U{A0}\U{1F}\U{3000}")
    ensures EnsurePasswordSaved("\U{A0}pw\U{3000}")
  {
    assert !IsSpace("\U{A0}pw\U{3000}"[1]);
  }

  // ---- scan_network -------------------------------------------------------

  const FallbackIp: string := "192.168.50.1"
  const VibeProxyPort: int := 8317
  const SshPort: int := 22
  const VibeProxyLabel: string := "VibeProxy Host (8317)"
  const SshLabel: string := "SSH Host (22)"

  /** The local address: the one the routing socket reported, else the fallback. */
  function LocalIp(routed: Option<string>): string {
    routed.GetOr(FallbackIp)
  }

  lemma FirstThreeParts(ip: string)
    ensures var parts := Split(ip, '.');
      |parts| >= 3 ==> Split(Join(parts[..3], '.'), '.') == parts[..3]
  {
    var parts := Split(ip, '.');
    if |parts| >= 3 {
      SplitJoin(parts[..3], '.');
    }
  }

  /** `".".join(ip.split(".")[:3])`. */
  function Subnet(ip: string): (s: string)
    ensures s <= ip
    ensures |Split(ip, '.')| >= 3 ==> Split(s, '.') == Split(ip, '.')[..3]
    ensures |Split(ip, '.')| < 3 ==> s == ip
  {
    var parts := Split(ip, '.');
    var n := if |parts| < 3 then |parts| else 3;
    JoinSplitPrefix(ip, '.', n);
    FirstThreeParts(ip);
    JoinSplit(ip, '.');
    assert parts[..n] == parts || n == 3;
    Join(parts[..n], '.')
  }

  /** The 254 addresses probed: `subnet.1` to `subnet.254`, in order. */
  function Hosts(subnet: string): (ips: seq<string>)
    ensures |ips| == 254
    ensures forall i | 0 <= i < 254 :: ips[i] == subnet + "." + NatToString(i + 1)
  {
    seq(254, i requires 0 <= i < 254 => subnet + "." + NatToString(i + 1))
  }

  /** No address is probed twice. */
  lemma HostsDistinct(subnet: string)
    ensures Distinct(Hosts(subnet))
  {
    var ips := Hosts(subnet);
    forall i, j | 0 <= i < j < 254
      ensures ips[i] != ips[j]
    {
      if ips[i] == ips[j] {
        assert ips[i][|subnet| + 1..] == NatToString(i + 1);
        assert ips[j][|subnet| + 1..] == NatToString(j + 1);
        NatToStringInjective(i + 1, j + 1);
      }
    }
  }

  /** The probed addresses are exactly `subnet.n` for `n` from 1 to 254. */
  lemma HostsAreTheSubnet(subnet: string, n: nat)
    ensures subnet + "." + NatToString(n) in Hosts(subnet) <==> 1 <= n <= 254
  {
    var ips := Hosts(subnet);
    if 1 <= n <= 254 {
      assert ips[n - 1] == subnet + "." + NatToString(n);
    }
    if subnet + "." + NatToString(n) in ips {
      var i :| 0 <= i < 254 && ips[i] == subnet + "." + NatToString(n);
      assert ips[i][|subnet| + 1..] == NatToString(i + 1);
      assert (subnet + "." + NatToString(n))[|subnet| + 1..] == NatToString(n);
      NatToStringInjective(i + 1, n);
    }
  }

  /** What one `connect_ex` attempt did: connected, refused, or raised. */
  datatype Probe = Open | Closed | Failed

  datatype Device = Device(ip: string, hostLabel: string)

  /** `check_host`: the VibeProxy port first; the SSH port only when the
      VibeProxy port refused; an exception leaves the host out. */
  function CheckHost(ip: string, probe: (string, int) -> Probe): (r: Option<Device>)
    ensures r.Some? ==> r.value.ip == ip
    ensures r == Some(Device(ip, VibeProxyLabel)) <==> probe(ip, VibeProxyPort) == Open
    ensures r == Some(Device(ip, SshLabel)) <==> probe(ip, VibeProxyPort) == Closed && probe(ip, SshPort) == Open
    ensures r.Some? ==> r.value.hostLabel == VibeProxyLabel || r.value.hostLabel == SshLabel
  {
    match probe(ip, VibeProxyPort)
    case Open => Some(Device(ip, VibeProxyLabel))
    case Failed => None
    case Closed => if probe(ip, SshPort) == Open then Some(Device(ip, SshLabel)) else None
  }

  /** The ports `check_host` tries, in order. */
  function ProbesMade(ip: string, probe: (string, int) -> Probe): (ports: seq<int>)
    ensures |ports| >= 1 && ports[0] == VibeProxyPort
    ensures SshPort in ports <==> probe(ip, VibeProxyPort) == Closed
  {
    [VibeProxyPort] + if probe(ip, VibeProxyPort) == Closed then [SshPort] else []
  }

  /** The hosts found, in address order of probing. */
  function Found(ips: seq<string>, probe: (string, int) -> Probe): (r: seq<Device>)
    ensures |r| <= |ips|
    ensures forall i | 0 <= i < |r| :: r[i].ip in ips && CheckHost(r[i].ip, probe) == Some(r[i])
    ensures forall i | 0 <= i < |ips| :: CheckHost(ips[i], probe).Some? ==> CheckHost(ips[i], probe).value in r
    ensures Distinct(ips) ==> Distinct(r)
    decreases |ips|
  {
    if |ips| == 0 then []
    else
      var rest := Found(ips[1..], probe);
      match CheckHost(ips[0], probe)
      case None => rest
      case Some(d) =>
        assert Distinct(ips) ==> ips[0] !in ips[1..];
        [d] + rest
  }

  function DeviceIp(d: Device): string { d.ip }

  /** `scan_network`: the hosts found, sorted. Python sorts `(ip, label)` tuples;
      the addresses are distinct, so the label never decides the order. */
  function ScanNetwork(routed: Option<string>, probe: (string, int) -> Probe): (r: seq<Device>)
    ensures SortedBy(r, DeviceIp)
    ensures |r| <= 254
  {
    SortBy(Found(Hosts(Subnet(LocalIp(routed))), probe), DeviceIp)
  }

  /** A device in the found list was labelled so by `check_host`. */
  lemma InFound(ips: seq<string>, probe: (string, int) -> Probe, d: Device)
    requires d in Found(ips, probe)
    ensures d.ip in ips && CheckHost(d.ip, probe) == Some(d)
  {
    var found := Found(ips, probe);
    var i :| 0 <= i < |found| && found[i] == d;
  }

  /** Sorting neither adds nor drops devices. */
  lemma InScan(routed: Option<string>, probe: (string, int) -> Probe, d: Device)
    ensures d in ScanNetwork(routed, probe) <==> d in Found(Hosts(Subnet(LocalIp(routed))), probe)
  {
    var found := Found(Hosts(Subnet(LocalIp(routed))), probe);
    var r := ScanNetwork(routed, probe);
    assert d in r <==> d in multiset(r);
    assert d in found <==> d in multiset(found);
  }

  /** A device is reported exactly when its address is on the subnet and
      `check_host` labelled it so. */
  lemma ScanMembership(routed: Option<string>, probe: (string, int) -> Probe, d: Device)
    ensures d in ScanNetwork(routed, probe) <==>
      d.ip in Hosts(Subnet(LocalIp(routed))) && CheckHost(d.ip, probe) == Some(d)
  {
    var ips := Hosts(Subnet(LocalIp(routed)));
    InScan(routed, probe, d);
    if d in Found(ips, probe) {
      InFound(ips, probe, d);
    }
    if d.ip in ips && CheckHost(d.ip, probe) == Some(d) {
      var i :| 0 <= i < |ips| && ips[i] == d.ip;
      assert CheckHost(ips[i], probe).value in Found(ips, probe);
    }
  }

  /** Each address appears at most once, so the result is strictly ordered. */
  lemma ScanStrictlySorted(routed: Option<string>, probe: (string, int) -> Probe)
    ensures StrictlySortedBy(ScanNetwork(routed, probe), DeviceIp)
  {
    var ips := Hosts(Subnet(LocalIp(routed)));
    var found := Found(ips, probe);
    var r := ScanNetwork(routed, probe);
    HostsDistinct(Subnet(LocalIp(routed)));
    PermutationKeepsDistinct(found, r);
    forall i, j | 0 <= i < j < |r|
      ensures r[i].ip != r[j].ip
    {
      InScan(routed, probe, r[i]);
      InScan(routed, probe, r[j]);
      InFound(ips, probe, r[i]);
      InFound(ips, probe, r[j]);
    }
    SortedDistinctIsStrict(r, DeviceIp);
  }

  /** The threads append in whatever order they finish; any such order sorts
      to the same result. */
  lemma ScanIgnoresArrivalOrder(routed: Option<string>, probe: (string, int) -> Probe, arrived: seq<Device>)
    requires multiset(arrived) == multiset(Found(Hosts(Subnet(LocalIp(routed))), probe))
    ensures SortBy(arrived, DeviceIp) == ScanNetwork(routed, probe)
  {
    var ips := Hosts(Subnet(LocalIp(routed)));
    var found := Found(ips, probe);
    var a := SortBy(arrived, DeviceIp);
    var r := ScanNetwork(routed, probe);
    ScanStrictlySorted(routed, probe);
    HostsDistinct(Subnet(LocalIp(routed)));
    PermutationKeepsDistinct(found, a);
    forall i, j | 0 <= i < j < |a|
      ensures a[i].ip != a[j].ip
    {
      assert a[i] in multiset(found) && a[j] in multiset(found);
      assert a[i] in found && a[j] in found;
    }
    SortedDistinctIsStrict(a, DeviceIp);
    StrictlySortedUnique(a, r, DeviceIp);
  }

  /** The order is textual: `x.10` comes before `x.2`. */
  lemma TenSortsBeforeTwo()
    ensures Lt("192.168.50.10", "192.168.50.2")
  {
    assert "192.168.50.10"[1..] == "92.168.50.10";
  }
}

=== FILE: wrappers.dfy ===
/** Optional values, used wherever the source reads a key that may be absent
    or receives `None` / `undefined`. */
module Wrappers {

  datatype Option<+T> = None | Some(value: T) {

    /** The carried value, or `default` when there is none (`dict.get(k, default)`). */
    function GetOr(default: T): T {
      match this
      case Some(v) => v
      case None => default
    }
  }
}
